=== FILE: README.md ===
# SPA shipment packing assistant: a Dafny model of its core

SPA (package `ru.bioresourceslab`) helps a laboratory pack a shipment of
biological samples. A shipment is an ordered list of samples. Each sample has
a code, a weight, a "packed" flag and a five-part storage location. The list is
laid out on a map of boxes: each box holds `rows` x `columns` samples, and
blank separator rows sit between boxes. Samples are pasted in as text,
navigated with next/previous commands, and weighed by voice.

The model covers these parts, one module each:

| module | file | models |
|---|---|---|
| `Util` | `util.dfy` | Java integer division, `Math.max`, `String.indexOf`, `String.split` with and without a limit |
| `Geometry` | `geometry.dfy` | `BoxOptions`: clamped box parameters, box counting, index-to-cell and cell-to-index translation |
| `Locations` | `locations.dfy` | `Location`: the location flags, `DELIMITER`, `SPACER`, `getLocationFromStr` |
| `Samples` | `samples.dfy` | `Sample`: its fields and setters, and `get(flags)` rendering |
| `ShipmentModel` | `shipment.dfy` | `Shipment`: the list operations, the map rebuilt by `convertToMap`, `getCellString` |
| `SampleInput` | `sample_input.dfy` | `EditSampleUI.getData`: the parser of pasted sample text |
| `Events` | `events.dfy` | `AbstractShipment`: listener registration and `fireEvent` dispatch |
| `Voice` | `voice.dfy` | `RecognizerThread`: flags, range and `interpretWeight` |
| `AppUI` | `appui.dfy` | `listSelect`, `parseColorDef` and the font-style switch of `AppUI` / `AppUIv2` |

## How the model is built

- **Objects that change in place become classes.**
  - `BoxOptions`, `Sample`, `Shipment`, `AbstractShipment` and `RecognizerThread` are classes.
  - Their methods say in `modifies` what they may change.
  - `Shipment` holds its list as a `seq<Sample>` of references, so two list entries may be the same sample, as in Java.
  - The table model is a `seq<seq<Option<string>>>`.
- **Loops stay loops.** `translate(row, col)`, `convertToMap`, `getData` with its token loop, `fireEvent`, `listSelect` and `parseColorDef` are methods with loops. Each is proved equal to a specification function, and the properties are proved about that function.
- **Java semantics are written out.**
  - Flag words are `bv32`.
  - Java's truncating `/` and `%` are `JDiv` and `JRem`.
  - `(int)` of a double is truncation, and `Math.ceil` is `Ceiling`.
  - `String.split` drops trailing empty parts when there is no limit.
  - `StringTokenizer` treats every character of its delimiter string as a delimiter.
  - `Integer.parseInt(s, 16)` accepts a leading sign.
  - `Font.BOLD & Font.ITALIC` is 0.
- **Outside code becomes parameters.** `Double.parseDouble` and `String.valueOf(double)` are parameters of `Voice.Interpret`, and doubles are reals. The listeners' handlers are not visible, so `fireEvent` returns the calls it makes as a trace.
- **Source gaps are bridged.**
  - `SPACER` is imported from `Location` but declared nowhere. The model keeps it as a constant non-empty string with no fixed value.
  - `fireEvent` builds its event with three arguments, while the `ShipmentEvent` class in the repository has a two-argument constructor. The model's event carries source, type and target.
  - `Shipment` and `AppUI` call getters that `Sample` does not declare. These are modelled as field reads.

## Model

| member | source | states |
|---|---|---|
| `Util.JDiv` | src/main/java/ru/bioresourceslab/BoxOptions.java:77 | Java's `/` on `int`, truncating toward zero; defined directly, and `JavaDivIsEuclideanOnNaturals` proves it agrees with Dafny's `/` for a dividend ≥ 0 |
| `Util.JRem` | src/main/java/ru/bioresourceslab/BoxOptions.java:78 | Java's `%` on `int`: the remainder that goes with `JDiv`, with the dividend's sign |
| `Util.Max` | src/main/java/ru/bioresourceslab/BoxOptions.java:27 | `Math.max`: at least both arguments, and equal to one of them |
| `Util.IndexOf` | src/main/java/ru/bioresourceslab/Shipment.java:533 | `indexOf('.')`: the first occurrence, or -1 exactly when the character is absent |
| `Util.IndexOfSub` | src/main/java/ru/bioresourceslab/EditSampleUI.java:88 | the first position at which a string occurs, or -1 when it occurs nowhere |
| `Util.SplitAll` | src/main/java/ru/bioresourceslab/EditSampleUI.java:79 | the unlimited split gives at least one part, and no part holds the separator |
| `Util.JoinSplitAll` | src/main/java/ru/bioresourceslab/EditSampleUI.java:79 | joining the parts of a split gives the text back |
| `Util.SplitLimit` | src/main/java/ru/bioresourceslab/Location.java:24 | the split with limit 5 gives 1 to 5 parts, and all but the last are free of '.' |
| `Util.JoinSplitLimit` | src/main/java/ru/bioresourceslab/Location.java:24 | the limited split loses nothing: its parts joined with '.' give the input |
| `Util.SplitLimitLength` | src/main/java/ru/bioresourceslab/Location.java:24 | the limited split yields min(limit, dots + 1) parts |
| `Geometry.BoxOptions.constructor` | src/main/java/ru/bioresourceslab/BoxOptions.java:20-24 | rows and columns are clamped to at least 1 and the separator to at least 0, each by `max` |
| `Geometry.BoxOptions.SetRowsCount` | src/main/java/ru/bioresourceslab/BoxOptions.java:26-28 | rows becomes max(rows, 1), and nothing else changes |
| `Geometry.BoxOptions.SetColumnsCount` | src/main/java/ru/bioresourceslab/BoxOptions.java:30-32 | columns becomes max(columns, 1), and nothing else changes |
| `Geometry.BoxOptions.SetSeparator` | src/main/java/ru/bioresourceslab/BoxOptions.java:34-36 | separator becomes max(separator, 0), and nothing else changes |
| `Geometry.BoxOptions.Set` | src/main/java/ru/bioresourceslab/BoxOptions.java:38-42 | all three parameters are clamped as their setters do, and the box stays valid |
| `Geometry.Capacity` | src/main/java/ru/bioresourceslab/BoxOptions.java:52 | `getCapacity`: columns · rows; defined directly |
| `Geometry.BoxesCount` | src/main/java/ru/bioresourceslab/BoxOptions.java:59-66 | `getBoxesCount`: the quotient as a real, truncated under FULL_ONLY and rounded up otherwise; defined directly, its values are proved in `BoxesCountOfNatural` and `BoxesCountOfNegative` |
| `Geometry.IndexToCell` | src/main/java/ru/bioresourceslab/BoxOptions.java:74-80 | `translate(index)`: x = index % columns and y = index / columns + separator · full boxes, with Java's truncating operators; defined directly, its shape is proved in `IndexToCellShape` |
| `Geometry.CellToIndex` | src/main/java/ru/bioresourceslab/BoxOptions.java:83-92 | `translate(row, col)`: the row moved up off the separator band, then full rows · columns + col; defined directly, the round trips are proved in `CellOfIndexRoundTrip` and `IndexOfCellRoundTrip` |
| `Geometry.BoxOptions.TranslateCell` | src/main/java/ru/bioresourceslab/BoxOptions.java:83-95 | the loop that moves a click up off the separator rows, then the index arithmetic, returns `CellToIndex` |
| `Geometry.BoxesCountOfNatural` | src/main/java/ru/bioresourceslab/BoxOptions.java:59-71 | for a count ≥ 0, FULL_ONLY is floor(count / capacity) and ALL (the one-argument overload) is the ceiling |
| `Geometry.BoxesCountOfNegative` | src/main/java/ru/bioresourceslab/BoxOptions.java:61-65 | for a negative count both modes truncate toward zero, giving Java's count / capacity, which is ≤ 0 |
| `Geometry.BoxesCountBoundaries` | src/main/java/ru/bioresourceslab/BoxOptions.java:59-71 | 0 samples need 0 boxes; `capacity` samples need 1 box; `capacity + 1` need 2 boxes under ALL and fill 1 under FULL_ONLY |
| `Geometry.BoxesCountMode` | src/main/java/ru/bioresourceslab/BoxOptions.java:62-65 | only bit 0x01 of `state` selects FULL_ONLY; every other value counts like ALL |
| `Geometry.IndexToCellShape` | src/main/java/ru/bioresourceslab/BoxOptions.java:74-80 | for index ≥ 0, x = index mod columns and y = index div columns + separator · (index div capacity) |
| `Geometry.IndexRowIsContent` | src/main/java/ru/bioresourceslab/BoxOptions.java:74-80 | the cell of an index ≥ 0 lies inside the grid and never on a separator row |
| `Geometry.FirstIndexOfBox` | src/main/java/ru/bioresourceslab/BoxOptions.java:77-78 | the first index of box k lands at column 0 of row k · (rows + separator) |
| `Geometry.IndexToCellRowMonotone` | src/main/java/ru/bioresourceslab/BoxOptions.java:77 | a later index never sits on an earlier map row |
| `Geometry.InSeparatorBandMeans` | src/main/java/ru/bioresourceslab/BoxOptions.java:85 | the loop guard holds exactly for a row ≥ 0 whose position in its block is at least `rows` |
| `Geometry.BandStep` | src/main/java/ru/bioresourceslab/BoxOptions.java:85-87 | one step of the loop keeps the row at which it will stop |
| `Geometry.SeparatorClick` | src/main/java/ru/bioresourceslab/BoxOptions.java:85-91 | a click on a separator row moves up 1 to `separator` rows, to the last content row of the box above, and gives that row's index |
| `Geometry.CellToIndexInBlock` | src/main/java/ru/bioresourceslab/BoxOptions.java:89-91 | a content cell in row j of block k has index (k · rows + j) · columns + col |
| `Geometry.CellOfIndexRoundTrip` | src/main/java/ru/bioresourceslab/BoxOptions.java:77-91 | for index ≥ 0, translating to a cell and back gives the index |
| `Geometry.IndexOfCellRoundTrip` | src/main/java/ru/bioresourceslab/BoxOptions.java:77-91 | a content cell inside the box width translates to an index ≥ 0 whose cell is that cell |
| `Locations.GetLocationFromStr` | src/main/java/ru/bioresourceslab/Location.java:23-48 | "X" for fewer than five parts, then "F" with no location flag, else the part of the lowest flag set; defined directly, proved in `ShortSourceIsX`, `NoFlagIsF` and `LowestFlagPicksPart` |
| `Locations.LocationPartsShape` | src/main/java/ru/bioresourceslab/Location.java:16-24 | at most five parts; the first four have no dot; the fifth keeps any further dots; five parts exactly when there are four dots or more |
| `Locations.ShortSourceIsX` | src/main/java/ru/bioresourceslab/Location.java:24-26 | fewer than four dots gives "X", whatever the flags are |
| `Locations.NoFlagIsF` | src/main/java/ru/bioresourceslab/Location.java:26 | a well-formed source with no bit of LOC_ALL set gives "F" |
| `Locations.LowestFlagPicksPart` | src/main/java/ru/bioresourceslab/Location.java:28-46 | the lowest location flag set picks its part: storage 0, rack 1, box 2, row 3, column 4 |
| `Locations.LocationIgnoresHighBits` | src/main/java/ru/bioresourceslab/Location.java:26-47 | bits outside LOC_ALL never change the answer |
| `Samples.Sample.constructor` | src/main/java/ru/bioresourceslab/Sample.java:20-32 | a new sample has weight "", is not packed, and takes the other six fields from the arguments |
| `Samples.Sample.SetCode` | src/main/java/ru/bioresourceslab/Sample.java:35-37 | only the code changes |
| `Samples.Sample.SetWeight` | src/main/java/ru/bioresourceslab/Sample.java:39-41 | only the weight changes |
| `Samples.Sample.SetPacked` | src/main/java/ru/bioresourceslab/Sample.java:43-45 | only the packed flag changes |
| `Samples.Sample.SetStorage` | src/main/java/ru/bioresourceslab/Sample.java:47-49 | only the storage changes |
| `Samples.Sample.SetRack` | src/main/java/ru/bioresourceslab/Sample.java:51-53 | only the rack changes |
| `Samples.Sample.SetBox` | src/main/java/ru/bioresourceslab/Sample.java:55-57 | only the box changes |
| `Samples.Sample.SetRow` | src/main/java/ru/bioresourceslab/Sample.java:59-61 | only the row changes |
| `Samples.Sample.SetColumn` | src/main/java/ru/bioresourceslab/Sample.java:63-65 | only the column changes |
| `Samples.Render` | src/main/java/ru/bioresourceslab/Sample.java:73-109 | `get(flags)` as a value: "nothing requested" for no field flag, else the eight guarded appends; defined directly, proved in `RenderIsGlue` and the lemmas after it |
| `Samples.Sample.Get` | src/main/java/ru/bioresourceslab/Sample.java:73-109 | the successive appends of `get(flags)` produce `Render`, the rendering whose properties follow |
| `Samples.AppendIfSelected` | src/main/java/ru/bioresourceslab/Sample.java:80-83 | a selected field is appended, after its separator unless the result is empty or already ends with SPACER |
| `Samples.RenderIsGlue` | src/main/java/ru/bioresourceslab/Sample.java:75-108 | "nothing requested" exactly when flags & 0xFF is 0; otherwise the selected fields, appended in the fixed order |
| `Samples.RenderIgnoresHighBits` | src/main/java/ru/bioresourceslab/Sample.java:75-107 | get(f) == get(f & 0xFF) |
| `Samples.FieldFlagsDisjoint` | src/main/java/ru/bioresourceslab/Sample.java:9-16 | the eight field flags are distinct single bits |
| `Samples.RenderSingleField` | src/main/java/ru/bioresourceslab/Sample.java:77-107 | a single field flag renders exactly that field with no separator; `get(SAMPLE_CODE)` is the code |
| `Samples.GlueOfClean` | src/main/java/ru/bioresourceslab/Sample.java:81-105 | when every field text is non-empty and not ending with SPACER's last character, every separator goes in, and the glued text is again non-empty and not ending with SPACER's last character |
| `Samples.RenderAllClean` | src/main/java/ru/bioresourceslab/Sample.java:77-107 | when the code, weight, storage, rack, box, row and column are each non-empty and not ending with SPACER's last character, and SPACER does not end with 'e' (the last letter of "true"/"false"): get(SAMPLE_ALL) is code, weight, "true"/"false" and storage joined by SPACER, then rack, box, row and column each after DELIMITER |
| `Samples.SeparatorSuppressed` | src/main/java/ru/bioresourceslab/Sample.java:80-83 | a code ending with SPACER, or an empty code, gets no separator before the weight; any other code gets one |
| `Samples.RenderCodeAndLocation` | src/main/java/ru/bioresourceslab/Sample.java:77-107 | when the code and the five location parts are each non-empty and not ending with SPACER's last character: get(SAMPLE_CODE \| SAMPLE_LOCATION) is code, SPACER, then the five location parts joined by DELIMITER |
| `Samples.CodeAndLocationIsNothing` | src/main/java/ru/bioresourceslab/AppUIv2.java:250 | SAMPLE_CODE & SAMPLE_LOCATION is 0, so the list cell text is "nothing requested" for every sample |
| `ShipmentModel.Insert` | src/main/java/ru/bioresourceslab/Shipment.java:118-122 | the list model's `add(i, x)`: x at i, earlier elements kept, later ones shifted one place up |
| `ShipmentModel.Delete` | src/main/java/ru/bioresourceslab/Shipment.java:107 | the list model's `remove(i)`: earlier elements kept, later ones shifted one place down |
| `ShipmentModel.Relocate` | src/main/java/ru/bioresourceslab/Shipment.java:115-123 | `moveSample`'s effect on the list: the sample at index placed at destination, the ones between shifted by one; defined directly, proved in the `Relocate…` lemmas |
| `ShipmentModel.RelocateIsRemoveInsert` | src/main/java/ru/bioresourceslab/Shipment.java:116-124 | the relocation is the element removed and re-inserted at the destination |
| `ShipmentModel.RelocateForward` | src/main/java/ru/bioresourceslab/Shipment.java:116-119 | toward the end: a copy inserted after the destination, then the original removed, is the relocation |
| `ShipmentModel.RelocateBackward` | src/main/java/ru/bioresourceslab/Shipment.java:120-123 | toward the front: a copy inserted at the destination, then the original (now one further on) removed, is the relocation |
| `ShipmentModel.RelocatePermutes` | src/main/java/ru/bioresourceslab/Shipment.java:116-124 | a relocation keeps the length and the multiset of samples |
| `ShipmentModel.RelocateIdentity` | src/main/java/ru/bioresourceslab/Shipment.java:116-124 | index == destination changes nothing |
| `ShipmentModel.RelocateAdjacentIsSwap` | src/main/java/ru/bioresourceslab/Shipment.java:116-124 | moving to a neighbouring place, either way, swaps the two samples |
| `ShipmentModel.RelocateUndo` | src/main/java/ru/bioresourceslab/Shipment.java:112-127 | moving the sample back from destination to index restores the list |
| `ShipmentModel.RelocateIsNotSwap` | src/main/java/ru/bioresourceslab/Shipment.java:116-124 | moving 0 to 2 in [0, 1, 2] gives [1, 2, 0], not a swap |
| `ShipmentModel.CellText` | src/main/java/ru/bioresourceslab/Shipment.java:190-193 | a cell's text: the code, plus " " and the weight when the sample is packed; defined directly |
| `ShipmentModel.MapRowCountAsWritten` | src/main/java/ru/bioresourceslab/Shipment.java:186 | the row count as written, `translate(size - 1).y + 1`, negative for some empty lists; defined directly, see Findings |
| `ShipmentModel.MapRowCount` | src/main/java/ru/bioresourceslab/Shipment.java:186 | the row count the rebuilt map uses: the written one, kept from going negative; defined directly, proved in `MapRowCountCovers` and `MapRowCountCorrected` |
| `ShipmentModel.RenderMap` | src/main/java/ru/bioresourceslab/Shipment.java:184-195 | the map `convertToMap` builds: each sample's cell text at `translate(i)`; defined directly, proved in `RenderMapShowsSample`, `RenderMapOnlySamples` and `RenderMapWidth` |
| `ShipmentModel.EmptyMap` | src/main/java/ru/bioresourceslab/Shipment.java:185-187 | a map of the needed size that shows no sample yet has only empty cells |
| `ShipmentModel.MapRowCountCovers` | src/main/java/ru/bioresourceslab/Shipment.java:186-189 | on a non-empty list the row count is translate(size-1).y + 1, and every index's row lies inside the map |
| `ShipmentModel.CellHoldsIndex` | src/main/java/ru/bioresourceslab/Shipment.java:188-194 | a cell is `translate(index)` exactly when it is a content cell inside the box width that translates back to index |
| `ShipmentModel.MapUpToStep` | src/main/java/ru/bioresourceslab/Shipment.java:188-194 | writing sample i into cell translate(i) extends the map by exactly that sample |
| `ShipmentModel.RenderMapShowsSample` | src/main/java/ru/bioresourceslab/Shipment.java:184-195 | cell translate(i) holds the code of sample i, plus " " and the weight when it is packed |
| `ShipmentModel.RenderMapOnlySamples` | src/main/java/ru/bioresourceslab/Shipment.java:184-195 | every non-empty cell is translate(i) for some list index i, so all other cells are empty |
| `ShipmentModel.RenderMapWidth` | src/main/java/ru/bioresourceslab/Shipment.java:187 | every map row has one cell per box column |
| `ShipmentModel.EmptyListRowCount` | src/main/java/ru/bioresourceslab/Shipment.java:186 | as written, an empty list asks for 1 row when columns > 1, for 0 rows with one-column boxes of several rows, and for -separator rows with 1 x 1 boxes |
| `ShipmentModel.EmptyMapRowCountNegative` | src/main/java/ru/bioresourceslab/Shipment.java:186 | as written, emptying a shipment with 1 x 1 boxes and separator 2 asks for -2 rows |
| `ShipmentModel.MapRowCountCorrected` | src/main/java/ru/bioresourceslab/Shipment.java:186 | the corrected row count equals the written one whenever that is ≥ 0, and is at most 1 for an empty list |
| `ShipmentModel.GetCellString` | src/main/java/ru/bioresourceslab/Shipment.java:532-538 | the text before the first '.' when that '.' is at position > 0; the source unchanged otherwise |
| `ShipmentModel.GetCellStringIdempotent` | src/main/java/ru/bioresourceslab/Shipment.java:532-538 | cutting twice gives the same as cutting once |
| `ShipmentModel.CopyFields` | src/main/java/ru/bioresourceslab/Shipment.java:146-181 | the sample after `setSample(index, flags, newSample)`: each flagged field from the new sample, the others kept; defined directly, proved in `CopyFieldsBounds` and the lemmas after it |
| `ShipmentModel.CopyFieldsBounds` | src/main/java/ru/bioresourceslab/Shipment.java:146-181 | no field flag copies nothing; SAMPLE_ALL copies every field |
| `ShipmentModel.CopyFieldsIdempotent` | src/main/java/ru/bioresourceslab/Shipment.java:146-181 | copying the same fields again changes nothing |
| `ShipmentModel.UnionSelects` | src/main/java/ru/bioresourceslab/Shipment.java:148-178 | a field is selected by f \| g exactly when f or g selects it |
| `ShipmentModel.CopyFieldsUnion` | src/main/java/ru/bioresourceslab/Shipment.java:146-181 | two copies from one source are one copy with the union of the flags |
| `ShipmentModel.CopyFieldsOneByOne` | src/main/java/ru/bioresourceslab/Shipment.java:150-180 | the eight guarded setter calls in order give `CopyFields` |
| `ShipmentModel.CopyLeadingFields` | src/main/java/ru/bioresourceslab/Shipment.java:150-164 | the code, weight, packed and storage steps set exactly the flagged ones of those fields |
| `ShipmentModel.CopyLocationParts` | src/main/java/ru/bioresourceslab/Shipment.java:166-180 | the rack, box, row and column steps set exactly the flagged ones of those fields |
| `ShipmentModel.DataOf` | src/main/java/ru/bioresourceslab/Shipment.java:188-194 | the values of the listed samples, one per entry, in list order |
| `ShipmentModel.Shipment.constructor` | src/main/java/ru/bioresourceslab/Shipment.java:43-51 | 9 x 9 boxes with separator 2, no samples, an empty map with 9 columns, number "N" |
| `ShipmentModel.Shipment.GetBoxesCount` | src/main/java/ru/bioresourceslab/Shipment.java:86-88 | the boxes needed: ceiling(size / capacity), never negative |
| `ShipmentModel.Shipment.Translate` | src/main/java/ru/bioresourceslab/Shipment.java:130-132 | no bounds check; for index ≥ 0 the cell lies inside the grid, off the separator rows, and translates back to index |
| `ShipmentModel.Shipment.Clear` | src/main/java/ru/bioresourceslab/Shipment.java:91-96 | no samples, no map rows, map width = columns, number "0" |
| `ShipmentModel.Shipment.ConvertToMap` | src/main/java/ru/bioresourceslab/Shipment.java:184-195 | the loop leaves exactly `RenderMap` of the current list: the cells and their contents are those the lemmas above describe |
| `ShipmentModel.Shipment.AddSample` | src/main/java/ru/bioresourceslab/Shipment.java:99-102 | the sample is appended, earlier ones are untouched, and the map is rebuilt |
| `ShipmentModel.Shipment.RemoveSample` | src/main/java/ru/bioresourceslab/Shipment.java:105-109 | out of range nothing changes; otherwise exactly that entry is deleted and the map is rebuilt |
| `ShipmentModel.Shipment.MoveSample` | src/main/java/ru/bioresourceslab/Shipment.java:112-127 | -1 for a bad destination, checked first; then -2 for a bad index; unchanged on error; otherwise relocation, rebuilt map and 0 |
| `ShipmentModel.Shipment.RevertSampleStatus` | src/main/java/ru/bioresourceslab/Shipment.java:134-138 | flips only the packed flag of an in-range sample; the list and the map stay; out of range nothing changes |
| `ShipmentModel.RevertTwice` | src/main/java/ru/bioresourceslab/Shipment.java:134-138 | reverting the same sample twice restores it |
| `ShipmentModel.Shipment.SetSample` | src/main/java/ru/bioresourceslab/Shipment.java:141-143 | an index outside the list throws `ArrayIndexOutOfBoundsException` and changes nothing; otherwise exactly that entry is replaced; the map is not rebuilt |
| `ShipmentModel.Shipment.SetSampleFields` | src/main/java/ru/bioresourceslab/Shipment.java:146-181 | with no field flag nothing changes; with one and an index outside the list, `ArrayIndexOutOfBoundsException` before any write; otherwise exactly the flagged fields are copied from the new sample |
| `SampleInput.SplitLines` | src/main/java/ru/bioresourceslab/EditSampleUI.java:79 | `getText().split("\n")`: the whole text when it has no newline, else the parts with trailing empty ones dropped; defined directly, proved in `NoLinesExactly` and `OneLine` |
| `SampleInput.DropTrailingEmpty` | src/main/java/ru/bioresourceslab/EditSampleUI.java:79 | `split` without a limit keeps a prefix of the parts that ends in a non-empty part, dropping only empty ones |
| `SampleInput.SplitAllEmptyParts` | src/main/java/ru/bioresourceslab/EditSampleUI.java:79 | every part is empty exactly when the text holds only separators |
| `SampleInput.NoLinesExactly` | src/main/java/ru/bioresourceslab/EditSampleUI.java:79-83 | the split yields no line exactly when the text is a non-empty run of newlines |
| `SampleInput.Tokens` | src/main/java/ru/bioresourceslab/EditSampleUI.java:90-93 | the tokens of a `StringTokenizer` over the characters of DELIMITER; defined directly, proved in `TokensShape` and the lemmas after it |
| `SampleInput.TokenLength` | src/main/java/ru/bioresourceslab/EditSampleUI.java:91-93 | a token runs up to the next delimiter character, or to the end |
| `SampleInput.TokensShape` | src/main/java/ru/bioresourceslab/EditSampleUI.java:91-93 | tokens are non-empty and delimiter-free, and together they are the text minus its delimiters |
| `SampleInput.TokensOfWord` | src/main/java/ru/bioresourceslab/EditSampleUI.java:91-93 | a delimiter-free word followed by a delimiter, or by nothing, is one token |
| `SampleInput.TokensSkipDelimiters` | src/main/java/ru/bioresourceslab/EditSampleUI.java:91-93 | leading delimiters yield no token |
| `SampleInput.LettersQAndESplitTokens` | src/main/java/ru/bioresourceslab/EditSampleUI.java:91 | 'Q' and 'E' of `\Q.\E` are delimiters too: "FREEZER" is the tokens "FR", "Z", "R" |
| `SampleInput.Padded` | src/main/java/ru/bioresourceslab/EditSampleUI.java:85-93 | five location parts: the tokens in order, then "0" |
| `SampleInput.ParseLine` | src/main/java/ru/bioresourceslab/EditSampleUI.java:84-96 | one line of `getData`: the code before the first SPACER and the padded tokens after it, failing at a sixth token; defined directly, proved in `LineWithoutSpacer`, `LineWithSpacer` and `ParseCodeAndLocationLine` |
| `SampleInput.LineWithoutSpacer` | src/main/java/ru/bioresourceslab/EditSampleUI.java:85-96 | a line without SPACER is all code, with every location part "0" |
| `SampleInput.LineWithSpacer` | src/main/java/ru/bioresourceslab/EditSampleUI.java:85-96 | the code is the text before the first SPACER; the locations are the tokens after it, padded with "0"; a sixth token fails the line; weight "" and not packed |
| `SampleInput.ParseEachSpec` | src/main/java/ru/bioresourceslab/EditSampleUI.java:84-97 | one sample per non-empty line, in order, each what the line parser makes of it; the lines fail exactly when one non-empty line does |
| `SampleInput.ParseText` | src/main/java/ru/bioresourceslab/EditSampleUI.java:77-100 | `getData` as a value: null for no lines, else the non-empty lines parsed in order; defined directly, proved in `ParseTextSpec` |
| `SampleInput.ParseTextSpec` | src/main/java/ru/bioresourceslab/EditSampleUI.java:77-100 | null exactly for a non-empty text of newlines only; otherwise the outcome is the line-by-line reading: one sample per non-empty line in order, or the index error exactly when some non-empty line has more than five tokens |
| `SampleInput.OneLine` | src/main/java/ru/bioresourceslab/EditSampleUI.java:79-97 | a text with no newline is parsed as its single line |
| `SampleInput.SpacerAfterCode` | src/main/java/ru/bioresourceslab/EditSampleUI.java:88 | SPACER right after a code that lacks its first character is the first SPACER of the line |
| `SampleInput.TokensAfterDelimiter` | src/main/java/ru/bioresourceslab/EditSampleUI.java:91-93 | DELIMITER followed by a delimiter-free word yields that word as the next token |
| `SampleInput.TokensOfLocation` | src/main/java/ru/bioresourceslab/EditSampleUI.java:91-93 | five delimiter-free parts joined by DELIMITER come back as those five tokens |
| `SampleInput.ParseCodeAndLocationLine` | src/main/java/ru/bioresourceslab/EditSampleUI.java:85-96 | when the code does not contain SPACER's first character and the five parts are non-empty and free of the characters of DELIMITER: code + SPACER + the five parts joined by DELIMITER parses back to the same code and parts, with weight "" and not packed |
| `SampleInput.ReadsBackCodeAndLocation` | src/main/java/ru/bioresourceslab/EditSampleUI.java:85-96 | when the code and the five location parts are each non-empty and not ending with SPACER's last character, the code does not contain SPACER's first character and the parts are free of the characters of DELIMITER: parsing get(SAMPLE_CODE \| SAMPLE_LOCATION) gives back the sample's code and location, with weight "" and not packed (a part such as "FREEZER", which holds 'E', does not read back) |
| `SampleInput.GetData` | src/main/java/ru/bioresourceslab/EditSampleUI.java:77-100 | the loop over the lines returns `ParseText` of the text |
| `SampleInput.ReadLine` | src/main/java/ru/bioresourceslab/EditSampleUI.java:85-96 | the body for one line: filling `loc[]` token by token returns `ParseLine`, and fails at a sixth token |
| `Events.RemoveLast` | src/main/java/ru/bioresourceslab/AbstractShipment.java:19-21 | `EventListenerList.remove`: drops the last registration of the listener, if any; defined directly, proved in `RemoveLastSpec` and `RemoveUndoesAdd` |
| `Events.LastIndexOf` | src/main/java/ru/bioresourceslab/AbstractShipment.java:19-21 | the last position of a listener, or -1 exactly when it is not registered |
| `Events.AbstractShipment.constructor` | src/main/java/ru/bioresourceslab/AbstractShipment.java:11 | no listener is registered |
| `Events.AbstractShipment.AddListener` | src/main/java/ru/bioresourceslab/AbstractShipment.java:14-16 | one more registration, the latest |
| `Events.AbstractShipment.RemoveListener` | src/main/java/ru/bioresourceslab/AbstractShipment.java:19-21 | the latest registration of the listener is dropped |
| `Events.RemoveUndoesAdd` | src/main/java/ru/bioresourceslab/AbstractShipment.java:14-21 | removing a listener just added restores the registrations |
| `Events.RemoveLastSpec` | src/main/java/ru/bioresourceslab/AbstractShipment.java:19-21 | an unregistered listener changes nothing; otherwise exactly one registration goes (the latest), and the others keep their order |
| `Events.AbstractShipment.FireEvent` | src/main/java/ru/bioresourceslab/AbstractShipment.java:28-59 | no event without listeners; a null source with listeners throws `IllegalArgumentException` before any call; otherwise one event with the given source, type and target, and the calls are `Dispatch` of the registrations |
| `Events.Notify` | src/main/java/ru/bioresourceslab/AbstractShipment.java:38-56 | one listener gets `defaultAction`, then the handler of the type, if any |
| `Events.TypedHandler` | src/main/java/ru/bioresourceslab/AbstractShipment.java:39-56 | the `switch` on the event type: the handler of types 0 to 3, none otherwise; defined directly, proved in `TypedHandlerCases` |
| `Events.ListenerCalls` | src/main/java/ru/bioresourceslab/AbstractShipment.java:38-56 | the calls one listener receives: `defaultAction`, then its typed handler if any; defined directly |
| `Events.Dispatch` | src/main/java/ru/bioresourceslab/AbstractShipment.java:33-58 | the calls of `fireEvent`'s loop, latest registration first; defined directly, proved in `DispatchTyped`, `DispatchUntyped` and `DispatchSharesEvent` |
| `Events.DispatchTyped` | src/main/java/ru/bioresourceslab/AbstractShipment.java:33-56 | for types 0 to 3, two calls per listener, from the latest registered to the oldest: `defaultAction`, then the typed handler |
| `Events.DispatchUntyped` | src/main/java/ru/bioresourceslab/AbstractShipment.java:33-56 | for any other type, only `defaultAction` for each listener, from the latest registered to the oldest |
| `Events.TypedHandlerCases` | src/main/java/ru/bioresourceslab/AbstractShipment.java:39-56 | ADDED → dataAdded, REMOVED → dataRemoved, MOVED → dataMoved, CHANGED → dataChanged, and no typed handler outside 0..3 |
| `Events.DispatchSharesEvent` | src/main/java/ru/bioresourceslab/AbstractShipment.java:31-37 | every call carries the one shared event |
| `Voice.Normalize` | src/main/java/ru/bioresourceslab/RecognizerThread.java:54-55 | `replaceFirst(" ", ".")` then `replace(" ", "")`; defined directly, proved in `NormalizeSpec` |
| `Voice.RemoveSpaces` | src/main/java/ru/bioresourceslab/RecognizerThread.java:55 | the result has no space and keeps every other character |
| `Voice.ReplaceFirstSpaceSplits` | src/main/java/ru/bioresourceslab/RecognizerThread.java:54 | the first space becomes '.', and a text without spaces is unchanged |
| `Voice.NormalizeSpec` | src/main/java/ru/bioresourceslab/RecognizerThread.java:54-55 | no space in the result; '.' in it exactly when the source had a space or a '.'; other characters are kept |
| `Voice.Interpret` | src/main/java/ru/bioresourceslab/RecognizerThread.java:53-73 | `interpretWeight` as a value: the answer and the text left in `result`; defined directly, proved in `InterpretSpec` |
| `Voice.InterpretSpec` | src/main/java/ru/bioresourceslab/RecognizerThread.java:53-73 | a weight exactly when the text parses strictly inside the range; then the value written back; "n/a" for an unparsable text with '.'; else the normalised text |
| `Voice.EmptyRangeAcceptsNothing` | src/main/java/ru/bioresourceslab/RecognizerThread.java:48-63 | with upper ≤ lower, which `setRanges` allows, nothing is a weight |
| `Voice.UpperBoundIsExclusive` | src/main/java/ru/bioresourceslab/RecognizerThread.java:58-72 | "1 5" with the default range gives result "1.5", not "n/a", and is not a weight |
| `Voice.CommandPassesThrough` | src/main/java/ru/bioresourceslab/RecognizerThread.java:64-72 | an unparsable word without spaces or dots, such as a command word, is passed on unchanged |
| `Voice.RecognizerThread.constructor` | src/main/java/ru/bioresourceslab/RecognizerThread.java:16-36 | paused, active, result "", range (0, 1.5) |
| `Voice.RecognizerThread.SetRanges` | src/main/java/ru/bioresourceslab/RecognizerThread.java:48-51 | both bounds are stored as given, with no order check |
| `Voice.RecognizerThread.InterpretWeight` | src/main/java/ru/bioresourceslab/RecognizerThread.java:53-73 | the answer and the new `result` are `Interpret` of the utterance under the current range; nothing else changes |
| `Voice.RecognizerThread.Paused` | src/main/java/ru/bioresourceslab/RecognizerThread.java:106-108 | reports the pause flag |
| `Voice.RecognizerThread.Proceed` | src/main/java/ru/bioresourceslab/RecognizerThread.java:110-116 | clears the pause flag, and only that |
| `Voice.RecognizerThread.Pause` | src/main/java/ru/bioresourceslab/RecognizerThread.java:118-121 | sets the pause flag, and only that |
| `Voice.RecognizerThread.Close` | src/main/java/ru/bioresourceslab/RecognizerThread.java:123-125 | clears the active flag, and only that |
| `Voice.PauseThenProceed` | src/main/java/ru/bioresourceslab/RecognizerThread.java:106-121 | `paused()` is true after `pause` and false after `proceed`; the range, result and active flag are untouched |
| `AppUI.ListSelectSpec` | src/main/java/ru/bioresourceslab/AppUI.java:408-441 | what `listSelect` does: false on an empty list, else the first qualifying candidate by `SelectFrom`; defined directly, proved in `ListSelectFirstQualifying` |
| `AppUI.SelectFrom` | src/main/java/ru/bioresourceslab/AppUIv2.java:395-408 | the first qualifying candidate from the k-th on, or false with the selection kept; defined directly, proved in `SelectFromFirst` |
| `AppUI.ListSelect` | src/main/java/ru/bioresourceslab/AppUI.java:408-441 | the loop with `iter`, `limit` and `nextIndex` returns `ListSelectSpec`: whether it selected, and the new selection |
| `AppUI.ListSelectFirstQualifying` | src/main/java/ru/bioresourceslab/AppUI.java:409-440 | false with the selection kept on an empty list or when no candidate qualifies; else the first qualifying candidate, a valid index other than the current one |
| `AppUI.WrapIsCandidate` | src/main/java/ru/bioresourceslab/AppUI.java:427-433 | the resets at the ends turn the running index into (index mod size) |
| `AppUI.NextCandidate` | src/main/java/ru/bioresourceslab/AppUI.java:438 | one step further is the next candidate, modulo size |
| `AppUI.CandidatesAreOthers` | src/main/java/ru/bioresourceslab/AppUI.java:427-434 | every index examined is within [0, size) and is not the current selection |
| `AppUI.NoWrapOrder` | src/main/java/ru/bioresourceslab/AppUI.java:416-425 | without wrapping, the candidates are sel+1, sel+2, … going down, or sel-1, sel-2, … going up: no wrap |
| `AppUI.CandidateValue` | src/main/java/ru/bioresourceslab/AppUIv2.java:395-406 | the k-th candidate in closed form when wrapping |
| `AppUI.WrapVisitsEveryOtherOnce` | src/main/java/ru/bioresourceslab/AppUIv2.java:384-393 | with wrapping, the size - 1 candidates are every index except the current one, each exactly once |
| `AppUI.SelectFromFirst` | src/main/java/ru/bioresourceslab/AppUIv2.java:402-408 | the first qualifying candidate is selected; if none qualifies the result is false and the selection is unchanged |
| `AppUI.SingleSampleNeverMoves` | src/main/java/ru/bioresourceslab/AppUIv2.java:384-393 | on a one-sample list it always returns false |
| `AppUI.PlainStepWraps` | src/main/java/ru/bioresourceslab/AppUIv2.java:384-403 | with no packed filter and wrapping, size ≥ 2: selects (sel+1) mod size going down, (sel-1+size) mod size going up |
| `AppUI.HexDigit` | src/main/java/ru/bioresourceslab/AppUI.java:397 | `Character.digit(c, 16)` on ASCII digits and letters; defined directly |
| `AppUI.JavaParseHexPair` | src/main/java/ru/bioresourceslab/AppUI.java:397 | `Integer.parseInt(pair, 16)` on two characters: two hex digits, or a sign and one hex digit; defined directly |
| `AppUI.ParseColorDefAsWritten` | src/main/java/ru/bioresourceslab/AppUI.java:392-404 | `parseColorDef` as written: the default for fewer than 8 characters or an unparsable pair, a colour, or the `Color` constructor's exception; defined directly, proved in `SignedPairThrows`, `SignedPairsRead` and `CorrectedAgreesWithoutSign` |
| `AppUI.SignedPairsRead` | src/main/java/ru/bioresourceslab/AppUI.java:392-404 | as written, "+F000000" reads as (15, 0, 0, 0) and "-0000000" as (0, 0, 0, 0); the corrected parser gives the default colour for both |
| `AppUI.SignedPairThrows` | src/main/java/ru/bioresourceslab/AppUI.java:392-404 | as written, "-1000000" parses red as -1 and the `Color` constructor throws |
| `AppUI.HexPair` | src/main/java/ru/bioresourceslab/AppUI.java:397 | an accepted pair of hex digits is in 0..255 |
| `AppUI.HexPairOfText` | src/main/java/ru/bioresourceslab/AppUI.java:397 | a component written as two hex digits reads back as itself |
| `AppUI.ParseColorDef` | src/main/java/ru/bioresourceslab/AppUI.java:392-404 | the corrected parser (see Findings): the loop filling the four components returns `ColorSpec`, the default for fewer than 8 characters or any pair that is not two hex digits, else RGBA from the first 8 |
| `AppUI.ColorSpecRoundTrip` | src/main/java/ru/bioresourceslab/AppUI.java:393-403 | any colour written as 8 hex digits reads back as itself, whatever follows them |
| `AppUI.ColorSpecValid` | src/main/java/ru/bioresourceslab/AppUI.java:403 | given a valid default colour (every `java.awt.Color` is one), the corrected parser never yields a component outside 0..255 |
| `AppUI.CorrectedAgreesWithoutSign` | src/main/java/ru/bioresourceslab/AppUI.java:392-404 | without '+' or '-' among the first 8 characters, the code as written never throws and agrees with the corrected parser |
| `AppUI.FontStyleAsWritten` | src/main/java/ru/bioresourceslab/AppUI.java:380-389 | `parseFont`'s switch as written, with `Font.BOLD & Font.ITALIC` for 3; defined directly |
| `AppUI.FontStyle` | src/main/java/ru/bioresourceslab/AppUIv2.java:363-372 | the switch with `Font.BOLD \| Font.ITALIC` for 3; defined directly, proved in `FontStyleDecodes` |
| `AppUI.StyleThreeIsPlain` | src/main/java/ru/bioresourceslab/AppUI.java:380-389 | as written, style 3 is plain, and no setting gives bold italic |
| `AppUI.FontStyleDecodes` | src/main/java/ru/bioresourceslab/AppUIv2.java:363-372 | with `\|` for style 3: codes 0..3 are the style bits themselves (bit 0 bold, bit 1 italic); any other code is plain |

## Left out

- Swing and AWT plumbing is not modelled: windows, buttons, mouse and focus handlers, `MapTable` rendering, the log handler, properties loading, and `Font` and `Color` objects (a colour is four ints, a style is a bit word).
- Spreadsheet import and export (`importList`, `saveListToFile`, `saveMapToFile`) are Apache POI and file-dialog code, so they are not modelled.
- `setNumber`, `setIdentifiers`, `setBoxOptions` and `setExportParameters` of `Shipment` are not modelled. They only store their arguments or resize the map's columns, and `setBoxOptions` leaves the map stale until the next rebuild.
- The Shipment constructor with default identifiers, `getListModel`, `getMapModel` and the identifiers sample are not modelled. The getters of `Sample` and `BoxOptions` are reads of the modelled fields.
- `RecognizerThread.run`, its constructor body, the `wait`/`notify` handshake and `uiRefresh` are speech-engine and concurrency code, so they are not modelled.
- `Voice.Interpret`: `Double.parseDouble` and `String.valueOf(double)` are parameters. Doubles are reals, so NaN, infinities and rounding are not modelled.
- `parseNumDef` and the `Font` construction in `parseFont` / `loadFont` are not modelled. Only the style switch is.
- `AppUI.ParseColorDef` is the corrected parser, not the code as written. It reads a pair with a sign as unparsable and gives the default colour. The code as written, `AppUI.ParseColorDefAsWritten`, reads "+F" as 15 and "-0" as 0 (so "+F000000" and "-0000000" give colours), and throws for "-1" to "-F".
- `AppUI.HexDigit`: only ASCII digits and letters count as hex digits. `Character.digit` also accepts other Unicode digits.
- `AppUI.ListSelect` requires a selection inside the list when the list is non-empty. With no selection (-1), moving up without wrapping sets the limit to -1, and the loop then runs until the int counter overflows. That path is excluded.
- Java `int` overflow is not modelled anywhere. Indexes and counts are unbounded integers, and the row and index arithmetic of `translate` is exact.
- `SampleInput.ParseLine`: `row.split(SPACER, 2)` uses SPACER as a regular expression. The model matches it literally, because SPACER's value is not part of the repository.
- `SampleInput.GetData` returns sample values, not new `Sample` objects. The `ArrayIndexOutOfBoundsException` of a sixth token is the `TooManyLocationParts` outcome, and `null` is `NoLines`.
- `Events.AbstractShipment.FireEvent` returns the handler calls as a trace. The handlers themselves are outside code, and the check that a registration's class tag is `ShipmentListener` always passes, since only such registrations are ever added.
- Null strings, null listeners and null samples are not modelled: every string is non-null, and `addSample` and `setSample` take a non-null `Sample`, so a null list entry cannot arise. A null event source is modelled: `fireEvent` throws for it as soon as there is a listener.
- `ShipmentModel.Shipment.SetSampleFields` reads the new sample's fields before the copy starts. The Java code reads each field just before setting it. The two agree, because a field that has already been copied holds the same value in both places.
- `ShipmentModel.Shipment.ConvertToMap` keeps the row count from going negative. The code as written throws in that case; see Findings.

## Findings

| source | as written | input that shows it | evidently intended | confidence | as-written member | corrected member |
|---|---|---|---|---|---|---|
| src/main/java/ru/bioresourceslab/Shipment.java:186 | the map's row count is `translate(size - 1).y + 1`, even for an empty list | remove the last sample when boxes are 1 x 1 with separator 2: `translate(-1).y` is -1 + 2 · (-1) = -3, so `setRowCount(-2)` throws | the row count is never negative; an empty list gets at most one empty row | not executed | `ShipmentModel.EmptyMapRowCountNegative` | `ShipmentModel.MapRowCountCorrected` |
| src/main/java/ru/bioresourceslab/AppUI.java:397 | each colour pair is read with `Integer.parseInt(pair, 16)`, which accepts a sign | the setting "-1000000" reads red as -1, so `new Color(-1, 0, 0, 0)` throws; "+F000000" and "-0000000" give colours instead of the default | a pair that is not two hex digits gives the default colour | not executed | `AppUI.SignedPairThrows` | `AppUI.ParseColorDef` |
| src/main/java/ru/bioresourceslab/AppUIv2.java:250 | the list cell shows `item.get(SAMPLE_CODE & SAMPLE_LOCATION)` | any sample: 0x01 & 0xF8 is 0, so every cell reads "nothing requested" | `SAMPLE_CODE \| SAMPLE_LOCATION`, the code and location that the sample editor reads back | not executed | `Samples.CodeAndLocationIsNothing` | `SampleInput.ReadsBackCodeAndLocation` |
| src/main/java/ru/bioresourceslab/AppUI.java:386 | font style 3 is `Font.BOLD & Font.ITALIC` (also `AppUIv2.java:369`) | style setting 3: 1 & 2 is 0, so the font is plain | `Font.BOLD \| Font.ITALIC`, bold italic | not executed | `AppUI.StyleThreeIsPlain` | `AppUI.FontStyleDecodes` |

=== FILE: appui.dfy ===
/** The logic inside the main window classes `AppUI` and `AppUIv2`: moving
    the selection through the sample list (`listSelect`), reading a colour
    from its eight-hex-digit setting (`parseColorDef`) and the font style
    switch of `parseFont` / `loadFont`. Both classes hold the same code. */
module AppUI {
  import opened Util

  // ---------------------------------------------------------------------
  // `listSelect`
  // ---------------------------------------------------------------------

  /** Outcome of `listSelect`: whether it selected something, and the
      selection afterwards. */
  datatype Selection = Selection(found: bool, selected: int)

  /** The `k`-th index examined, counting from 0: one step further each
      time, wrapping past the end to 0 and before 0 to the last index. */
  function Candidate(size: nat, sel: int, moveDown: bool, k: nat): int
    requires size > 0
  {
    if moveDown then (sel + 1 + k) % size else (sel - 1 - k) % size
  }

  /** How many candidates are examined: every other index when wrapping,
      otherwise those after the selection (moving down) or before it
      (moving up). */
  function Budget(size: nat, sel: int, moveDown: bool, continueWhenEnd: bool): int {
    if continueWhenEnd then size - 1
    else if moveDown then size - sel - 1
    else sel
  }

  /** A candidate is taken unless only unpacked samples are wanted and it is
      packed. */
  predicate Qualifies(packed: seq<bool>, unpackedOnly: bool, i: int)
    requires 0 <= i < |packed|
  {
    !unpackedOnly || !packed[i]
  }

  /** The first qualifying candidate from the `k`-th on. */
  function SelectFrom(packed: seq<bool>, sel: int, moveDown: bool, unpackedOnly: bool,
                      continueWhenEnd: bool, k: nat): Selection
    requires 0 <= sel < |packed|
    decreases Budget(|packed|, sel, moveDown, continueWhenEnd) - k
  {
    if k >= Budget(|packed|, sel, moveDown, continueWhenEnd) then Selection(false, sel)
    else
      var c := Candidate(|packed|, sel, moveDown, k);
      if Qualifies(packed, unpackedOnly, c) then Selection(true, c)
      else SelectFrom(packed, sel, moveDown, unpackedOnly, continueWhenEnd, k + 1)
  }

  /** What `listSelect` does to a list whose samples have the packed flags
      `packed` and whose selection is `sel`. */
  function ListSelectSpec(packed: seq<bool>, sel: int, moveDown: bool, unpackedOnly: bool,
                          continueWhenEnd: bool): Selection
    requires |packed| == 0 || 0 <= sel < |packed|
  {
    if |packed| == 0 then Selection(false, sel)
    else SelectFrom(packed, sel, moveDown, unpackedOnly, continueWhenEnd, 0)
  }

  /** `(x mod n + d) mod n == (x + d) mod n`. */
  lemma ModShift(x: int, d: int, n: int)
    requires n > 0
    ensures (x % n + d) % n == (x + d) % n
  {
    var q, r := x / n, x % n;
    var q', r' := (r + d) / n, (r + d) % n;
    assert x + d == (q + q') * n + r' by {
      assert x == q * n + r;
      assert r + d == q' * n + r';
      assert q * n + q' * n == (q + q') * n;
    }
    DivModUnique(x + d, n, q + q', r');
  }

  /** `listSelect` on the packed flags of the list's samples: returns whether
      it selected a sample, and the selection it leaves. */
  method ListSelect(packed: seq<bool>, selected: int, moveDown: bool, unpackedOnly: bool,
                    continueWhenEnd: bool) returns (found: bool, newSelected: int)
    requires |packed| == 0 || 0 <= selected < |packed|
    ensures Selection(found, newSelected) ==
            ListSelectSpec(packed, selected, moveDown, unpackedOnly, continueWhenEnd)
  {
    var size := |packed|;
    if size == 0 {
      return false, selected;
    }
    var limit: int;
    var nextIndex: int;
    if moveDown {
      limit := if continueWhenEnd then size - 1 else size - selected - 1;
      nextIndex := selected + 1;
    } else {
      limit := if continueWhenEnd then size - 1 else selected;
      nextIndex := selected - 1;
    }
    var iter: nat := 0;
    while iter != limit
      invariant 0 <= iter <= limit == Budget(size, selected, moveDown, continueWhenEnd)
      invariant moveDown ==> 0 <= nextIndex <= size
      invariant !moveDown ==> -1 <= nextIndex < size
      invariant nextIndex % size == Candidate(size, selected, moveDown, iter)
      invariant ListSelectSpec(packed, selected, moveDown, unpackedOnly, continueWhenEnd) ==
                SelectFrom(packed, selected, moveDown, unpackedOnly, continueWhenEnd, iter)
      decreases limit - iter
    {
      // reset at either end of the list
      WrapIsCandidate(size, nextIndex, moveDown);
      if moveDown && nextIndex > size - 1 {
        nextIndex := 0;
      }
      if !moveDown && nextIndex < 0 {
        nextIndex := size - 1;
      }
      if !unpackedOnly || !packed[nextIndex] {
        return true, nextIndex;
      }
      NextCandidate(size, selected, moveDown, iter);
      nextIndex := if moveDown then nextIndex + 1 else nextIndex - 1;
      iter := iter + 1;
    }
    return false, selected;
  }

  /** Resetting at the ends turns the running index into the candidate. */
  lemma WrapIsCandidate(size: nat, x: int, moveDown: bool)
    requires size > 0
    requires moveDown ==> 0 <= x <= size
    requires !moveDown ==> -1 <= x < size
    ensures moveDown && x > size - 1 ==> 0 == x % size
    ensures !moveDown && x < 0 ==> size - 1 == x % size
    ensures 0 <= x < size ==> x == x % size
  {
    if x == size {
      DivModUnique(x, size, 1, 0);
    } else if x == -1 {
      DivModUnique(x, size, -1, size - 1);
    } else {
      DivModUnique(x, size, 0, x);
    }
  }

  /** One step further is the next candidate. */
  lemma NextCandidate(size: nat, sel: int, moveDown: bool, k: nat)
    requires size > 0
    ensures moveDown ==> (Candidate(size, sel, moveDown, k) + 1) % size == Candidate(size, sel, moveDown, k + 1)
    ensures !moveDown ==> (Candidate(size, sel, moveDown, k) - 1) % size == Candidate(size, sel, moveDown, k + 1)
  {
    if moveDown {
      ModShift(sel + 1 + k, 1, size);
    } else {
      ModShift(sel - 1 - k, -1, size);
    }
  }

  /** Every candidate is a valid index other than the current one. */
  lemma CandidatesAreOthers(size: nat, sel: int, moveDown: bool, continueWhenEnd: bool, k: nat)
    requires 0 <= sel < size && k < Budget(size, sel, moveDown, continueWhenEnd)
    ensures 0 <= Candidate(size, sel, moveDown, k) < size
    ensures Candidate(size, sel, moveDown, k) != sel
  {
    var c := Candidate(size, sel, moveDown, k);
    if moveDown {
      if sel + 1 + k >= size {
        DivModUnique(sel + 1 + k, size, 1, sel + 1 + k - size);
      } else {
        DivModUnique(sel + 1 + k, size, 0, sel + 1 + k);
      }
    } else {
      if sel - 1 - k < 0 {
        DivModUnique(sel - 1 - k, size, -1, sel - 1 - k + size);
      } else {
        DivModUnique(sel - 1 - k, size, 0, sel - 1 - k);
      }
    }
  }

  /** Without wrapping, the candidates are the indices after the selection in
      increasing order (moving down) or before it in decreasing order (moving
      up). */
  lemma NoWrapOrder(size: nat, sel: int, moveDown: bool, k: nat)
    requires 0 <= sel < size && k < Budget(size, sel, moveDown, false)
    ensures Candidate(size, sel, moveDown, k) == if moveDown then sel + 1 + k else sel - 1 - k
  {
    if moveDown {
      DivModUnique(sel + 1 + k, size, 0, sel + 1 + k);
    } else {
      DivModUnique(sel - 1 - k, size, 0, sel - 1 - k);
    }
  }

  /** With wrapping, the `size - 1` candidates are every index except the
      current one, each exactly once. */
  lemma WrapVisitsEveryOtherOnce(size: nat, sel: int, moveDown: bool)
    requires 0 <= sel < size
    ensures forall j, k :: 0 <= j < k < size - 1 ==>
      Candidate(size, sel, moveDown, j) != Candidate(size, sel, moveDown, k)
    ensures forall i :: 0 <= i < size && i != sel ==> Examined(size, sel, moveDown, i)
  {
    forall j, k | 0 <= j < k < size - 1
      ensures Candidate(size, sel, moveDown, j) != Candidate(size, sel, moveDown, k)
    {
      CandidateValue(size, sel, moveDown, j);
      CandidateValue(size, sel, moveDown, k);
    }
    forall i | 0 <= i < size && i != sel
      ensures Examined(size, sel, moveDown, i)
    {
      var k := if moveDown then (if i > sel then i - sel - 1 else i + size - sel - 1)
               else (if i < sel then sel - 1 - i else sel - 1 - i + size);
      CandidateValue(size, sel, moveDown, k);
      assert Candidate(size, sel, moveDown, k) == i;
    }
  }

  /** Index `i` is among the candidates of a wrapping search. */
  predicate Examined(size: nat, sel: int, moveDown: bool, i: int)
    requires size > 0
  {
    exists k :: 0 <= k < size - 1 && Candidate(size, sel, moveDown, k) == i
  }

  /** The candidate in closed form, for `k < size - 1`. */
  lemma CandidateValue(size: nat, sel: int, moveDown: bool, k: nat)
    requires 0 <= sel < size && k < size - 1
    ensures moveDown ==>
      Candidate(size, sel, moveDown, k) == (if sel + 1 + k < size then sel + 1 + k else sel + 1 + k - size)
    ensures !moveDown ==>
      Candidate(size, sel, moveDown, k) == (if sel - 1 - k >= 0 then sel - 1 - k else sel - 1 - k + size)
  {
    if moveDown {
      if sel + 1 + k >= size {
        DivModUnique(sel + 1 + k, size, 1, sel + 1 + k - size);
      } else {
        DivModUnique(sel + 1 + k, size, 0, sel + 1 + k);
      }
    } else {
      if sel - 1 - k < 0 {
        DivModUnique(sel - 1 - k, size, -1, sel - 1 - k + size);
      } else {
        DivModUnique(sel - 1 - k, size, 0, sel - 1 - k);
      }
    }
  }

  /** From the `start`-th candidate on, the first qualifying one is selected;
      when none qualifies nothing is selected and the selection stays. */
  lemma {:induction false} SelectFromFirst(packed: seq<bool>, sel: int, moveDown: bool, unpackedOnly: bool,
                                           continueWhenEnd: bool, start: nat)
    requires 0 <= sel < |packed|
    ensures var r := SelectFrom(packed, sel, moveDown, unpackedOnly, continueWhenEnd, start);
      var budget := Budget(|packed|, sel, moveDown, continueWhenEnd);
      && (r.found ==>
            exists k :: start <= k < budget && r.selected == Candidate(|packed|, sel, moveDown, k)
              && Qualifies(packed, unpackedOnly, r.selected)
              && forall j :: start <= j < k ==> !Qualifies(packed, unpackedOnly, Candidate(|packed|, sel, moveDown, j)))
      && (!r.found ==>
            r.selected == sel
            && forall k :: start <= k < budget ==> !Qualifies(packed, unpackedOnly, Candidate(|packed|, sel, moveDown, k)))
    decreases Budget(|packed|, sel, moveDown, continueWhenEnd) - start
  {
    var budget := Budget(|packed|, sel, moveDown, continueWhenEnd);
    if start < budget {
      CandidatesAreOthers(|packed|, sel, moveDown, continueWhenEnd, start);
      var c := Candidate(|packed|, sel, moveDown, start);
      if !Qualifies(packed, unpackedOnly, c) {
        SelectFromFirst(packed, sel, moveDown, unpackedOnly, continueWhenEnd, start + 1);
        var r := SelectFrom(packed, sel, moveDown, unpackedOnly, continueWhenEnd, start + 1);
        if r.found {
          var k :| start + 1 <= k < budget && r.selected == Candidate(|packed|, sel, moveDown, k)
              && Qualifies(packed, unpackedOnly, r.selected)
              && forall j :: start + 1 <= j < k ==> !Qualifies(packed, unpackedOnly, Candidate(|packed|, sel, moveDown, j));
          assert forall j :: start <= j < k ==> !Qualifies(packed, unpackedOnly, Candidate(|packed|, sel, moveDown, j));
        }
      }
    }
  }

  /** `listSelect` selects the first qualifying candidate and reports it;
      when none qualifies, or the list is empty, it returns false and the
      selection stays. A selected index is always a valid index other than
      the current one. */
  lemma ListSelectFirstQualifying(packed: seq<bool>, sel: int, moveDown: bool, unpackedOnly: bool,
                                  continueWhenEnd: bool)
    requires |packed| == 0 || 0 <= sel < |packed|
    ensures var r := ListSelectSpec(packed, sel, moveDown, unpackedOnly, continueWhenEnd);
      && (|packed| == 0 ==> r == Selection(false, sel))
      && (!r.found ==> r.selected == sel)
      && (r.found ==> 0 <= r.selected < |packed| && r.selected != sel && Qualifies(packed, unpackedOnly, r.selected))
      && (|packed| > 0 ==>
            (r.found <==> exists k :: 0 <= k < Budget(|packed|, sel, moveDown, continueWhenEnd)
                                     && Qualifies(packed, unpackedOnly, Candidate(|packed|, sel, moveDown, k))))
  {
    if |packed| > 0 {
      SelectFromFirst(packed, sel, moveDown, unpackedOnly, continueWhenEnd, 0);
      var r := ListSelectSpec(packed, sel, moveDown, unpackedOnly, continueWhenEnd);
      if r.found {
        var k :| 0 <= k < Budget(|packed|, sel, moveDown, continueWhenEnd)
                 && r.selected == Candidate(|packed|, sel, moveDown, k)
                 && Qualifies(packed, unpackedOnly, r.selected)
                 && forall j :: 0 <= j < k ==> !Qualifies(packed, unpackedOnly, Candidate(|packed|, sel, moveDown, j));
        CandidatesAreOthers(|packed|, sel, moveDown, continueWhenEnd, k);
      }
    }
  }

  /** A one-sample list never moves: there is nothing to examine. */
  lemma SingleSampleNeverMoves(packed: seq<bool>, moveDown: bool, unpackedOnly: bool, continueWhenEnd: bool)
    requires |packed| == 1
    ensures ListSelectSpec(packed, 0, moveDown, unpackedOnly, continueWhenEnd) == Selection(false, 0)
  {
  }

  /** Without the unpacked filter and with wrapping, a list of two or more
      samples always moves one step, round the end if need be. */
  lemma PlainStepWraps(packed: seq<bool>, sel: int, moveDown: bool)
    requires 2 <= |packed| && 0 <= sel < |packed|
    ensures ListSelectSpec(packed, sel, moveDown, false, true) ==
            Selection(true, if moveDown then (sel + 1) % |packed| else (sel - 1 + |packed|) % |packed|)
  {
    if !moveDown {
      ModShift(sel - 1, |packed|, |packed|);
      ModShift(sel - 1 + |packed|, 0, |packed|);
      assert (sel - 1) % |packed| == ((sel - 1) % |packed| + 0) % |packed| by {
        ModShift(sel - 1, 0, |packed|);
      }
      assert ((sel - 1) % |packed| + |packed|) % |packed| == (sel - 1) % |packed| by {
        var m := (sel - 1) % |packed|;
        DivModUnique(m + |packed|, |packed|, 1, m);
      }
    }
  }

  // ---------------------------------------------------------------------
  // `parseColorDef`
  // ---------------------------------------------------------------------

  datatype Color = Color(red: int, green: int, blue: int, alpha: int)

  predicate ValidColor(c: Color) {
    0 <= c.red <= 255 && 0 <= c.green <= 255 && 0 <= c.blue <= 255 && 0 <= c.alpha <= 255
  }

  /** `Character.digit(c, 16)` on the ASCII digits and letters. */
  function HexDigit(c: char): Option<int> {
    if '0' <= c <= '9' then Some(c as int - '0' as int)
    else if 'a' <= c <= 'f' then Some(c as int - 'a' as int + 10)
    else if 'A' <= c <= 'F' then Some(c as int - 'A' as int + 10)
    else None
  }

  /** `Integer.parseInt(s, 16)` on a two-character string: two hex digits,
      or a sign followed by one. */
  function JavaParseHexPair(s: string): Option<int>
    requires |s| == 2
  {
    if s[0] == '-' || s[0] == '+' then
      match HexDigit(s[1])
      case None => None
      case Some(d) => Some(if s[0] == '-' then -d else d)
    else
      match (HexDigit(s[0]), HexDigit(s[1]))
      case (Some(h), Some(l)) => Some(16 * h + l)
      case _ => None
  }

  /** The outcomes of `parseColorDef` as written: the default colour, a new
      colour, or the `IllegalArgumentException` the `Color` constructor
      throws for a component outside 0..255. */
  datatype ColorOutcome = DefaultColor | NewColor(color: Color) | ComponentOutOfRange

  /** `parseColorDef` as written. */
  function ParseColorDefAsWritten(color: string): ColorOutcome {
    if |color| < 8 then DefaultColor
    else
      var r, g, b, a :=
        JavaParseHexPair(color[0..2]), JavaParseHexPair(color[2..4]),
        JavaParseHexPair(color[4..6]), JavaParseHexPair(color[6..8]);
      if r.None? || g.None? || b.None? || a.None? then DefaultColor
      else
        var c := Color(r.value, g.value, b.value, a.value);
        if ValidColor(c) then NewColor(c) else ComponentOutOfRange
  }

  /** "-1000000" passes the length check and every pair parses, but the red
      component is -1, so the `Color` constructor throws. */
  lemma SignedPairThrows()
    ensures ParseColorDefAsWritten("-1000000") == ComponentOutOfRange
  {
    var s := "-1000000";
    assert s[0..2] == "-1" && s[2..4] == "00" && s[4..6] == "00" && s[6..8] == "00";
  }

  /** A sign also gets through where it does not throw: "+F000000" reads red
      as 15 and "-0000000" reads red as 0, where the corrected parser gives
      the default colour for both. */
  lemma SignedPairsRead(defColor: Color)
    ensures ParseColorDefAsWritten("+F000000") == NewColor(Color(15, 0, 0, 0))
    ensures ParseColorDefAsWritten("-0000000") == NewColor(Color(0, 0, 0, 0))
    ensures ColorSpec("+F000000", defColor) == defColor
    ensures ColorSpec("-0000000", defColor) == defColor
  {
    var plus, minus := "+F000000", "-0000000";
    assert plus[0..2] == "+F" && plus[2..4] == "00" && plus[4..6] == "00" && plus[6..8] == "00";
    assert minus[0..2] == "-0" && minus[2..4] == "00" && minus[4..6] == "00" && minus[6..8] == "00";
    assert ComponentText(plus, 0) == "+F" && ComponentText(minus, 0) == "-0";
  }

  /** Two hex digits, and nothing else. */
  function HexPair(s: string): (v: Option<int>)
    requires |s| == 2
    ensures v.Some? ==> 0 <= v.value <= 255
  {
    match (HexDigit(s[0]), HexDigit(s[1]))
    case (Some(h), Some(l)) => Some(16 * h + l)
    case _ => None
  }

  /** The pair for component `i`: characters `2i` and `2i + 1`. */
  function ComponentText(color: string, i: nat): string
    requires |color| >= 8 && i < 4
  {
    color[2 * i..2 * i + 2]
  }

  /** `parseColorDef` with a sign treated as an unparsable pair: the default
      for fewer than eight characters or any pair that is not two hex
      digits, otherwise the colour of the first eight characters. */
  function ColorSpec(color: string, defColor: Color): Color {
    if |color| < 8 then defColor
    else
      var r, g, b, a :=
        HexPair(ComponentText(color, 0)), HexPair(ComponentText(color, 1)),
        HexPair(ComponentText(color, 2)), HexPair(ComponentText(color, 3));
      if r.None? || g.None? || b.None? || a.None? then defColor
      else Color(r.value, g.value, b.value, a.value)
  }

  /** `parseColorDef`: reads the four components into an array, giving up
      with the default at the first pair that is not two hex digits. */
  method ParseColorDef(color: string, defColor: Color) returns (c: Color)
    ensures c == ColorSpec(color, defColor)
  {
    if |color| < 8 {
      return defColor;
    }
    var cl := new int[4](_ => 0);
    for i := 0 to 4
      invariant forall j :: 0 <= j < i ==>
        HexPair(ComponentText(color, j)).Some? && cl[j] == HexPair(ComponentText(color, j)).value
    {
      var v := HexPair(color[i * 2..i * 2 + 2]);
      assert color[i * 2..i * 2 + 2] == ComponentText(color, i);
      if v.None? {
        ColorSpecFails(color, defColor, i);
        return defColor;
      }
      cl[i] := v.value;
    }
    ColorSpecReads(color, defColor, cl[0], cl[1], cl[2], cl[3]);
    return Color(cl[0], cl[1], cl[2], cl[3]);
  }

  lemma ColorSpecFails(color: string, defColor: Color, i: nat)
    requires |color| >= 8 && i < 4 && HexPair(ComponentText(color, i)).None?
    ensures ColorSpec(color, defColor) == defColor
  {
  }

  lemma ColorSpecReads(color: string, defColor: Color, r: int, g: int, b: int, a: int)
    requires |color| >= 8
    requires HexPair(ComponentText(color, 0)) == Some(r) && HexPair(ComponentText(color, 1)) == Some(g)
    requires HexPair(ComponentText(color, 2)) == Some(b) && HexPair(ComponentText(color, 3)) == Some(a)
    ensures ColorSpec(color, defColor) == Color(r, g, b, a)
  {
  }

  function HexChar(d: int): char
    requires 0 <= d < 16
  {
    if d < 10 then ('0' as int + d) as char else ('A' as int + d - 10) as char
  }

  /** A component as two upper-case hex digits. */
  function HexText(v: int): string
    requires 0 <= v <= 255
  {
    [HexChar(v / 16), HexChar(v % 16)]
  }

  /** A colour as its eight-digit RRGGBBAA setting. */
  function ColorText(c: Color): string
    requires ValidColor(c)
  {
    HexText(c.red) + HexText(c.green) + HexText(c.blue) + HexText(c.alpha)
  }

  lemma HexPairOfText(v: int)
    requires 0 <= v <= 255
    ensures HexPair(HexText(v)) == Some(v)
  {
    assert HexDigit(HexChar(v / 16)) == Some(v / 16);
    assert HexDigit(HexChar(v % 16)) == Some(v % 16);
  }

  /** The corrected parser never yields an invalid colour, and it reads back
      any colour written as eight hex digits, whatever follows them. */
  lemma ColorSpecRoundTrip(c: Color, rest: string, defColor: Color)
    requires ValidColor(c) && ValidColor(defColor)
    ensures ColorSpec(ColorText(c) + rest, defColor) == c
  {
    var s := ColorText(c) + rest;
    assert ComponentText(s, 0) == HexText(c.red);
    assert ComponentText(s, 1) == HexText(c.green);
    assert ComponentText(s, 2) == HexText(c.blue);
    assert ComponentText(s, 3) == HexText(c.alpha);
    HexPairOfText(c.red);
    HexPairOfText(c.green);
    HexPairOfText(c.blue);
    HexPairOfText(c.alpha);
  }

  /** The corrected parser yields a valid colour whenever the default is one. */
  lemma ColorSpecValid(color: string, defColor: Color)
    requires ValidColor(defColor)
    ensures ValidColor(ColorSpec(color, defColor))
  {
  }

  /** Without a sign among the first eight characters, the code as written
      never throws and agrees with the corrected parser. */
  lemma CorrectedAgreesWithoutSign(color: string, defColor: Color)
    requires |color| >= 8 ==> forall j :: 0 <= j < 8 ==> color[j] != '-' && color[j] != '+'
    ensures ParseColorDefAsWritten(color) != ComponentOutOfRange
    ensures ParseColorDefAsWritten(color) == DefaultColor ==> ColorSpec(color, defColor) == defColor
    ensures ParseColorDefAsWritten(color).NewColor? ==>
            ColorSpec(color, defColor) == ParseColorDefAsWritten(color).color
  {
    if |color| >= 8 {
      forall i | 0 <= i < 4
        ensures JavaParseHexPair(ComponentText(color, i)) == HexPair(ComponentText(color, i))
      {
        assert ComponentText(color, i)[0] == color[2 * i];
      }
      assert color[0..2] == ComponentText(color, 0) && color[2..4] == ComponentText(color, 1);
      assert color[4..6] == ComponentText(color, 2) && color[6..8] == ComponentText(color, 3);
    }
  }

  // ---------------------------------------------------------------------
  // Font style
  // ---------------------------------------------------------------------

  const FONT_PLAIN: bv32 := 0
  const FONT_BOLD: bv32 := 1
  const FONT_ITALIC: bv32 := 2

  /** The style switch as written: style 3 takes `Font.BOLD & Font.ITALIC`. */
  function FontStyleAsWritten(fStyle: int): bv32 {
    if fStyle == 0x01 then FONT_BOLD
    else if fStyle == 0x02 then FONT_ITALIC
    else if fStyle == 0x03 then FONT_BOLD & FONT_ITALIC
    else FONT_PLAIN
  }

  /** As written, style 3 is plain and no setting gives bold italic. */
  lemma StyleThreeIsPlain(fStyle: int)
    ensures FontStyleAsWritten(3) == FONT_PLAIN
    ensures FontStyleAsWritten(fStyle) != FONT_BOLD | FONT_ITALIC
  {
  }

  /** The style switch with style 3 as `Font.BOLD | Font.ITALIC`. */
  function FontStyle(fStyle: int): bv32 {
    if fStyle == 0x01 then FONT_BOLD
    else if fStyle == 0x02 then FONT_ITALIC
    else if fStyle == 0x03 then FONT_BOLD | FONT_ITALIC
    else FONT_PLAIN
  }

  /** Codes 0 to 3 are the style bits themselves (bit 0 bold, bit 1 italic);
      any other code is plain. */
  lemma FontStyleDecodes(fStyle: int)
    ensures 0 <= fStyle <= 3 ==> FontStyle(fStyle) as int == fStyle
    ensures (FontStyle(fStyle) & FONT_BOLD != 0) <==> fStyle == 1 || fStyle == 3
    ensures (FontStyle(fStyle) & FONT_ITALIC != 0) <==> fStyle == 2 || fStyle == 3
  {
  }
}

=== FILE: events.dfy ===
/** `AbstractShipment`: a list of registered `ShipmentListener`s and the
    dispatch of one event to all of them. The listeners' handlers are code
    the model cannot see, so `fireEvent` returns the calls it makes, in
    order, as a trace. */
module Events {
  import opened Util
  import opened ShipmentModel

  const EVENT_SAMPLE_ADDED: int := 0
  const EVENT_SAMPLE_REMOVED: int := 1
  const EVENT_SAMPLE_MOVED: int := 2
  const EVENT_SAMPLE_CHANGED: int := 3

  /** A listener; its handlers are overridden by code outside the model, so
      only its identity matters. */
  class ShipmentListener {
    constructor () {}
  }

  /** The event handed to every listener: who fired it, its type and the
      index of the sample concerned. Its `EventObject` base rejects a null
      source, so the source is never null. */
  datatype ShipmentEvent = ShipmentEvent(source: Shipment, typeOfEvent: int, target: int)

  datatype Handler = DefaultAction | DataAdded | DataRemoved | DataMoved | DataChanged

  /** One handler call made by `fireEvent`. */
  datatype Call = Call(handler: Handler, listener: ShipmentListener, event: ShipmentEvent)

  /** The handler the `switch` picks for an event type, if any. */
  function TypedHandler(typeOfEvent: int): Option<Handler> {
    if typeOfEvent == EVENT_SAMPLE_ADDED then Some(DataAdded)
    else if typeOfEvent == EVENT_SAMPLE_REMOVED then Some(DataRemoved)
    else if typeOfEvent == EVENT_SAMPLE_MOVED then Some(DataMoved)
    else if typeOfEvent == EVENT_SAMPLE_CHANGED then Some(DataChanged)
    else None
  }

  /** The calls one listener receives: `defaultAction`, then its typed handler. */
  function ListenerCalls(l: ShipmentListener, e: ShipmentEvent): seq<Call> {
    [Call(DefaultAction, l, e)]
    + match TypedHandler(e.typeOfEvent) {
        case None => []
        case Some(h) => [Call(h, l, e)]
      }
  }

  /** The calls made for `registrations`, latest registration first. */
  function Dispatch(registrations: seq<ShipmentListener>, e: ShipmentEvent): seq<Call> {
    if registrations == [] then []
    else
      var n := |registrations|;
      ListenerCalls(registrations[n - 1], e) + Dispatch(registrations[..n - 1], e)
  }

  /** Position of the last registration of `l`, or -1. */
  function LastIndexOf(registrations: seq<ShipmentListener>, l: ShipmentListener): (j: int)
    ensures -1 <= j < |registrations|
    ensures j >= 0 ==> registrations[j] == l && l !in registrations[j + 1..]
    ensures j == -1 <==> l !in registrations
  {
    if registrations == [] then -1
    else if registrations[|registrations| - 1] == l then |registrations| - 1
    else
      var prefix := registrations[..|registrations| - 1];
      assert registrations == prefix + [registrations[|registrations| - 1]];
      var j := LastIndexOf(prefix, l);
      assert j >= 0 ==> registrations[j + 1..] == prefix[j + 1..] + [registrations[|registrations| - 1]];
      j
  }

  /** `EventListenerList.remove`: drops the last registration of `l`; a
      listener that is not registered changes nothing. */
  function RemoveLast(registrations: seq<ShipmentListener>, l: ShipmentListener): seq<ShipmentListener> {
    var j := LastIndexOf(registrations, l);
    if j < 0 then registrations else registrations[..j] + registrations[j + 1..]
  }

  class AbstractShipment {
    var registrations: seq<ShipmentListener>

    constructor ()
      ensures registrations == []
    {
      registrations := [];
    }

    /** `addListener`: one more registration, the latest. */
    method AddListener(listener: ShipmentListener)
      modifies this
      ensures registrations == old(registrations) + [listener]
    {
      registrations := registrations + [listener];
    }

    /** `removeListener`: the latest registration of `listener` goes. */
    method RemoveListener(listener: ShipmentListener)
      modifies this
      ensures registrations == RemoveLast(old(registrations), listener)
    {
      registrations := RemoveLast(registrations, listener);
    }

    /** `fireEvent`: visits the registrations from the latest to the oldest;
      the event is created at the first listener and shared by all; each
      listener gets `defaultAction` and then the handler of the type. With a
      null source and at least one listener, creating the event throws
      `IllegalArgumentException` (`illegalArgument`) before any call. */
    method FireEvent(source: Shipment?, typeOfEvent: int, target: int)
      returns (calls: seq<Call>, e: Option<ShipmentEvent>, illegalArgument: bool)
      ensures illegalArgument <==> source == null && registrations != []
      ensures source == null ==> calls == [] && e == None
      ensures source != null ==>
                && e == (if registrations == [] then None else Some(ShipmentEvent(source, typeOfEvent, target)))
                && calls == Dispatch(registrations, ShipmentEvent(source, typeOfEvent, target))
    {
      var listeners := registrations;
      calls := [];
      e := None;
      illegalArgument := false;
      var i := |listeners|;
      assert listeners[..i] == listeners;
      while i > 0
        invariant 0 <= i <= |listeners|
        invariant i == |listeners| ==> e == None
        invariant i < |listeners| ==> source != null && e == Some(ShipmentEvent(source, typeOfEvent, target))
        invariant source == null ==> calls == []
        invariant source != null ==>
          Dispatch(listeners, ShipmentEvent(source, typeOfEvent, target))
            == calls + Dispatch(listeners[..i], ShipmentEvent(source, typeOfEvent, target))
      {
        i := i - 1;
        if e == None {
          if source == null {
            illegalArgument := true;
            return;
          }
          e := Some(ShipmentEvent(source, typeOfEvent, target));
        }
        var l := listeners[i];
        var received := Notify(l, e.value);
        DispatchStep(listeners, i, e.value, calls);
        calls := calls + received;
      }
    }
  }

  /** One more listener, taken from the end of the unvisited part. */
  lemma DispatchStep(listeners: seq<ShipmentListener>, i: nat, e: ShipmentEvent, calls: seq<Call>)
    requires i < |listeners|
    ensures calls + Dispatch(listeners[..i + 1], e) ==
            (calls + ListenerCalls(listeners[i], e)) + Dispatch(listeners[..i], e)
  {
    assert listeners[..i + 1][..i] == listeners[..i];
  }

  /** The body of `fireEvent`'s loop for one listener: `defaultAction`,
      then the `switch` on the event type. */
  method Notify(l: ShipmentListener, e: ShipmentEvent) returns (calls: seq<Call>)
    ensures calls == ListenerCalls(l, e)
  {
    calls := [Call(DefaultAction, l, e)];
    var typeOfEvent := e.typeOfEvent;
    if typeOfEvent == EVENT_SAMPLE_ADDED {
      calls := calls + [Call(DataAdded, l, e)];
    } else if typeOfEvent == EVENT_SAMPLE_REMOVED {
      calls := calls + [Call(DataRemoved, l, e)];
    } else if typeOfEvent == EVENT_SAMPLE_MOVED {
      calls := calls + [Call(DataMoved, l, e)];
    } else if typeOfEvent == EVENT_SAMPLE_CHANGED {
      calls := calls + [Call(DataChanged, l, e)];
    }
  }

  // ---------------------------------------------------------------------
  // Properties of the registration list
  // ---------------------------------------------------------------------

  /** Removing a listener that was just added restores the list. */
  lemma RemoveUndoesAdd(registrations: seq<ShipmentListener>, l: ShipmentListener)
    ensures RemoveLast(registrations + [l], l) == registrations
  {
    var s := registrations + [l];
    assert LastIndexOf(s, l) == |registrations|;
    assert s[..|registrations|] == registrations;
  }

  /** Removal takes exactly one registration of a registered listener, the
      latest, and leaves the others in order; an unregistered listener
      changes nothing. */
  lemma RemoveLastSpec(registrations: seq<ShipmentListener>, l: ShipmentListener)
    ensures l !in registrations ==> RemoveLast(registrations, l) == registrations
    ensures l in registrations ==>
      var r := RemoveLast(registrations, l);
      && |r| == |registrations| - 1
      && multiset(r) == multiset(registrations) - multiset{l}
      && exists j :: 0 <= j < |registrations| && registrations[j] == l && l !in registrations[j + 1..]
           && r == registrations[..j] + registrations[j + 1..]
  {
    var j := LastIndexOf(registrations, l);
    if j >= 0 {
      assert registrations == registrations[..j] + [l] + registrations[j + 1..];
      assert multiset(registrations) == multiset(registrations[..j]) + multiset{l} + multiset(registrations[j + 1..]);
    }
  }

  // ---------------------------------------------------------------------
  // Properties of the dispatch
  // ---------------------------------------------------------------------

  /** Types 0 to 3: every listener, from the latest registered to the oldest,
      receives `defaultAction` and then the handler of the type, each with
      the one shared event. */
  lemma {:induction false} DispatchTyped(registrations: seq<ShipmentListener>, e: ShipmentEvent)
    requires TypedHandler(e.typeOfEvent).Some?
    ensures var calls := Dispatch(registrations, e); var n := |registrations|;
      && |calls| == 2 * n
      && forall k :: 0 <= k < n ==>
           && calls[2 * k] == Call(DefaultAction, registrations[n - 1 - k], e)
           && calls[2 * k + 1] == Call(TypedHandler(e.typeOfEvent).value, registrations[n - 1 - k], e)
  {
    if registrations != [] {
      var n := |registrations|;
      var prefix := registrations[..n - 1];
      DispatchTyped(prefix, e);
      var calls := Dispatch(registrations, e);
      var head := ListenerCalls(registrations[n - 1], e);
      assert |head| == 2;
      assert calls == head + Dispatch(prefix, e);
      forall k | 1 <= k < n
        ensures calls[2 * k] == Call(DefaultAction, registrations[n - 1 - k], e)
        ensures calls[2 * k + 1] == Call(TypedHandler(e.typeOfEvent).value, registrations[n - 1 - k], e)
      {
        assert calls[2 * k] == Dispatch(prefix, e)[2 * (k - 1)];
        assert calls[2 * k + 1] == Dispatch(prefix, e)[2 * (k - 1) + 1];
        assert prefix[(n - 1) - 1 - (k - 1)] == registrations[n - 1 - k];
      }
    }
  }

  /** Any other type: every listener, from the latest registered to the
      oldest, receives `defaultAction` only. */
  lemma {:induction false} DispatchUntyped(registrations: seq<ShipmentListener>, e: ShipmentEvent)
    requires TypedHandler(e.typeOfEvent).None?
    ensures var calls := Dispatch(registrations, e); var n := |registrations|;
      && |calls| == n
      && forall k :: 0 <= k < n ==> calls[k] == Call(DefaultAction, registrations[n - 1 - k], e)
  {
    if registrations != [] {
      var n := |registrations|;
      var prefix := registrations[..n - 1];
      DispatchUntyped(prefix, e);
      var calls := Dispatch(registrations, e);
      assert calls == [Call(DefaultAction, registrations[n - 1], e)] + Dispatch(prefix, e);
      forall k | 1 <= k < n
        ensures calls[k] == Call(DefaultAction, registrations[n - 1 - k], e)
      {
        assert calls[k] == Dispatch(prefix, e)[k - 1];
        assert prefix[(n - 1) - 1 - (k - 1)] == registrations[n - 1 - k];
      }
    }
  }

  /** The typed handler exists exactly for the four event types, and each
      type has its own. */
  lemma TypedHandlerCases(typeOfEvent: int)
    ensures TypedHandler(typeOfEvent).Some? <==> 0 <= typeOfEvent <= 3
    ensures TypedHandler(EVENT_SAMPLE_ADDED) == Some(DataAdded)
    ensures TypedHandler(EVENT_SAMPLE_REMOVED) == Some(DataRemoved)
    ensures TypedHandler(EVENT_SAMPLE_MOVED) == Some(DataMoved)
    ensures TypedHandler(EVENT_SAMPLE_CHANGED) == Some(DataChanged)
  {
  }

  /** Every call carries the same event, which holds the source, type and
      target it was fired with. */
  lemma {:induction false} DispatchSharesEvent(registrations: seq<ShipmentListener>, e: ShipmentEvent)
    ensures forall c :: c in Dispatch(registrations, e) ==> c.event == e
  {
    if registrations != [] {
      DispatchSharesEvent(registrations[..|registrations| - 1], e);
    }
  }
}

=== FILE: geometry.dfy ===
/** Box geometry (`BoxOptions`): a box holds `rows` x `columns` samples, and
    the packing map shows the boxes one under another with `separator` blank
    rows between neighbouring boxes. A linear sample index is laid onto that
    map (`IndexToCell`) and a clicked map cell is mapped back (`CellToIndex`). */
module Geometry {
  import opened Util

  /** Box counting modes; only bit 0x01 of the mode is ever looked at. */
  const BX_ALL: bv32 := 0x00
  const BX_FULL_ONLY: bv32 := 0x01

  /** `java.awt.Point`: `x` is the map column, `y` the map row. */
  datatype Point = Point(x: int, y: int)

  /** The three parameters of a `BoxOptions` object. */
  datatype Dims = Dims(rows: int, columns: int, separator: int)

  /** What the setters guarantee: at least one row and one column, no negative separator. */
  predicate ValidDims(g: Dims) {
    g.rows >= 1 && g.columns >= 1 && g.separator >= 0
  }

  /** `getCapacity`: samples per box. */
  function Capacity(g: Dims): int {
    g.columns * g.rows
  }

  /** Map rows taken by one box together with the blank rows after it. */
  function Period(g: Dims): int {
    g.rows + g.separator
  }

  // -----------------------------------------------------------------------
  // The BoxOptions object
  // -----------------------------------------------------------------------

  class BoxOptions {
    var rows: int
    var columns: int
    var separator: int

    predicate Valid()
      reads this
    {
      ValidDims(Geometry())
    }

    /** The current parameters as a value. */
    function Geometry(): Dims
      reads this
    {
      Dims(rows, columns, separator)
    }

    constructor (rows: int, columns: int, separator: int)
      ensures Valid()
      ensures this.rows == Max(rows, 1) && this.columns == Max(columns, 1)
      ensures this.separator == Max(separator, 0)
    {
      new;
      SetRowsCount(rows);
      SetColumnsCount(columns);
      SetSeparator(separator);
    }

    method SetRowsCount(rows: int)
      modifies this`rows
      ensures this.rows == Max(rows, 1) && this.rows >= 1
    {
      this.rows := Max(rows, 1);
    }

    method SetColumnsCount(columns: int)
      modifies this`columns
      ensures this.columns == Max(columns, 1) && this.columns >= 1
    {
      this.columns := Max(columns, 1);
    }

    method SetSeparator(separator: int)
      modifies this`separator
      ensures this.separator == Max(separator, 0) && this.separator >= 0
    {
      this.separator := Max(separator, 0);
    }

    /** Reconfigures all three parameters, each clamped like its setter. */
    method Set(rows: int, columns: int, separator: int)
      modifies this
      ensures Valid()
      ensures this.rows == Max(rows, 1) && this.columns == Max(columns, 1)
      ensures this.separator == Max(separator, 0)
    {
      SetRowsCount(rows);
      SetColumnsCount(columns);
      SetSeparator(separator);
    }

    /** `translate(int row, int col)`: a click on a separator row is first
        moved up, one row at a time, to the last content row of the box above. */
    method TranslateCell(row: int, col: int) returns (index: int)
      requires Valid()
      ensures index == CellToIndex(Geometry(), row, col)
    {
      var r := row;
      while JDiv(JRem(r, rows + separator), rows) >= 1
        invariant SnappedRow(Geometry(), r) == SnappedRow(Geometry(), row)
        decreases r
      {
        BandStep(Geometry(), r);
        r := r - 1;
      }
      var fullBoxesCount := JDiv(r, rows + separator);
      var fullRows := r - separator * fullBoxesCount;
      index := fullRows * columns + col;
    }
  }

  // -----------------------------------------------------------------------
  // Box counting
  // -----------------------------------------------------------------------

  /** The `(int)` cast of a double: truncation toward zero. */
  function Truncate(x: real): int {
    if x >= 0.0 then x.Floor else -((-x).Floor)
  }

  /** `(int) Math.ceil(x)`. */
  function Ceiling(x: real): int {
    -((-x).Floor)
  }

  /** `getBoxesCount(samplesCount, state)`: the quotient `samplesCount / capacity`
      taken as a double, truncated under FULL_ONLY and rounded up otherwise.
      (For 32-bit operands the double quotient is never rounded across or onto
      an integer, so exact rational division gives the same result.) */
  function BoxesCount(samplesCount: int, capacity: int, state: bv32): int
    requires capacity >= 1
  {
    var count := samplesCount as real / capacity as real;
    if state & BX_FULL_ONLY != 0 then Truncate(count) else Ceiling(count)
  }

  lemma FloorOfQuotient(a: int, b: int)
    requires b > 0
    ensures (a as real / b as real).Floor == a / b
  {
    var x := a as real / b as real;
    var q := a / b;
    assert x * b as real == a as real;
    assert q * b <= a < (q + 1) * b;
    assert (q as real) * (b as real) <= x * (b as real);
    assert x * (b as real) < ((q + 1) as real) * (b as real);
  }

  /** For a non-negative count, FULL_ONLY counts the full boxes and ALL the
      boxes needed: floor and ceiling of `samplesCount / capacity`. */
  lemma BoxesCountOfNatural(samplesCount: int, capacity: int)
    requires samplesCount >= 0 && capacity >= 1
    ensures BoxesCount(samplesCount, capacity, BX_FULL_ONLY) == samplesCount / capacity
    ensures BoxesCount(samplesCount, capacity, BX_ALL) == (samplesCount + capacity - 1) / capacity
  {
    assert BX_FULL_ONLY & BX_FULL_ONLY != 0 && BX_ALL & BX_FULL_ONLY == 0;
    FloorOfQuotient(samplesCount, capacity);
    CeilingOfQuotient(samplesCount, capacity);
  }

  lemma CeilingOfQuotient(a: int, b: int)
    requires a >= 0 && b > 0
    ensures Ceiling(a as real / b as real) == (a + b - 1) / b
  {
    FloorOfQuotient(-a, b);
    assert (-a) as real / b as real == -(a as real / b as real);
    CeilingDiv(a, b);
  }

  /** Rounding up `a / b` is rounding down `-a / b` and negating. */
  lemma CeilingDiv(a: int, b: int)
    requires a >= 0 && b > 0
    ensures -((-a) / b) == (a + b - 1) / b
  {
    var q, r := a / b, a % b;
    assert a == q * b + r;
    if r == 0 {
      DivModUnique(-a, b, -q, 0);
      DivModUnique(a + b - 1, b, q, b - 1);
    } else {
      DivModUnique(-a, b, -q - 1, b - r);
      DivModUnique(a + b - 1, b, q + 1, r - 1);
    }
  }

  /** For a negative count the double is negative: truncation and ceiling both
      round toward zero, so both modes give Java's `samplesCount / capacity`. */
  lemma BoxesCountOfNegative(samplesCount: int, capacity: int, state: bv32)
    requires samplesCount < 0 && capacity >= 1
    ensures BoxesCount(samplesCount, capacity, state) == JDiv(samplesCount, capacity)
    ensures BoxesCount(samplesCount, capacity, state) <= 0
  {
    FloorOfQuotient(-samplesCount, capacity);
    assert -(samplesCount as real / capacity as real) == (-samplesCount) as real / capacity as real;
  }

  /** The boundary cases of the counting modes: an empty list needs no box, a
      full box is one box, and one sample more needs a second box (which is
      also full when a box holds a single sample). */
  lemma BoxesCountBoundaries(capacity: int)
    requires capacity >= 1
    ensures BoxesCount(0, capacity, BX_ALL) == 0 && BoxesCount(0, capacity, BX_FULL_ONLY) == 0
    ensures BoxesCount(capacity, capacity, BX_ALL) == 1
    ensures BoxesCount(capacity, capacity, BX_FULL_ONLY) == 1
    ensures BoxesCount(capacity + 1, capacity, BX_ALL) == 2
    ensures BoxesCount(capacity + 1, capacity, BX_FULL_ONLY) == if capacity == 1 then 2 else 1
  {
    BoxesCountOfNatural(0, capacity);
    BoxesCountOfNatural(capacity, capacity);
    BoxesCountOfNatural(capacity + 1, capacity);
    DivModUnique(capacity - 1, capacity, 0, capacity - 1);
    DivModUnique(capacity, capacity, 1, 0);
    DivModUnique(2 * capacity - 1, capacity, 1, capacity - 1);
    DivModUnique(2 * capacity, capacity, 2, 0);
    if capacity == 1 {
      DivModUnique(capacity + 1, capacity, 2, 0);
    } else {
      DivModUnique(capacity + 1, capacity, 1, 1);
    }
  }

  /** Only bit 0x01 of `state` selects FULL_ONLY; every other value counts like ALL. */
  lemma BoxesCountMode(samplesCount: int, capacity: int, state: bv32)
    requires capacity >= 1
    ensures BoxesCount(samplesCount, capacity, state) ==
            BoxesCount(samplesCount, capacity, if state & 0x01 != 0 then BX_FULL_ONLY else BX_ALL)
  {
  }

  // -----------------------------------------------------------------------
  // Index -> cell
  // -----------------------------------------------------------------------

  /** `translate(int index)`: column `index % columns`; row `index / columns`
      pushed down by `separator` rows for every full box before the index. */
  function IndexToCell(g: Dims, index: int): Point
    requires ValidDims(g)
  {
    Point(JRem(index, g.columns),
          JDiv(index, g.columns) + g.separator * BoxesCount(index, Capacity(g), BX_FULL_ONLY))
  }

  /** For a non-negative index: the column is `index mod columns`, and the row
      is the box number times `Period` plus the row inside the box, which is
      below `rows`. */
  lemma IndexToCellShape(g: Dims, index: int)
    requires ValidDims(g) && index >= 0
    ensures IndexToCell(g, index).x == index % g.columns
    ensures (index % Capacity(g)) / g.columns < g.rows
    ensures IndexToCell(g, index).y == (index / Capacity(g)) * Period(g) + (index % Capacity(g)) / g.columns
  {
    var k := index / Capacity(g);
    BoxesCountOfNatural(index, Capacity(g));
    JavaDivIsEuclideanOnNaturals(index, g.columns);
    NestedDivMod(index, g.columns, g.rows);
    assert k * Period(g) == k * g.rows + g.separator * k;
  }

  /** Dividing by `c` splits an index into whole groups of `c * rows` and
      the rows and columns left inside the last group. */
  lemma NestedDivMod(index: int, c: int, rows: int)
    requires index >= 0 && c >= 1 && rows >= 1
    ensures var k, m := index / (c * rows), index % (c * rows);
      index / c == k * rows + m / c && index % c == m % c && m / c < rows
  {
    var cap := c * rows;
    var k, m := index / cap, index % cap;
    var u, v := m / c, m % c;
    assert index == (k * rows + u) * c + v by {
      assert index == k * cap + m;
      assert m == u * c + v;
      assert k * cap == (k * rows) * c;
    }
    DivModUnique(index, c, k * rows + u, v);
    DivBelow(m, c, rows);
  }

  /** The index of column `col` of row `j` of group `k` splits back into
      those three. */
  lemma BlockCellIndex(c: int, rows: int, k: int, j: int, col: int)
    requires c >= 1 && rows >= 1 && k >= 0 && 0 <= j < rows && 0 <= col < c
    ensures var i := (k * rows + j) * c + col;
      && i >= 0 && i / (c * rows) == k && i % (c * rows) == j * c + col
      && (j * c + col) / c == j && i % c == col
  {
    BlockCellAlgebra(c, rows, k, j, col);
    DivModUnique((k * rows + j) * c + col, c * rows, k, j * c + col);
    DivModUnique(j * c + col, c, j, col);
    DivModUnique((k * rows + j) * c + col, c, k * rows + j, col);
  }

  lemma BlockCellAlgebra(c: int, rows: int, k: int, j: int, col: int)
    requires c >= 1 && rows >= 1 && k >= 0 && 0 <= j < rows && 0 <= col < c
    ensures (k * rows + j) * c + col == k * (c * rows) + (j * c + col)
    ensures 0 <= j * c + col < c * rows
    ensures (k * rows + j) * c + col >= 0
  {
    MulMonotone(j + 1, rows, c);
    MulNonNegative(j, c);
    MulNonNegative(k, c * rows);
  }

  /** Row `j` of block `k` of the map: a content row exactly when `j < rows`. */
  lemma RowInBlock(g: Dims, k: int, j: int)
    requires ValidDims(g) && k >= 0 && 0 <= j < g.rows
    ensures var y := k * Period(g) + j;
      y >= 0 && y / Period(g) == k && y % Period(g) == j && !InSeparatorBand(g, y)
  {
    var y := k * Period(g) + j;
    MulNonNegative(k, Period(g));
    DivModUnique(y, Period(g), k, j);
    InSeparatorBandMeans(g, y);
  }

  /** The row of a non-negative index is never a separator row. */
  lemma IndexRowIsContent(g: Dims, index: int)
    requires ValidDims(g) && index >= 0
    ensures IndexToCell(g, index).y >= 0 && 0 <= IndexToCell(g, index).x < g.columns
    ensures IndexToCell(g, index).y % Period(g) < g.rows
    ensures !InSeparatorBand(g, IndexToCell(g, index).y)
  {
    IndexToCellShape(g, index);
    RowInBlock(g, index / Capacity(g), (index % Capacity(g)) / g.columns);
  }

  /** The first sample of box `k` opens the box's block: row `k * Period`, column 0. */
  lemma FirstIndexOfBox(g: Dims, k: int)
    requires ValidDims(g) && k >= 0
    ensures IndexToCell(g, k * Capacity(g)) == Point(0, k * Period(g))
  {
    var cap := Capacity(g);
    MulNonNegative(k, cap);
    IndexToCellShape(g, k * cap);
    DivModUnique(k * cap, cap, k, 0);
    assert k * cap == (k * g.rows) * g.columns;
    DivModUnique(k * cap, g.columns, k * g.rows, 0);
  }

  /** Later samples never sit on an earlier map row. */
  lemma IndexToCellRowMonotone(g: Dims, i: int, j: int)
    requires ValidDims(g) && 0 <= i <= j
    ensures IndexToCell(g, i).y <= IndexToCell(g, j).y
  {
    BoxesCountOfNatural(i, Capacity(g));
    BoxesCountOfNatural(j, Capacity(g));
    DivMonotone(i, j, g.columns);
    DivMonotone(i, j, Capacity(g));
    MulMonotone(i / Capacity(g), j / Capacity(g), g.separator);
  }

  // -----------------------------------------------------------------------
  // Cell -> index
  // -----------------------------------------------------------------------

  /** The guard of the loop in `translate(row, col)`: the row lies in the blank
      rows after a box. */
  predicate InSeparatorBand(g: Dims, row: int)
    requires ValidDims(g)
  {
    JDiv(JRem(row, Period(g)), g.rows) >= 1
  }

  /** Where the loop in `translate(row, col)` stops: a separator row is moved up
      to the last content row of its box; any other row stays. */
  function SnappedRow(g: Dims, row: int): int
    requires ValidDims(g)
  {
    if InSeparatorBand(g, row) then row - JRem(row, Period(g)) + g.rows - 1 else row
  }

  /** The index `translate(row, col)` returns. */
  function CellToIndex(g: Dims, row: int, col: int): int
    requires ValidDims(g)
  {
    var r := SnappedRow(g, row);
    (r - g.separator * JDiv(r, Period(g))) * g.columns + col
  }

  /** A separator row is a positive row whose position in its block is at least `rows`. */
  lemma InSeparatorBandMeans(g: Dims, row: int)
    requires ValidDims(g)
    ensures InSeparatorBand(g, row) <==> row >= 0 && row % Period(g) >= g.rows
  {
    var per := Period(g);
    if row >= 0 {
      JavaDivIsEuclideanOnNaturals(row, per);
      JavaDivIsEuclideanOnNaturals(row % per, g.rows);
      if row % per >= g.rows {
        DivMonotone(g.rows, row % per, g.rows);
        DivModUnique(g.rows, g.rows, 1, 0);
      } else {
        DivModUnique(row % per, g.rows, 0, row % per);
      }
    } else {
      assert JRem(row, per) == -((-row) % per);
    }
  }

  /** One step of the loop in `translate(row, col)` keeps the row it will stop at. */
  lemma BandStep(g: Dims, row: int)
    requires ValidDims(g) && InSeparatorBand(g, row)
    ensures row >= 1 && SnappedRow(g, row - 1) == SnappedRow(g, row)
  {
    InSeparatorBandMeans(g, row);
    StepBackInPeriod(row, Period(g));
    InSeparatorBandMeans(g, row - 1);
  }

  /** A row that is not the first of its period steps back one place in the
      same period. */
  lemma StepBackInPeriod(row: int, per: int)
    requires per > 0 && row >= 0 && row % per >= 1
    ensures row >= 1
    ensures JRem(row, per) == row % per
    ensures (row - 1) % per == row % per - 1 && JRem(row - 1, per) == row % per - 1
  {
    var q, m := row / per, row % per;
    MulNonNegative(q, per);
    assert row == q * per + m;
    DivModUnique(row - 1, per, q, m - 1);
    JavaDivIsEuclideanOnNaturals(row, per);
    JavaDivIsEuclideanOnNaturals(row - 1, per);
  }

  /** A click on a separator row counts as a click on the last content row of
      the box above: at most `separator` rows up, never itself a separator row. */
  lemma SeparatorClick(g: Dims, row: int, col: int)
    requires ValidDims(g) && row >= 0 && InSeparatorBand(g, row)
    ensures SnappedRow(g, row) == (row / Period(g)) * Period(g) + g.rows - 1
    ensures 1 <= row - SnappedRow(g, row) <= g.separator
    ensures !InSeparatorBand(g, SnappedRow(g, row))
    ensures CellToIndex(g, row, col) == CellToIndex(g, SnappedRow(g, row), col)
  {
    var per := Period(g);
    InSeparatorBandMeans(g, row);
    JavaDivIsEuclideanOnNaturals(row, per);
    var s := SnappedRow(g, row);
    MulNonNegative(row / per, per);
    DivModUnique(s, per, row / per, g.rows - 1);
    InSeparatorBandMeans(g, s);
  }

  /** The index of a cell in row `j` of block `k`. */
  lemma CellToIndexInBlock(g: Dims, k: int, j: int, col: int)
    requires ValidDims(g) && k >= 0 && 0 <= j < g.rows
    ensures CellToIndex(g, k * Period(g) + j, col) == (k * g.rows + j) * g.columns + col
  {
    var y := k * Period(g) + j;
    RowInBlock(g, k, j);
    JavaDivIsEuclideanOnNaturals(y, Period(g));
    assert SnappedRow(g, y) == y;
    assert k * Period(g) == k * g.rows + g.separator * k;
  }

  /** Round trip: translating an index to its cell and back gives the index. */
  lemma CellOfIndexRoundTrip(g: Dims, index: int)
    requires ValidDims(g) && index >= 0
    ensures CellToIndex(g, IndexToCell(g, index).y, IndexToCell(g, index).x) == index
  {
    var c := g.columns;
    IndexToCellShape(g, index);
    NestedDivMod(index, c, g.rows);
    var k, u := index / Capacity(g), (index % Capacity(g)) / c;
    CellToIndexInBlock(g, k, u, index % c);
    assert (index / c) * c + index % c == index;
  }

  /** Round trip the other way: a content cell inside the box width is the cell
      of the index it translates to, and that index is non-negative. */
  lemma IndexOfCellRoundTrip(g: Dims, row: int, col: int)
    requires ValidDims(g) && row >= 0 && !InSeparatorBand(g, row) && 0 <= col < g.columns
    ensures CellToIndex(g, row, col) >= 0
    ensures IndexToCell(g, CellToIndex(g, row, col)) == Point(col, row)
  {
    var per := Period(g);
    InSeparatorBandMeans(g, row);
    JavaDivIsEuclideanOnNaturals(row, per);
    var k, j := row / per, row % per;
    assert row == k * per + j;
    CellToIndexInBlock(g, k, j, col);
    BlockCellIndex(g.columns, g.rows, k, j, col);
    IndexToCellShape(g, CellToIndex(g, row, col));
  }
}

=== FILE: locations.dfy ===
/** `Location`: the location flags, the delimiter and spacer strings shared
    by the sample formatting and parsing code, and the deprecated splitter
    `getLocationFromStr`. */
module Locations {
  import opened Util

  const LOC_STORAGE: bv32 := 0x01
  const LOC_RACK: bv32 := 0x02
  const LOC_BOX: bv32 := 0x04
  const LOC_ROW: bv32 := 0x08
  const LOC_COLUMN: bv32 := 0x10
  const LOC_ALL: bv32 := 0x1F

  /** The flags in the order of the five location parts. */
  const LOC_FLAGS: seq<bv32> := [LOC_STORAGE, LOC_RACK, LOC_BOX, LOC_ROW, LOC_COLUMN]

  type NonEmptyString = s: string | |s| > 0 witness "#"

  /** `DELIMITER` is `Pattern.quote(".")`: the regular-expression text `\Q.\E`.
      As a regex it matches one literal dot; appended to a string it is these
      five characters, four of them distinct. */
  const DELIMITER: string := "\\Q.\\E"

  /** `SPACER` is used as a constant of `Location` but declared nowhere in the
      repository; the model leaves its value open and only relies on it being
      non-empty. */
  const SPACER: NonEmptyString

  /** The parts of `getLocationFromStr`'s input: split at the first four dots. */
  function LocationParts(formattedSource: string): seq<string> {
    SplitLimit(formattedSource, '.', 5)
  }

  /** `getLocationFromStr`: "X" for fewer than five parts, "F" when no location
      flag is set, otherwise the part of the lowest flag that is set. */
  function GetLocationFromStr(formattedSource: string, locationFlags: bv32): string {
    var str := LocationParts(formattedSource);
    if |str| < 5 then "X"
    else if locationFlags & LOC_ALL == 0 then "F"
    else if locationFlags & LOC_STORAGE != 0 then str[0]
    else if locationFlags & LOC_RACK != 0 then str[1]
    else if locationFlags & LOC_BOX != 0 then str[2]
    else if locationFlags & LOC_ROW != 0 then str[3]
    else if locationFlags & LOC_COLUMN != 0 then str[4]
    else "F"
  }

  /** The split keeps at most five parts, the first four without dots, the
      fifth with every further dot; gluing them back with dots restores the
      input, and there are five parts exactly when the input has four dots. */
  lemma LocationPartsShape(formattedSource: string)
    ensures var str := LocationParts(formattedSource);
      && 1 <= |str| <= 5
      && (|str| == 5 <==> Count(formattedSource, '.') >= 4)
      && (forall k :: 0 <= k < |str| - 1 ==> '.' !in str[k])
      && Join(str, '.') == formattedSource
  {
    SplitLimitLength(formattedSource, '.', 5);
    JoinSplitLimit(formattedSource, '.', 5);
  }

  /** The format is checked before the flags: fewer than four dots gives "X"
      whatever the flags are. */
  lemma ShortSourceIsX(formattedSource: string, locationFlags: bv32)
    requires Count(formattedSource, '.') < 4
    ensures GetLocationFromStr(formattedSource, locationFlags) == "X"
  {
    LocationPartsShape(formattedSource);
  }

  /** A well-formed source with no location flag set gives "F". */
  lemma NoFlagIsF(formattedSource: string, locationFlags: bv32)
    requires Count(formattedSource, '.') >= 4 && locationFlags & LOC_ALL == 0
    ensures GetLocationFromStr(formattedSource, locationFlags) == "F"
  {
    LocationPartsShape(formattedSource);
  }

  /** With five parts, the lowest set location flag picks its part: storage 0,
      rack 1, box 2, row 3, column 4; higher flags and other bits are ignored. */
  lemma LowestFlagPicksPart(formattedSource: string, locationFlags: bv32, k: nat)
    requires Count(formattedSource, '.') >= 4
    requires k < 5 && locationFlags & LOC_FLAGS[k] != 0
    requires forall j :: 0 <= j < k ==> locationFlags & LOC_FLAGS[j] == 0
    ensures k < |LocationParts(formattedSource)|
    ensures GetLocationFromStr(formattedSource, locationFlags) == LocationParts(formattedSource)[k]
  {
    LocationPartsShape(formattedSource);
    LowestFlagBits(locationFlags, k);
  }

  /** Flag `k` is set and none before it: the tests before the one for `k`
      fail, that one succeeds, and LOC_ALL is not clear. */
  lemma LowestFlagBits(f: bv32, k: nat)
    requires k < 5 && f & LOC_FLAGS[k] != 0
    requires forall j :: 0 <= j < k ==> f & LOC_FLAGS[j] == 0
    ensures f & LOC_ALL != 0
    ensures (k == 0) == (f & LOC_STORAGE != 0)
    ensures k >= 1 ==> (k == 1) == (f & LOC_RACK != 0)
    ensures k >= 2 ==> (k == 2) == (f & LOC_BOX != 0)
    ensures k >= 3 ==> (k == 3) == (f & LOC_ROW != 0)
    ensures k == 4 ==> f & LOC_COLUMN != 0
  {
    LocationBits(f);
    assert LOC_FLAGS[0] == LOC_STORAGE && LOC_FLAGS[1] == LOC_RACK && LOC_FLAGS[2] == LOC_BOX;
    assert LOC_FLAGS[3] == LOC_ROW && LOC_FLAGS[4] == LOC_COLUMN;
  }

  /** Bits outside LOC_ALL never change the answer. */
  lemma LocationIgnoresHighBits(formattedSource: string, locationFlags: bv32)
    ensures GetLocationFromStr(formattedSource, locationFlags) ==
            GetLocationFromStr(formattedSource, locationFlags & LOC_ALL)
  {
    LocationBits(locationFlags);
  }

  /** The bit facts the flag tests rely on: masking with LOC_ALL keeps every
      location flag, and no location flag is set exactly when LOC_ALL is clear. */
  lemma LocationBits(f: bv32)
    ensures (f & LOC_ALL) & LOC_ALL == f & LOC_ALL
    ensures (f & LOC_ALL) & LOC_STORAGE == f & LOC_STORAGE && (f & LOC_ALL) & LOC_RACK == f & LOC_RACK
    ensures (f & LOC_ALL) & LOC_BOX == f & LOC_BOX && (f & LOC_ALL) & LOC_ROW == f & LOC_ROW
    ensures (f & LOC_ALL) & LOC_COLUMN == f & LOC_COLUMN
    ensures f & LOC_ALL == 0 <==>
      f & LOC_STORAGE == 0 && f & LOC_RACK == 0 && f & LOC_BOX == 0 && f & LOC_ROW == 0 && f & LOC_COLUMN == 0
  {
  }
}

=== FILE: sample_input.dfy ===
/** `EditSampleUI.getData`: the sample editor's parser. Every line of the
    pasted text becomes one sample; a line is a code, optionally followed by
    SPACER and location parts separated by the characters of DELIMITER. */
module SampleInput {
  import opened Util
  import opened Locations
  import opened Samples

  /** What `getData` yields: `null`, an `ArrayIndexOutOfBoundsException`
      thrown by the sixth location token of some line, or the samples. */
  datatype Parsed = NoLines | TooManyLocationParts | Parsed(samples: seq<SampleData>)

  // ---------------------------------------------------------------------
  // `text.split("\n")`
  // ---------------------------------------------------------------------

  /** `String.split` with limit 0 drops the empty parts at the end. */
  function DropTrailingEmpty(parts: seq<string>): (r: seq<string>)
    ensures |r| <= |parts| && r == parts[..|r|]
    ensures r == [] || r[|r| - 1] != ""
    ensures forall k :: |r| <= k < |parts| ==> parts[k] == ""
  {
    if parts == [] then []
    else if parts[|parts| - 1] == "" then DropTrailingEmpty(parts[..|parts| - 1])
    else parts
  }

  /** `text.split("\n")`: a text without a newline is its own only line (even
      the empty text); otherwise the parts between newlines, without the
      empty ones at the end. */
  function SplitLines(text: string): seq<string> {
    if '\n' !in text then [text] else DropTrailingEmpty(SplitAll(text, '\n'))
  }

  predicate AllEmpty(parts: seq<string>) {
    forall k :: 0 <= k < |parts| ==> parts[k] == ""
  }

  predicate AllChar(s: string, c: char) {
    forall j :: 0 <= j < |s| ==> s[j] == c
  }

  lemma AllEmptyCons(p: string, tail: seq<string>)
    ensures AllEmpty([p] + tail) <==> p == "" && AllEmpty(tail)
  {
    var ps := [p] + tail;
    assert ps[0] == p;
    assert forall k :: 0 <= k < |tail| ==> tail[k] == ps[k + 1];
  }

  lemma AllCharCons(s: string, c: char)
    requires s != []
    ensures AllChar(s, c) <==> s[0] == c && AllChar(s[1..], c)
  {
    assert forall j :: 1 <= j < |s| ==> s[j] == s[1..][j - 1];
  }

  lemma {:induction false} DropTrailingEmptyIsEmpty(parts: seq<string>)
    ensures DropTrailingEmpty(parts) == [] <==> AllEmpty(parts)
  {
    if parts != [] && parts[|parts| - 1] == "" {
      var prefix := parts[..|parts| - 1];
      DropTrailingEmptyIsEmpty(prefix);
      assert forall k :: 0 <= k < |prefix| ==> prefix[k] == parts[k];
    }
  }

  /** Every part of the split is empty exactly when the text holds nothing
      but separators. */
  lemma {:induction false} SplitAllEmptyParts(s: string, c: char)
    ensures AllEmpty(SplitAll(s, c)) <==> AllChar(s, c)
    decreases |s|
  {
    var i := IndexOf(s, c);
    if i < 0 {
      assert SplitAll(s, c) == [s];
      AllEmptyCons(s, []);
      if s != [] {
        assert s[0] != c;
      }
    } else {
      var rest := s[i + 1..];
      var tail := SplitAll(rest, c);
      assert SplitAll(s, c) == [s[..i]] + tail;
      AllEmptyCons(s[..i], tail);
      SplitAllEmptyParts(rest, c);
      AllCharCons(s, c);
      if i > 0 {
        assert s[0] == s[..i][0] && s[0] != c;
      } else {
        assert rest == s[1..];
      }
    }
  }

  /** `text.split("\n")` yields no line at all exactly when the text is a
      non-empty run of newlines. */
  lemma NoLinesExactly(text: string)
    ensures SplitLines(text) == [] <==> text != "" && AllChar(text, '\n')
  {
    if '\n' in text {
      DropTrailingEmptyIsEmpty(SplitAll(text, '\n'));
      SplitAllEmptyParts(text, '\n');
    } else if text != "" {
      assert text[0] != '\n';
    }
  }

  // ---------------------------------------------------------------------
  // `new StringTokenizer(s, DELIMITER)`
  // ---------------------------------------------------------------------

  /** A `StringTokenizer` treats every character of its delimiter string as a
      delimiter on its own: here `\`, `Q`, `.` and `E`. */
  predicate IsDelimiter(c: char) {
    c in DELIMITER
  }

  predicate NoDelimiter(s: string) {
    forall j :: 0 <= j < |s| ==> !IsDelimiter(s[j])
  }

  /** Length of the token at the start of `s`: up to the next delimiter. */
  function TokenLength(s: string): (n: nat)
    requires s != [] && !IsDelimiter(s[0])
    ensures 1 <= n <= |s| && NoDelimiter(s[..n])
    ensures forall j :: 0 <= j < n ==> !IsDelimiter(s[j])
    ensures n < |s| ==> IsDelimiter(s[n])
  {
    if |s| == 1 || IsDelimiter(s[1]) then 1
    else
      var m := TokenLength(s[1..]);
      assert s[..m + 1] == [s[0]] + s[1..][..m];
      m + 1
  }

  /** The tokens the tokenizer hands out, in order: the maximal runs of
      non-delimiter characters. */
  function Tokens(s: string): seq<string>
    decreases |s|
  {
    if s == [] then []
    else if IsDelimiter(s[0]) then Tokens(s[1..])
    else
      var n := TokenLength(s);
      [s[..n]] + Tokens(s[n..])
  }

  /** `s` without its delimiter characters. */
  function Strip(s: string): string {
    if s == [] then ""
    else (if IsDelimiter(s[0]) then "" else [s[0]]) + Strip(s[1..])
  }

  function Concat(parts: seq<string>): string {
    if parts == [] then "" else parts[0] + Concat(parts[1..])
  }

  lemma {:induction false} StripNoDelimiter(s: string)
    requires NoDelimiter(s)
    ensures Strip(s) == s
  {
    if s != [] {
      StripNoDelimiter(s[1..]);
    }
  }

  lemma {:induction false} StripAppend(a: string, b: string)
    ensures Strip(a + b) == Strip(a) + Strip(b)
  {
    if a != [] {
      assert (a + b)[1..] == a[1..] + b;
      StripAppend(a[1..], b);
    } else {
      assert a + b == b;
    }
  }

  /** No token is empty or holds a delimiter, and the tokens glued together
      are the input with its delimiters removed: empty tokens are dropped and
      nothing else is lost. */
  lemma {:induction false} TokensShape(s: string)
    ensures forall k :: 0 <= k < |Tokens(s)| ==> Tokens(s)[k] != "" && NoDelimiter(Tokens(s)[k])
    ensures Concat(Tokens(s)) == Strip(s)
    decreases |s|
  {
    if s != [] {
      if IsDelimiter(s[0]) {
        TokensShape(s[1..]);
      } else {
        var n := TokenLength(s);
        var rest := Tokens(s[n..]);
        TokensShape(s[n..]);
        assert Tokens(s) == [s[..n]] + rest;
        assert forall k :: 1 <= k < |Tokens(s)| ==> Tokens(s)[k] == rest[k - 1];
        assert s == s[..n] + s[n..];
        StripAppend(s[..n], s[n..]);
        StripNoDelimiter(s[..n]);
        assert ([s[..n]] + rest)[1..] == rest;
      }
    }
  }

  /** A delimiter-free word followed by a delimiter (or by nothing) is one
      token. */
  lemma TokensOfWord(a: string, rest: string)
    requires a != [] && NoDelimiter(a)
    requires rest == [] || IsDelimiter(rest[0])
    ensures Tokens(a + rest) == [a] + Tokens(rest)
  {
    var s := a + rest;
    var n := TokenLength(s);
    assert forall j :: 0 <= j < |a| ==> s[j] == a[j];
    assert |rest| > 0 ==> s[|a|] == rest[0];
    assert n == |a|;
    assert s[..n] == a && s[n..] == rest;
  }

  /** Leading delimiters are skipped. */
  lemma {:induction false} TokensSkipDelimiters(dl: string, rest: string)
    requires forall j :: 0 <= j < |dl| ==> IsDelimiter(dl[j])
    ensures Tokens(dl + rest) == Tokens(rest)
  {
    if dl != [] {
      assert (dl + rest)[1..] == dl[1..] + rest;
      TokensSkipDelimiters(dl[1..], rest);
    } else {
      assert dl + rest == rest;
    }
  }

  /** `Q` and `E` are delimiters too: a storage named "FREEZER" is read as
      three tokens. */
  lemma LettersQAndESplitTokens()
    ensures Tokens("FREEZER") == ["FR", "Z", "R"]
  {
    var s := "FREEZER";
    assert Tokens(s) == ["FR"] + Tokens("EEZER") by {
      assert TokenLength(s) == 2 by {
        assert IsDelimiter(s[2]);
      }
      assert s[..2] == "FR" && s[2..] == "EEZER";
    }
    TokensOfEEZER();
  }

  lemma TokensOfEEZER()
    ensures Tokens("EEZER") == ["Z", "R"]
  {
    assert Tokens("EEZER") == Tokens("EZER") == Tokens("ZER") by {
      assert "EEZER"[1..] == "EZER" && "EZER"[1..] == "ZER";
    }
    assert Tokens("ZER") == ["Z"] + Tokens("ER") by {
      assert TokenLength("ZER") == 1 by {
        assert IsDelimiter("ZER"[1]);
      }
      assert "ZER"[..1] == "Z" && "ZER"[1..] == "ER";
    }
    TokensOfER();
  }

  lemma TokensOfER()
    ensures Tokens("ER") == ["R"]
  {
    assert Tokens("ER") == Tokens("R") by {
      assert "ER"[1..] == "R";
    }
    assert Tokens("R") == ["R"] + Tokens("") by {
      assert TokenLength("R") == 1 && "R"[..1] == "R" && "R"[1..] == "";
    }
  }

  // ---------------------------------------------------------------------
  // One line
  // ---------------------------------------------------------------------

  /** The five location parts: the tokens in order, "0" for the missing ones. */
  function Padded(tokens: seq<string>): (loc: seq<string>)
    requires |tokens| <= 5
    ensures |loc| == 5
    ensures forall k :: 0 <= k < 5 ==> loc[k] == if k < |tokens| then tokens[k] else "0"
  {
    tokens + seq(5 - |tokens|, _ => "0")
  }

  function LocationFields(d: SampleData): seq<string> {
    [d.storage, d.rack, d.box, d.row, d.column]
  }

  /** A non-empty line: the code before the first SPACER, the location
      tokens after it; `None` when there are more than five tokens. */
  function ParseLine(row: string): Option<SampleData> {
    var i := IndexOfSub(row, SPACER);
    if i < 0 then Some(SampleData(row, "", false, "0", "0", "0", "0", "0"))
    else LineFields(row[..i], Tokens(row[i + |SPACER|..]))
  }

  /** The sample of a line with a SPACER: its code and its location tokens;
      `None` for more than five tokens. */
  function LineFields(code: string, tokens: seq<string>): Option<SampleData> {
    if |tokens| > 5 then None
    else
      var loc := Padded(tokens);
      Some(SampleData(code, "", false, loc[0], loc[1], loc[2], loc[3], loc[4]))
  }

  lemma LineFieldsSpec(code: string, tokens: seq<string>)
    ensures LineFields(code, tokens).None? <==> |tokens| > 5
    ensures LineFields(code, tokens).Some? ==>
      var d := LineFields(code, tokens).value;
      && d.code == code && d.weight == "" && !d.packed
      && forall k :: 0 <= k < 5 ==> LocationFields(d)[k] == if k < |tokens| then tokens[k] else "0"
    ensures |tokens| == 5 ==>
      LineFields(code, tokens) == Some(SampleData(code, "", false, tokens[0], tokens[1], tokens[2], tokens[3], tokens[4]))
  {
  }

  /** A line without SPACER is all code, with every location part "0". */
  lemma LineWithoutSpacer(row: string)
    requires forall j :: !OccursAt(row, SPACER, j)
    ensures ParseLine(row) == Some(SampleData(row, "", false, "0", "0", "0", "0", "0"))
  {
  }

  /** With SPACER first at `i`, the code is what precedes it; the location
      parts are the tokens of what follows, in order, and "0" past the last
      token; a sixth token makes the line fail. Weight is "" and packed false. */
  lemma LineWithSpacer(row: string, i: nat)
    requires OccursAt(row, SPACER, i)
    requires forall j :: 0 <= j < i ==> !OccursAt(row, SPACER, j)
    ensures var tokens := Tokens(row[i + |SPACER|..]);
      && (ParseLine(row).None? <==> |tokens| > 5)
      && (ParseLine(row).Some? ==>
            var d := ParseLine(row).value;
            && d.code == row[..i] && d.weight == "" && !d.packed
            && forall k :: 0 <= k < 5 ==> LocationFields(d)[k] == if k < |tokens| then tokens[k] else "0")
  {
    assert IndexOfSub(row, SPACER) == i by {
      var j := IndexOfSub(row, SPACER);
      assert j >= 0 && j >= i;
    }
    LineFieldsSpec(row[..i], Tokens(row[i + |SPACER|..]));
  }

  // ---------------------------------------------------------------------
  // The whole text
  // ---------------------------------------------------------------------

  /** The lines in order, each read by `parse`: empty lines are skipped,
      the first failing line fails them all. */
  function ParseEach(lines: seq<string>, parse: string -> Option<SampleData>): Option<seq<SampleData>> {
    if lines == [] then Some([])
    else if lines[0] == "" then ParseEach(lines[1..], parse)
    else match parse(lines[0])
      case None => None
      case Some(d) =>
        match ParseEach(lines[1..], parse)
        case None => None
        case Some(ds) => Some([d] + ds)
  }

  /** The lines of the text read by `ParseLine`. */
  function ParseLines(lines: seq<string>): Option<seq<SampleData>> {
    ParseEach(lines, ParseLine)
  }

  /** What `getData` returns for the editor's text. */
  function ParseText(text: string): Parsed {
    var lines := SplitLines(text);
    if |lines| == 0 then NoLines
    else match ParseLines(lines)
      case None => TooManyLocationParts
      case Some(ds) => Parsed(ds)
  }

  function NonEmptyLines(lines: seq<string>): (r: seq<string>)
    ensures forall k :: 0 <= k < |r| ==> r[k] != ""
  {
    if lines == [] then []
    else (if lines[0] == "" then [] else [lines[0]]) + NonEmptyLines(lines[1..])
  }

  /** `r` holds one sample per non-empty line of `lines`, in order, each
      what `parse` makes of its line, and is `None` exactly when `parse`
      fails on some non-empty line. */
  predicate LineByLine(lines: seq<string>, parse: string -> Option<SampleData>, r: Option<seq<SampleData>>) {
    var ne := NonEmptyLines(lines);
    && (r.Some? <==> forall k :: 0 <= k < |ne| ==> parse(ne[k]).Some?)
    && (r.Some? ==> |r.value| == |ne| && forall k :: 0 <= k < |r.value| ==> Some(r.value[k]) == parse(ne[k]))
  }

  /** The lines are read one by one: one sample per non-empty line, in
      order, each the reading of its line; the whole fails exactly when
      some non-empty line does. */
  lemma {:induction false} ParseEachSpec(lines: seq<string>, parse: string -> Option<SampleData>)
    ensures LineByLine(lines, parse, ParseEach(lines, parse))
  {
    if lines != [] {
      ParseEachSpec(lines[1..], parse);
      if lines[0] != "" {
        ParseEachHead(lines, parse);
      } else {
        assert ParseEach(lines, parse) == ParseEach(lines[1..], parse);
        assert NonEmptyLines(lines) == NonEmptyLines(lines[1..]) by {
          assert NonEmptyLines(lines) == [] + NonEmptyLines(lines[1..]);
        }
      }
    }
  }

  lemma ParseEachHead(lines: seq<string>, parse: string -> Option<SampleData>)
    requires lines != [] && lines[0] != ""
    requires LineByLine(lines[1..], parse, ParseEach(lines[1..], parse))
    ensures LineByLine(lines, parse, ParseEach(lines, parse))
  {
    if parse(lines[0]).None? {
      ParseEachHeadFails(lines, parse);
    } else if ParseEach(lines[1..], parse).None? {
      ParseEachTailFails(lines, parse);
    } else {
      ParseEachBoth(lines, parse);
    }
  }

  lemma ParseEachHeadFails(lines: seq<string>, parse: string -> Option<SampleData>)
    requires lines != [] && lines[0] != "" && parse(lines[0]).None?
    ensures LineByLine(lines, parse, ParseEach(lines, parse))
  {
    var ne := NonEmptyLines(lines);
    assert ne == [lines[0]] + NonEmptyLines(lines[1..]);
    assert parse(ne[0]).None?;
  }

  lemma ParseEachTailFails(lines: seq<string>, parse: string -> Option<SampleData>)
    requires lines != [] && lines[0] != "" && parse(lines[0]).Some?
    requires LineByLine(lines[1..], parse, ParseEach(lines[1..], parse))
    requires ParseEach(lines[1..], parse).None?
    ensures LineByLine(lines, parse, ParseEach(lines, parse))
  {
    var rest := NonEmptyLines(lines[1..]);
    var ne := NonEmptyLines(lines);
    assert ne == [lines[0]] + rest;
    var k :| 0 <= k < |rest| && parse(rest[k]).None?;
    assert ne[k + 1] == rest[k];
  }

  lemma ParseEachBoth(lines: seq<string>, parse: string -> Option<SampleData>)
    requires lines != [] && lines[0] != "" && parse(lines[0]).Some?
    requires LineByLine(lines[1..], parse, ParseEach(lines[1..], parse))
    requires ParseEach(lines[1..], parse).Some?
    ensures LineByLine(lines, parse, ParseEach(lines, parse))
  {
    var rest := NonEmptyLines(lines[1..]);
    var ne := NonEmptyLines(lines);
    assert ne == [lines[0]] + rest;
    var tail := ParseEach(lines[1..], parse).value;
    var ds := [parse(lines[0]).value] + tail;
    assert ParseEach(lines, parse) == Some(ds);
    assert forall k :: 1 <= k < |ne| ==> ne[k] == rest[k - 1];
    assert forall k :: 1 <= k < |ds| ==> ds[k] == tail[k - 1];
  }

  /** `getData` returns null exactly for a non-empty text of nothing but
      newlines; otherwise it yields one sample per non-empty line in order,
      or fails when a non-empty line has more than five location tokens. */
  lemma ParseTextSpec(text: string)
    ensures ParseText(text) == NoLines <==> text != "" && AllChar(text, '\n')
    ensures ParseText(text) != NoLines ==> LineByLine(SplitLines(text), ParseLine, Outcome(ParseText(text)))
  {
    NoLinesExactly(text);
    ParseEachSpec(SplitLines(text), ParseLine);
  }

  /** The samples of a text that has lines, or `None` when a line fails. */
  function Outcome(p: Parsed): Option<seq<SampleData>> {
    match p
    case Parsed(ds) => Some(ds)
    case _ => None
  }

  /** A single line without newline is parsed as that line. */
  lemma OneLine(text: string)
    requires text != "" && '\n' !in text
    ensures ParseLine(text).Some? ==> ParseText(text) == Parsed([ParseLine(text).value])
    ensures ParseLine(text).None? ==> ParseText(text) == TooManyLocationParts
  {
    assert SplitLines(text) == [text];
    assert ParseLines([text][1..]) == Some([]);
  }

  /** The editor reads back what `get(SAMPLE_CODE | SAMPLE_LOCATION)` writes,
      as long as the code does not contain the first character of SPACER and
      the five location parts hold none of the delimiter characters; weight
      and packed come back as "" and false. */
  lemma ReadsBackCodeAndLocation(d: SampleData)
    requires Clean(d.code) && Clean(d.storage)
    requires Clean(d.rack) && Clean(d.box) && Clean(d.row) && Clean(d.column)
    requires SPACER[0] !in d.code
    requires NoDelimiter(d.storage) && NoDelimiter(d.rack) && NoDelimiter(d.box)
    requires NoDelimiter(d.row) && NoDelimiter(d.column)
    ensures ParseLine(Render(d, SAMPLE_CODE | SAMPLE_LOCATION)) ==
            Some(d.(weight := "", packed := false))
  {
    RenderIsCodeAndLocationLine(d);
    ParseCodeAndLocationLine(d);
  }

  lemma RenderIsCodeAndLocationLine(d: SampleData)
    requires Clean(d.code) && Clean(d.storage)
    requires Clean(d.rack) && Clean(d.box) && Clean(d.row) && Clean(d.column)
    ensures Render(d, SAMPLE_CODE | SAMPLE_LOCATION) == CodeAndLocationLine(d)
  {
    RenderCodeAndLocation(d);
  }

  function CodeAndLocationLine(d: SampleData): string {
    d.code + SPACER + (d.storage + DELIMITER + d.rack + DELIMITER + d.box + DELIMITER + d.row + DELIMITER + d.column)
  }

  lemma ParseCodeAndLocationLine(d: SampleData)
    requires d.storage != [] && d.rack != [] && d.box != [] && d.row != [] && d.column != []
    requires SPACER[0] !in d.code
    requires NoDelimiter(d.storage) && NoDelimiter(d.rack) && NoDelimiter(d.box)
    requires NoDelimiter(d.row) && NoDelimiter(d.column)
    ensures ParseLine(CodeAndLocationLine(d)) == Some(d.(weight := "", packed := false))
  {
    var rest := d.storage + DELIMITER + d.rack + DELIMITER + d.box + DELIMITER + d.row + DELIMITER + d.column;
    ParseLineAfterCode(d.code, rest);
    TokensOfLocation(d);
    LineFieldsSpec(d.code, [d.storage, d.rack, d.box, d.row, d.column]);
  }

  /** A line made of a code without SPACER's first character, SPACER and a
      rest: the code and the tokens of the rest. */
  lemma ParseLineAfterCode(code: string, rest: string)
    requires SPACER[0] !in code
    ensures ParseLine(code + SPACER + rest) == LineFields(code, Tokens(rest))
  {
    var line := code + SPACER + rest;
    SpacerAfterCode(code, rest);
    assert line[|code| + |SPACER|..] == rest && line[..|code|] == code;
  }

  /** SPACER right after a code that lacks its first character is the
      first SPACER of the line. */
  lemma SpacerAfterCode(code: string, rest: string)
    requires SPACER[0] !in code
    ensures IndexOfSub(code + SPACER + rest, SPACER) == |code|
  {
    var line := code + SPACER + rest;
    assert line[|code|..|code| + |SPACER|] == SPACER;
    assert OccursAt(line, SPACER, |code|);
    forall j | 0 <= j < |code|
      ensures !OccursAt(line, SPACER, j)
    {
      assert line[j] == code[j];
    }
  }

  /** DELIMITER followed by a delimiter-free word yields that word as the
      next token. */
  lemma TokensAfterDelimiter(w: string, rest: string)
    requires w != [] && NoDelimiter(w)
    requires rest == [] || IsDelimiter(rest[0])
    ensures Tokens(DELIMITER + (w + rest)) == [w] + Tokens(rest)
    ensures IsDelimiter((DELIMITER + (w + rest))[0])
  {
    assert forall j :: 0 <= j < |DELIMITER| ==> IsDelimiter(DELIMITER[j]);
    TokensSkipDelimiters(DELIMITER, w + rest);
    TokensOfWord(w, rest);
  }

  /** Delimiter-free location parts joined with DELIMITER come back as the
      five tokens. */
  lemma TokensOfLocation(d: SampleData)
    requires d.storage != [] && d.rack != [] && d.box != [] && d.row != [] && d.column != []
    requires NoDelimiter(d.storage) && NoDelimiter(d.rack) && NoDelimiter(d.box)
    requires NoDelimiter(d.row) && NoDelimiter(d.column)
    ensures Tokens(d.storage + DELIMITER + d.rack + DELIMITER + d.box + DELIMITER + d.row + DELIMITER + d.column)
            == [d.storage, d.rack, d.box, d.row, d.column]
  {
    var c := DELIMITER + (d.column + []);
    var r := DELIMITER + (d.row + c);
    var b := DELIMITER + (d.box + r);
    var k := DELIMITER + (d.rack + b);
    assert Tokens(c) == [d.column] by {
      TokensAfterDelimiter(d.column, []);
    }
    assert Tokens(r) == [d.row, d.column] by {
      TokensAfterDelimiter(d.row, c);
    }
    assert Tokens(b) == [d.box, d.row, d.column] by {
      TokensAfterDelimiter(d.box, r);
    }
    assert Tokens(k) == [d.rack, d.box, d.row, d.column] by {
      TokensAfterDelimiter(d.rack, b);
    }
    assert Tokens(d.storage + k) == [d.storage, d.rack, d.box, d.row, d.column] by {
      TokensOfWord(d.storage, k);
    }
    LocationLineNests(d.storage, d.rack, d.box, d.row, d.column);
  }

  lemma LocationLineNests(s: string, k: string, b: string, r: string, c: string)
    ensures s + DELIMITER + k + DELIMITER + b + DELIMITER + r + DELIMITER + c ==
            s + (DELIMITER + (k + (DELIMITER + (b + (DELIMITER + (r + (DELIMITER + (c + []))))))))
  {
    assert c + [] == c;
  }

  // ---------------------------------------------------------------------
  // `getData`
  // ---------------------------------------------------------------------

  /** `getData`: the lines in order; empty ones are skipped, each other line
      gives one sample, and the first line that fails ends the call. */
  method GetData(text: string) returns (r: Parsed)
    ensures r == ParseText(text)
  {
    var input := SplitLines(text);
    if |input| == 0 {
      return NoLines;
    }
    var dataList: seq<SampleData> := [];
    var n := 0;
    assert input[0..] == input;
    PrependNothing(ParseLines(input));
    while n < |input|
      invariant 0 <= n <= |input|
      invariant ParseLines(input) == Prepend(dataList, ParseLines(input[n..]))
    {
      var row := input[n];
      assert input[n..][1..] == input[n + 1..];
      if row != "" {
        var sample := ReadLine(row);
        if sample.None? {
          return TooManyLocationParts;
        }
        PrependOne(dataList, sample.value, ParseLines(input[n + 1..]));
        dataList := dataList + [sample.value];
      }
      n := n + 1;
    }
    assert input[n..] == [];
    return Parsed(dataList);
  }

  /** The body of `getData`'s loop for a non-empty line: the code is the
      line up to the first SPACER; the location parts go into a fresh
      five-slot array preset to "0", one token per slot, and a sixth token
      indexes past the array. */
  method ReadLine(row: string) returns (r: Option<SampleData>)
    ensures r == ParseLine(row)
  {
    var loc := new string[5](_ => "0");
    var code := row;
    var i := IndexOfSub(row, SPACER);
    if i >= 0 {
      code := row[..i];
      var tokens := Tokens(row[i + |SPACER|..]);
      var t := 0;
      while t < |tokens|
        invariant 0 <= t <= |tokens| && t <= 5
        invariant loc[..] == Padded(tokens[..t])
      {
        if t >= 5 {
          return None;
        }
        PaddedStep(tokens, t);
        loc[t] := tokens[t];
        t := t + 1;
      }
      assert tokens[..t] == tokens;
    }
    return Some(SampleData(code, "", false, loc[0], loc[1], loc[2], loc[3], loc[4]));
  }

  /** Storing the next token into its slot pads one more token. */
  lemma PaddedStep(tokens: seq<string>, t: nat)
    requires t < |tokens| && t < 5
    ensures Padded(tokens[..t + 1]) == Padded(tokens[..t])[t := tokens[t]]
  {
    assert tokens[..t + 1] == tokens[..t] + [tokens[t]];
  }

  /** Samples already collected in front of the parse of the remaining lines. */
  function Prepend(done: seq<SampleData>, rest: Option<seq<SampleData>>): Option<seq<SampleData>> {
    match rest
    case None => None
    case Some(ds) => Some(done + ds)
  }

  lemma PrependNothing(rest: Option<seq<SampleData>>)
    ensures Prepend([], rest) == rest
  {
    if rest.Some? {
      assert [] + rest.value == rest.value;
    }
  }

  lemma PrependOne(done: seq<SampleData>, d: SampleData, rest: Option<seq<SampleData>>)
    ensures Prepend(done + [d], rest) ==
            Prepend(done, match rest case None => None case Some(ds) => Some([d] + ds))
  {
    if rest.Some? {
      assert done + [d] + rest.value == done + ([d] + rest.value);
    }
  }
}

=== FILE: samples.dfy ===
/** `Sample`: one biological sample of a shipment (code, weight, packed flag
    and a five-part storage location), its setters, and `get(flags)`, which
    renders the selected fields as one string. */
module Samples {
  import opened Util
  import opened Locations

  const SAMPLE_CODE: bv32 := 0x01
  const SAMPLE_WEIGHT: bv32 := 0x02
  const SAMPLE_PACKED: bv32 := 0x04
  const SAMPLE_STORAGE: bv32 := 0x08
  const SAMPLE_RACK: bv32 := 0x10
  const SAMPLE_BOX: bv32 := 0x20
  const SAMPLE_ROW: bv32 := 0x40
  const SAMPLE_COLUMN: bv32 := 0x80
  const SAMPLE_LOCATION: bv32 := 0xF8
  const SAMPLE_ALL: bv32 := 0xFF

  const NOTHING_REQUESTED: string := "nothing requested"

  /** The values held by a `Sample` at one moment. */
  datatype SampleData = SampleData(code: string, weight: string, packed: bool,
                                   storage: string, rack: string, box: string,
                                   row: string, column: string)

  /** Java's rendering of a boolean appended to a string. */
  function BoolText(b: bool): string {
    if b then "true" else "false"
  }

  // ---------------------------------------------------------------------
  // Specification of `get(flags)`
  // ---------------------------------------------------------------------

  /** A selected field: the separator that may precede it and its text. */
  datatype Piece = Piece(separator: string, text: string)

  /** The flag of field `k` of the rendering order. */
  function FieldFlag(k: nat): bv32
    requires k < 8
  {
    match k
    case 0 => SAMPLE_CODE
    case 1 => SAMPLE_WEIGHT
    case 2 => SAMPLE_PACKED
    case 3 => SAMPLE_STORAGE
    case 4 => SAMPLE_RACK
    case 5 => SAMPLE_BOX
    case 6 => SAMPLE_ROW
    case _ => SAMPLE_COLUMN
  }

  /** Field `k` of the rendering order, with the separator that may precede
      it: code, weight, packed and storage take SPACER, the other location
      parts DELIMITER. */
  function FieldPiece(d: SampleData, k: nat): Piece
    requires k < 8
  {
    match k
    case 0 => Piece(SPACER, d.code)
    case 1 => Piece(SPACER, d.weight)
    case 2 => Piece(SPACER, BoolText(d.packed))
    case 3 => Piece(SPACER, d.storage)
    case 4 => Piece(DELIMITER, d.rack)
    case 5 => Piece(DELIMITER, d.box)
    case 6 => Piece(DELIMITER, d.row)
    case _ => Piece(DELIMITER, d.column)
  }

  /** The selected fields among the first `k` of the rendering order. */
  function SelectedUpTo(d: SampleData, flags: bv32, k: nat): seq<Piece>
    requires k <= 8
  {
    if k == 0 then []
    else SelectedUpTo(d, flags, k - 1)
         + (if flags & FieldFlag(k - 1) != 0 then [FieldPiece(d, k - 1)] else [])
  }

  /** The fields `flags` selects, in rendering order. */
  function Selected(d: SampleData, flags: bv32): seq<Piece> {
    SelectedUpTo(d, flags, 8)
  }

  /** One append step: the separator goes in only when the partial result is
      non-empty and does not already end with SPACER. */
  function AppendPiece(acc: string, p: Piece): string {
    (if !EndsWith(acc, SPACER) && acc != "" then acc + p.separator else acc) + p.text
  }

  /** The result of appending the pieces one after another to "". */
  function Glue(pieces: seq<Piece>): string {
    if pieces == [] then "" else AppendPiece(Glue(pieces[..|pieces| - 1]), pieces[|pieces| - 1])
  }

  /** One step of `get(flags)`: field `k` is appended when its flag is set. */
  function Step(acc: string, d: SampleData, flags: bv32, k: nat): string
    requires k < 8
  {
    if flags & FieldFlag(k) != 0 then AppendPiece(acc, FieldPiece(d, k)) else acc
  }

  /** The partial result of `get(flags)` after the first `k` fields. */
  function RenderUpTo(d: SampleData, flags: bv32, k: nat): string
    requires k <= 8
  {
    if k == 0 then "" else Step(RenderUpTo(d, flags, k - 1), d, flags, k - 1)
  }

  /** What `get(flags)` returns for a sample holding `d`. */
  function Render(d: SampleData, flags: bv32): string {
    if flags & SAMPLE_ALL == 0 then NOTHING_REQUESTED else RenderUpTo(d, flags, 8)
  }

  // ---------------------------------------------------------------------
  // The mutable record
  // ---------------------------------------------------------------------

  class Sample {
    var code: string
    var weight: string
    var packed: bool
    var storage: string
    var rack: string
    var box: string
    var row: string
    var column: string

    function Data(): SampleData
      reads this
    {
      SampleData(code, weight, packed, storage, rack, box, row, column)
    }

    /** A new sample has an empty weight and is not packed. */
    constructor (code: string, storage: string, rack: string, box: string, row: string, column: string)
      ensures Data() == SampleData(code, "", false, storage, rack, box, row, column)
    {
      this.code := code;
      this.weight := "";
      this.packed := false;
      this.storage := storage;
      this.rack := rack;
      this.box := box;
      this.row := row;
      this.column := column;
    }

    method SetCode(code: string)
      modifies this`code
      ensures Data() == old(Data()).(code := code)
    {
      this.code := code;
    }

    method SetWeight(weight: string)
      modifies this`weight
      ensures Data() == old(Data()).(weight := weight)
    {
      this.weight := weight;
    }

    method SetPacked(packed: bool)
      modifies this`packed
      ensures Data() == old(Data()).(packed := packed)
    {
      this.packed := packed;
    }

    method SetStorage(storage: string)
      modifies this`storage
      ensures Data() == old(Data()).(storage := storage)
    {
      this.storage := storage;
    }

    method SetRack(rack: string)
      modifies this`rack
      ensures Data() == old(Data()).(rack := rack)
    {
      this.rack := rack;
    }

    method SetBox(box: string)
      modifies this`box
      ensures Data() == old(Data()).(box := box)
    {
      this.box := box;
    }

    method SetRow(row: string)
      modifies this`row
      ensures Data() == old(Data()).(row := row)
    {
      this.row := row;
    }

    method SetColumn(column: string)
      modifies this`column
      ensures Data() == old(Data()).(column := column)
    {
      this.column := column;
    }

    /** `get(flags)`: the selected fields glued together by successive
        appends. The code comes first, onto the empty result, where no
        separator can be added. */
    method Get(flags: bv32) returns (result: string)
      ensures result == Render(Data(), flags)
    {
      if flags & SAMPLE_ALL == 0 {
        return NOTHING_REQUESTED;
      }
      ghost var d := Data();
      ghost var prev := "";
      result := "";
      result := AppendIfSelected(result, flags & FieldFlag(0) != 0, SPACER, code);
      RenderStep(d, flags, 0, prev, result);
      prev := result;
      result := AppendIfSelected(result, flags & FieldFlag(1) != 0, SPACER, weight);
      RenderStep(d, flags, 1, prev, result);
      prev := result;
      result := AppendIfSelected(result, flags & FieldFlag(2) != 0, SPACER, BoolText(packed));
      RenderStep(d, flags, 2, prev, result);
      prev := result;
      result := AppendIfSelected(result, flags & FieldFlag(3) != 0, SPACER, storage);
      RenderStep(d, flags, 3, prev, result);
      prev := result;
      result := AppendIfSelected(result, flags & FieldFlag(4) != 0, DELIMITER, rack);
      RenderStep(d, flags, 4, prev, result);
      prev := result;
      result := AppendIfSelected(result, flags & FieldFlag(5) != 0, DELIMITER, box);
      RenderStep(d, flags, 5, prev, result);
      prev := result;
      result := AppendIfSelected(result, flags & FieldFlag(6) != 0, DELIMITER, row);
      RenderStep(d, flags, 6, prev, result);
      prev := result;
      result := AppendIfSelected(result, flags & FieldFlag(7) != 0, DELIMITER, column);
      RenderStep(d, flags, 7, prev, result);
    }
  }

  /** One append of `get(flags)`, done when the field is selected: the
      separator goes in only after a non-empty partial result that does not
      end with SPACER. */
  method AppendIfSelected(result: string, selected: bool, separator: string, text: string) returns (r: string)
    ensures r == if selected then AppendPiece(result, Piece(separator, text)) else result
  {
    r := result;
    if selected {
      if !EndsWith(r, SPACER) && r != "" { r := r + separator; }
      r := r + text;
    }
  }

  /** Field `k` taken after the first `k` fields extends the partial result. */
  lemma RenderStep(d: SampleData, flags: bv32, k: nat, prev: string, next: string)
    requires k < 8 && prev == RenderUpTo(d, flags, k)
    requires next == if flags & FieldFlag(k) != 0 then AppendPiece(prev, FieldPiece(d, k)) else prev
    ensures next == RenderUpTo(d, flags, k + 1)
  {
  }

  /** Rendering one more field of the order appends it, or leaves the
      partial result alone when its flag is clear. */
  lemma GlueStep(d: SampleData, flags: bv32, k: nat, prev: string, next: string)
    requires k < 8 && prev == Glue(SelectedUpTo(d, flags, k))
    requires next == if flags & FieldFlag(k) != 0 then AppendPiece(prev, FieldPiece(d, k)) else prev
    ensures next == Glue(SelectedUpTo(d, flags, k + 1))
  {
    var pieces := SelectedUpTo(d, flags, k);
    if flags & FieldFlag(k) != 0 {
      assert (pieces + [FieldPiece(d, k)])[..|pieces|] == pieces;
    } else {
      assert pieces + [] == pieces;
    }
  }

  // ---------------------------------------------------------------------
  // Properties of `get(flags)`
  // ---------------------------------------------------------------------

  /** The step-by-step rendering is the selected pieces appended in order. */
  lemma {:induction false} RenderUpToIsGlue(d: SampleData, flags: bv32, k: nat)
    requires k <= 8
    ensures RenderUpTo(d, flags, k) == Glue(SelectedUpTo(d, flags, k))
  {
    if k > 0 {
      RenderUpToIsGlue(d, flags, k - 1);
      GlueStep(d, flags, k - 1, RenderUpTo(d, flags, k - 1), RenderUpTo(d, flags, k));
    }
  }

  /** "nothing requested" when no field bit is set; otherwise the selected
      fields, in the order code, weight, packed, storage, rack, box, row,
      column, each appended as `AppendPiece` says. */
  lemma RenderIsGlue(d: SampleData, flags: bv32)
    ensures flags & SAMPLE_ALL == 0 ==> Render(d, flags) == NOTHING_REQUESTED
    ensures flags & SAMPLE_ALL != 0 ==> Render(d, flags) == Glue(Selected(d, flags)) && Selected(d, flags) != []
  {
    RenderUpToIsGlue(d, flags, 8);
    if flags & SAMPLE_ALL != 0 {
      SomeFieldSelected(flags);
      var j :| 0 <= j < 8 && flags & FieldFlag(j) != 0;
      SelectedNonEmpty(d, flags, 8, j);
    }
  }

  lemma {:induction false} SelectedNonEmpty(d: SampleData, flags: bv32, k: nat, j: nat)
    requires j < k <= 8 && flags & FieldFlag(j) != 0
    ensures SelectedUpTo(d, flags, k) != []
  {
    if j < k - 1 {
      SelectedNonEmpty(d, flags, k - 1, j);
    }
  }

  /** A flag word with a bit of SAMPLE_ALL set selects some field. */
  lemma SomeFieldSelected(flags: bv32)
    requires flags & SAMPLE_ALL != 0
    ensures exists k :: 0 <= k < 8 && flags & FieldFlag(k) != 0
  {
    if flags & FieldFlag(0) == 0 && flags & FieldFlag(1) == 0 && flags & FieldFlag(2) == 0
       && flags & FieldFlag(3) == 0 && flags & FieldFlag(4) == 0 && flags & FieldFlag(5) == 0
       && flags & FieldFlag(6) == 0 && flags & FieldFlag(7) == 0 {
      assert flags & SAMPLE_ALL == 0;
    }
  }

  /** The flag of each field lies inside SAMPLE_ALL. */
  lemma FieldFlagInAll(flags: bv32, k: nat)
    requires k < 8
    ensures (flags & SAMPLE_ALL) & FieldFlag(k) == flags & FieldFlag(k)
  {
  }

  lemma {:induction false} RenderUpToMasked(d: SampleData, flags: bv32, k: nat)
    requires k <= 8
    ensures RenderUpTo(d, flags, k) == RenderUpTo(d, flags & SAMPLE_ALL, k)
  {
    if k > 0 {
      RenderUpToMasked(d, flags, k - 1);
      StepMasked(RenderUpTo(d, flags, k - 1), d, flags, k - 1);
    }
  }

  lemma StepMasked(acc: string, d: SampleData, flags: bv32, k: nat)
    requires k < 8
    ensures Step(acc, d, flags, k) == Step(acc, d, flags & SAMPLE_ALL, k)
  {
    FieldFlagInAll(flags, k);
  }

  /** Bits above SAMPLE_ALL never change what `get` returns. */
  lemma RenderIgnoresHighBits(d: SampleData, flags: bv32)
    ensures Render(d, flags) == Render(d, flags & SAMPLE_ALL)
  {
    RenderUpToMasked(d, flags, 8);
    assert (flags & SAMPLE_ALL) & SAMPLE_ALL == flags & SAMPLE_ALL;
  }

  /** The eight field flags are distinct single bits. */
  lemma FieldFlagsDisjoint(j: nat, k: nat)
    requires j < 8 && k < 8
    ensures FieldFlag(j) & FieldFlag(k) != 0 <==> j == k
  {
  }

  lemma {:induction false} SelectedSingle(d: SampleData, k: nat, m: nat)
    requires k < 8 && m <= 8
    ensures SelectedUpTo(d, FieldFlag(k), m) == if k < m then [FieldPiece(d, k)] else []
  {
    if m > 0 {
      SelectedSingle(d, k, m - 1);
      SelectedSingleStep(d, k, m - 1);
      if k == m - 1 {
        assert [] + [FieldPiece(d, k)] == [FieldPiece(d, k)];
      } else {
        assert SelectedUpTo(d, FieldFlag(k), m - 1) + [] == SelectedUpTo(d, FieldFlag(k), m - 1);
      }
    }
  }

  lemma SelectedSingleStep(d: SampleData, k: nat, m: nat)
    requires k < 8 && m < 8
    ensures SelectedUpTo(d, FieldFlag(k), m + 1) ==
            SelectedUpTo(d, FieldFlag(k), m) + (if k == m then [FieldPiece(d, m)] else [])
  {
    FieldFlagsDisjoint(k, m);
  }

  /** A single field flag renders exactly that field, with no separator;
      in particular `get(SAMPLE_CODE)` is the code. */
  lemma RenderSingleField(d: SampleData, k: nat)
    requires k < 8
    ensures Render(d, FieldFlag(k)) == FieldPiece(d, k).text
    ensures Render(d, SAMPLE_CODE) == d.code
  {
    FieldFlagsDisjoint(k, k);
    RenderIsGlue(d, FieldFlag(k));
    SelectedSingle(d, k, 8);
    assert [FieldPiece(d, k)][..0] == [];
    RenderIsGlue(d, SAMPLE_CODE);
    SelectedSingle(d, 0, 8);
    assert [FieldPiece(d, 0)][..0] == [];
  }

  // ---------------------------------------------------------------------
  // Separators
  // ---------------------------------------------------------------------

  /** A field text that is non-empty and does not end with the last
      character of SPACER: appending it never leaves the partial result
      ending with SPACER. */
  predicate Clean(t: string) {
    |t| > 0 && t[|t| - 1] != SPACER[|SPACER| - 1]
  }

  lemma CleanDoesNotEndWithSpacer(t: string)
    requires Clean(t)
    ensures !EndsWith(t, SPACER)
  {
  }

  /** The pieces joined with every separator in place. */
  function Interleaved(pieces: seq<Piece>): string {
    if pieces == [] then ""
    else if |pieces| == 1 then pieces[0].text
    else Interleaved(pieces[..|pieces| - 1]) + pieces[|pieces| - 1].separator + pieces[|pieces| - 1].text
  }

  /** When every selected text is clean, each separator goes in: the result
      is the texts joined with their separators. */
  lemma {:induction false} GlueOfClean(pieces: seq<Piece>)
    requires forall i :: 0 <= i < |pieces| ==> Clean(pieces[i].text)
    ensures Glue(pieces) == Interleaved(pieces)
    ensures pieces != [] ==> Clean(Glue(pieces))
  {
    if pieces != [] {
      var n := |pieces|;
      var prefix := pieces[..n - 1];
      var last := pieces[n - 1];
      GlueOfClean(prefix);
      if prefix != [] {
        CleanDoesNotEndWithSpacer(Glue(prefix));
        assert Glue(pieces) == Glue(prefix) + last.separator + last.text;
      } else {
        assert Glue(pieces) == last.text;
      }
    }
  }

  lemma {:induction false} SelectedAll(d: SampleData, m: nat)
    requires m <= 8
    ensures |SelectedUpTo(d, SAMPLE_ALL, m)| == m
    ensures forall i :: 0 <= i < m ==> SelectedUpTo(d, SAMPLE_ALL, m)[i] == FieldPiece(d, i)
  {
    if m > 0 {
      SelectedAll(d, m - 1);
      FieldFlagInAll(0xFFFF_FFFF, m - 1);
      FieldFlagsDisjoint(m - 1, m - 1);
    }
  }

  /** With clean field texts, `get(SAMPLE_ALL)` is code, weight, packed and
      storage separated by SPACER, then rack, box, row and column each
      preceded by DELIMITER. */
  lemma RenderAllClean(d: SampleData)
    requires Clean(d.code) && Clean(d.weight) && Clean(BoolText(d.packed)) && Clean(d.storage)
    requires Clean(d.rack) && Clean(d.box) && Clean(d.row) && Clean(d.column)
    ensures Render(d, SAMPLE_ALL) ==
      d.code + SPACER + d.weight + SPACER + BoolText(d.packed) + SPACER + d.storage
      + DELIMITER + d.rack + DELIMITER + d.box + DELIMITER + d.row + DELIMITER + d.column
  {
    var ps := Selected(d, SAMPLE_ALL);
    RenderIsGlue(d, SAMPLE_ALL);
    SelectedAll(d, 8);
    GlueOfClean(ps);
    assert ps[..1][..0] == [];
    assert ps[..2][..1] == ps[..1];
    assert ps[..3][..2] == ps[..2];
    assert ps[..4][..3] == ps[..3];
    assert ps[..5][..4] == ps[..4];
    assert ps[..6][..5] == ps[..5];
    assert ps[..7][..6] == ps[..6];
    assert ps[..8][..7] == ps[..7];
    assert ps[..8] == ps;
    assert Interleaved(ps[..1]) == d.code;
    assert Interleaved(ps[..2]) == d.code + SPACER + d.weight;
    assert Interleaved(ps[..3]) == d.code + SPACER + d.weight + SPACER + BoolText(d.packed);
    var spaced := d.code + SPACER + d.weight + SPACER + BoolText(d.packed) + SPACER + d.storage;
    assert Interleaved(ps[..4]) == spaced;
    assert Interleaved(ps[..5]) == spaced + DELIMITER + d.rack;
    assert Interleaved(ps[..6]) == spaced + DELIMITER + d.rack + DELIMITER + d.box;
    assert Interleaved(ps[..7]) == spaced + DELIMITER + d.rack + DELIMITER + d.box + DELIMITER + d.row;
  }

  /** A code that already ends with SPACER gets no separator before the
      weight; an empty code gets none either. */
  lemma SeparatorSuppressed(d: SampleData)
    ensures EndsWith(d.code, SPACER) ==> Render(d, SAMPLE_CODE | SAMPLE_WEIGHT) == d.code + d.weight
    ensures d.code == "" ==> Render(d, SAMPLE_CODE | SAMPLE_WEIGHT) == d.weight
    ensures !EndsWith(d.code, SPACER) && d.code != "" ==>
            Render(d, SAMPLE_CODE | SAMPLE_WEIGHT) == d.code + SPACER + d.weight
  {
    var f := SAMPLE_CODE | SAMPLE_WEIGHT;
    RenderIsGlue(d, f);
    SelectedCodeAndWeight(d);
    var ps := [FieldPiece(d, 0), FieldPiece(d, 1)];
    assert Glue(ps[..1]) == d.code by {
      assert ps[..1] == [FieldPiece(d, 0)];
      assert ps[..1][..0] == [];
    }
  }

  lemma SelectedCodeAndWeight(d: SampleData)
    ensures Selected(d, SAMPLE_CODE | SAMPLE_WEIGHT) == [FieldPiece(d, 0), FieldPiece(d, 1)]
  {
    var f := SAMPLE_CODE | SAMPLE_WEIGHT;
    assert f & FieldFlag(0) != 0 && f & FieldFlag(1) != 0;
    assert SelectedUpTo(d, f, 1) == [FieldPiece(d, 0)];
    assert SelectedUpTo(d, f, 2) == [FieldPiece(d, 0), FieldPiece(d, 1)];
    SelectedUnchanged(d, f, 2, 8);
  }

  /** With clean field texts, `get(SAMPLE_CODE | SAMPLE_LOCATION)` is the code,
      SPACER, then the five location parts separated by DELIMITER: the line
      format the sample editor reads back. */
  lemma RenderCodeAndLocation(d: SampleData)
    requires Clean(d.code) && Clean(d.storage)
    requires Clean(d.rack) && Clean(d.box) && Clean(d.row) && Clean(d.column)
    ensures Render(d, SAMPLE_CODE | SAMPLE_LOCATION) ==
      d.code + SPACER + d.storage
      + DELIMITER + d.rack + DELIMITER + d.box + DELIMITER + d.row + DELIMITER + d.column
  {
    var f := SAMPLE_CODE | SAMPLE_LOCATION;
    var ps := Selected(d, f);
    RenderIsGlue(d, f);
    SelectedCodeAndLocation(d);
    GlueOfClean(ps);
    assert ps[..1][..0] == [];
    assert ps[..2][..1] == ps[..1];
    assert ps[..3][..2] == ps[..2];
    assert ps[..4][..3] == ps[..3];
    assert ps[..5][..4] == ps[..4];
    assert ps[..6][..5] == ps[..5];
    assert ps[..6] == ps;
    assert Interleaved(ps[..1]) == d.code;
    assert Interleaved(ps[..2]) == d.code + SPACER + d.storage;
    var spaced := d.code + SPACER + d.storage;
    assert Interleaved(ps[..3]) == spaced + DELIMITER + d.rack;
    assert Interleaved(ps[..4]) == spaced + DELIMITER + d.rack + DELIMITER + d.box;
    assert Interleaved(ps[..5]) == spaced + DELIMITER + d.rack + DELIMITER + d.box + DELIMITER + d.row;
  }

  lemma SelectedCodeAndLocation(d: SampleData)
    ensures Selected(d, SAMPLE_CODE | SAMPLE_LOCATION) ==
      [FieldPiece(d, 0), FieldPiece(d, 3), FieldPiece(d, 4), FieldPiece(d, 5), FieldPiece(d, 6), FieldPiece(d, 7)]
  {
    var f := SAMPLE_CODE | SAMPLE_LOCATION;
    assert f & FieldFlag(0) != 0 && f & FieldFlag(1) == 0 && f & FieldFlag(2) == 0;
    assert f & FieldFlag(3) != 0 && f & FieldFlag(4) != 0 && f & FieldFlag(5) != 0;
    assert f & FieldFlag(6) != 0 && f & FieldFlag(7) != 0;
    assert SelectedUpTo(d, f, 1) == [FieldPiece(d, 0)];
    SelectedUnchanged(d, f, 1, 3);
    assert SelectedUpTo(d, f, 4) == [FieldPiece(d, 0), FieldPiece(d, 3)];
    assert SelectedUpTo(d, f, 5) == [FieldPiece(d, 0), FieldPiece(d, 3), FieldPiece(d, 4)];
    assert SelectedUpTo(d, f, 6) == [FieldPiece(d, 0), FieldPiece(d, 3), FieldPiece(d, 4), FieldPiece(d, 5)];
    assert SelectedUpTo(d, f, 7) ==
      [FieldPiece(d, 0), FieldPiece(d, 3), FieldPiece(d, 4), FieldPiece(d, 5), FieldPiece(d, 6)];
  }

  /** `SAMPLE_CODE & SAMPLE_LOCATION` shares no bit, so a request written
      with `&` where `|` is meant selects nothing. */
  lemma CodeAndLocationIsNothing(d: SampleData)
    ensures SAMPLE_CODE & SAMPLE_LOCATION == 0
    ensures Render(d, SAMPLE_CODE & SAMPLE_LOCATION) == NOTHING_REQUESTED
  {
  }

  /** Fields whose flags are clear add nothing to the selection. */
  lemma {:induction false} SelectedUnchanged(d: SampleData, flags: bv32, i: nat, m: nat)
    requires i <= m <= 8
    requires forall k :: i <= k < m ==> flags & FieldFlag(k) == 0
    ensures SelectedUpTo(d, flags, m) == SelectedUpTo(d, flags, i)
  {
    if m > i {
      SelectedUnchanged(d, flags, i, m - 1);
      assert SelectedUpTo(d, flags, m - 1) + [] == SelectedUpTo(d, flags, m - 1);
    }
  }
}

=== FILE: shipment.dfy ===
/** `Shipment`: the ordered list of samples of one shipment, its box
    options, and the packing map rebuilt from the list, which shows each
    sample's code (with its weight once packed) at the map cell its list
    position is laid onto. */
module ShipmentModel {
  import opened Util
  import opened Geometry
  import opened Samples

  /** A cell of the map table: empty (`null` in the table model) or a text. */
  type Cell = Option<string>

  // ---------------------------------------------------------------------
  // Sequence edits of the list model
  // ---------------------------------------------------------------------

  /** `DefaultListModel.add(i, x)`. */
  function Insert<T>(s: seq<T>, i: nat, x: T): (r: seq<T>)
    requires i <= |s|
    ensures |r| == |s| + 1 && r[i] == x
    ensures forall k :: 0 <= k < i ==> r[k] == s[k]
    ensures forall k :: i < k < |r| ==> r[k] == s[k - 1]
  {
    s[..i] + [x] + s[i..]
  }

  /** `DefaultListModel.remove(i)`. */
  function Delete<T>(s: seq<T>, i: nat): (r: seq<T>)
    requires i < |s|
    ensures |r| == |s| - 1
    ensures forall k :: 0 <= k < i ==> r[k] == s[k]
    ensures forall k :: i <= k < |r| ==> r[k] == s[k + 1]
  {
    s[..i] + s[i + 1..]
  }

  /** The list after the element at `index` is taken out and put back at
      `destination`: the element lands at `destination` and the ones in
      between shift one place toward `index`. */
  function Relocate<T>(s: seq<T>, index: nat, destination: nat): seq<T>
    requires index < |s| && destination < |s|
  {
    seq(|s|, k requires 0 <= k < |s| =>
      if k == destination then s[index]
      else if index < destination && index <= k < destination then s[k + 1]
      else if destination < index && destination < k <= index then s[k - 1]
      else s[k])
  }

  /** Relocation is removal followed by insertion at the destination. */
  lemma RelocateIsRemoveInsert<T>(s: seq<T>, index: nat, destination: nat)
    requires index < |s| && destination < |s|
    ensures Relocate(s, index, destination) == Insert(Delete(s, index), destination, s[index])
  {
  }

  /** Moving toward the end, as `moveSample` does it: insert a copy after
      the destination, then remove the original. */
  lemma RelocateForward<T>(s: seq<T>, index: nat, destination: nat)
    requires index < destination < |s|
    ensures Delete(Insert(s, destination + 1, s[index]), index) == Relocate(s, index, destination)
  {
  }

  /** Moving toward the front, as `moveSample` does it: insert a copy at the
      destination, then remove the original, now one place further. */
  lemma RelocateBackward<T>(s: seq<T>, index: nat, destination: nat)
    requires destination < index < |s|
    ensures Delete(Insert(s, destination, s[index]), index + 1) == Relocate(s, index, destination)
  {
  }

  /** A relocation keeps every element, each as often as before. */
  lemma RelocatePermutes<T>(s: seq<T>, index: nat, destination: nat)
    requires index < |s| && destination < |s|
    ensures |Relocate(s, index, destination)| == |s|
    ensures multiset(Relocate(s, index, destination)) == multiset(s)
  {
    RelocateIsRemoveInsert(s, index, destination);
    DeleteMultiset(s, index);
    InsertMultiset(Delete(s, index), destination, s[index]);
  }

  lemma DeleteMultiset<T>(s: seq<T>, i: nat)
    requires i < |s|
    ensures multiset(Delete(s, i)) + multiset{s[i]} == multiset(s)
  {
    assert s == s[..i] + [s[i]] + s[i + 1..];
  }

  lemma InsertMultiset<T>(s: seq<T>, i: nat, x: T)
    requires i <= |s|
    ensures multiset(Insert(s, i, x)) == multiset(s) + multiset{x}
  {
    assert s == s[..i] + s[i..];
  }

  /** Moving an element onto its own place changes nothing. */
  lemma RelocateIdentity<T>(s: seq<T>, index: nat)
    requires index < |s|
    ensures Relocate(s, index, index) == s
  {
  }

  /** Moving an element to a neighbouring place swaps the two. */
  lemma RelocateAdjacentIsSwap<T>(s: seq<T>, index: nat)
    requires index + 1 < |s|
    ensures Relocate(s, index, index + 1) == s[index := s[index + 1]][index + 1 := s[index]]
    ensures Relocate(s, index + 1, index) == s[index := s[index + 1]][index + 1 := s[index]]
  {
  }

  /** Moving the element back where it came from restores the list. */
  lemma RelocateUndo<T>(s: seq<T>, index: nat, destination: nat)
    requires index < |s| && destination < |s|
    ensures Relocate(Relocate(s, index, destination), destination, index) == s
  {
  }

  /** A move of three or more places is not a swap: the element next to the
      source moves too. */
  lemma RelocateIsNotSwap(s: seq<int>)
    requires s == [0, 1, 2]
    ensures Relocate(s, 0, 2) == [1, 2, 0]
  {
  }

  // ---------------------------------------------------------------------
  // The map derived from the list
  // ---------------------------------------------------------------------

  /** The text shown for a sample: its code, followed by a space and its
      weight once it is packed. */
  function CellText(d: SampleData): string {
    if d.packed then d.code + " " + d.weight else d.code
  }

  /** The row count `convertToMap` asks for, as written: one more than the
      map row of the last list index. */
  function MapRowCountAsWritten(g: Dims, count: nat): int
    requires ValidDims(g)
  {
    IndexToCell(g, count - 1).y + 1
  }

  /** The row count of the rebuilt map, never negative. */
  function MapRowCount(g: Dims, count: nat): nat
    requires ValidDims(g)
  {
    var rows := MapRowCountAsWritten(g, count);
    if rows < 0 then 0 else rows
  }

  /** Cell (`y`, `x`) of a map showing the first `count` samples of `data`. */
  function MapCell(g: Dims, data: seq<SampleData>, count: nat, y: nat, x: nat): Cell
    requires ValidDims(g) && count <= |data|
  {
    var index := CellToIndex(g, y, x);
    if !InSeparatorBand(g, y) && x < g.columns && 0 <= index < count
    then Some(CellText(data[index]))
    else None
  }

  /** A `rows` x `columns` map showing the first `count` samples. */
  function MapUpTo(g: Dims, data: seq<SampleData>, rows: nat, count: nat): seq<seq<Cell>>
    requires ValidDims(g) && count <= |data|
  {
    seq(rows, y requires 0 <= y < rows =>
      seq(g.columns, x requires 0 <= x < g.columns => MapCell(g, data, count, y, x)))
  }

  /** The map `convertToMap` builds for the list `data`. */
  function RenderMap(g: Dims, data: seq<SampleData>): seq<seq<Cell>>
    requires ValidDims(g)
  {
    MapUpTo(g, data, MapRowCount(g, |data|), |data|)
  }

  /** A map showing no sample is all empty cells. */
  lemma EmptyMap(g: Dims, data: seq<SampleData>, rows: nat)
    requires ValidDims(g)
    ensures MapUpTo(g, data, rows, 0) == seq(rows, y => seq(g.columns, x => None))
  {
    var m := MapUpTo(g, data, rows, 0);
    var e: seq<seq<Cell>> := seq(rows, y => seq(g.columns, x => None));
    forall y | 0 <= y < rows
      ensures m[y] == e[y]
    {
    }
  }

  lemma MapUpToShape(g: Dims, data: seq<SampleData>, rows: nat, count: nat)
    requires ValidDims(g) && count <= |data|
    ensures |MapUpTo(g, data, rows, count)| == rows
    ensures forall y :: 0 <= y < rows ==> |MapUpTo(g, data, rows, count)[y]| == g.columns
  {
  }

  /** For a non-empty list the row count is the one written, and every list
      index lands on a row of the map. */
  lemma MapRowCountCovers(g: Dims, count: nat, index: nat)
    requires ValidDims(g) && index < count
    ensures MapRowCount(g, count) == MapRowCountAsWritten(g, count)
    ensures IndexToCell(g, index).y < MapRowCount(g, count)
  {
    IndexRowIsContent(g, count - 1);
    IndexToCellRowMonotone(g, index, count - 1);
  }

  /** Exactly one map cell holds list position `index`: the cell
      `translate(index)`. */
  lemma CellHoldsIndex(g: Dims, y: nat, x: nat, index: nat)
    requires ValidDims(g)
    ensures (!InSeparatorBand(g, y) && x < g.columns && CellToIndex(g, y, x) == index)
            <==> IndexToCell(g, index) == Point(x, y)
  {
    if !InSeparatorBand(g, y) && x < g.columns && CellToIndex(g, y, x) == index {
      IndexOfCellRoundTrip(g, y, x);
    }
    if IndexToCell(g, index) == Point(x, y) {
      IndexRowIsContent(g, index);
      CellOfIndexRoundTrip(g, index);
    }
  }

  /** Writing sample `count` into its cell extends the map by one sample. */
  lemma MapUpToStep(g: Dims, data: seq<SampleData>, rows: nat, count: nat)
    requires ValidDims(g) && count < |data|
    requires IndexToCell(g, count).y < rows
    ensures var p := IndexToCell(g, count);
      var m := MapUpTo(g, data, rows, count);
      0 <= p.y && 0 <= p.x < g.columns &&
      MapUpTo(g, data, rows, count + 1) == m[p.y := m[p.y][p.x := Some(CellText(data[count]))]]
  {
    var p := IndexToCell(g, count);
    IndexRowIsContent(g, count);
    var m := MapUpTo(g, data, rows, count);
    var m' := MapUpTo(g, data, rows, count + 1);
    var u := m[p.y := m[p.y][p.x := Some(CellText(data[count]))]];
    forall y, x | 0 <= y < rows && 0 <= x < g.columns
      ensures m'[y][x] == u[y][x]
    {
      CellHoldsIndex(g, y, x, count);
    }
    assert forall y | 0 <= y < rows :: m'[y] == u[y];
  }

  /** After `convertToMap`, cell `translate(i)` of every list index `i`
      shows sample `i`. */
  lemma RenderMapShowsSample(g: Dims, data: seq<SampleData>, index: nat)
    requires ValidDims(g) && index < |data|
    ensures var p := IndexToCell(g, index);
      0 <= p.y < |RenderMap(g, data)| && 0 <= p.x < g.columns &&
      RenderMap(g, data)[p.y][p.x] == Some(CellText(data[index]))
  {
    var p := IndexToCell(g, index);
    MapRowCountCovers(g, |data|, index);
    IndexRowIsContent(g, index);
    CellHoldsIndex(g, p.y, p.x, index);
  }

  /** Every non-empty cell of the rebuilt map is the cell of some list index;
      all other cells are empty. */
  lemma RenderMapOnlySamples(g: Dims, data: seq<SampleData>, y: nat, x: nat)
    requires ValidDims(g) && y < |RenderMap(g, data)| && x < g.columns
    requires RenderMap(g, data)[y][x] != None
    ensures exists index :: 0 <= index < |data| && IndexToCell(g, index) == Point(x, y)
  {
    var index := CellToIndex(g, y, x);
    CellHoldsIndex(g, y, x, index);
  }

  /** Every row of the map has one cell per box column. */
  lemma RenderMapWidth(g: Dims, data: seq<SampleData>)
    requires ValidDims(g)
    ensures forall y :: 0 <= y < |RenderMap(g, data)| ==> |RenderMap(g, data)[y]| == g.columns
  {
  }

  /** An empty list asks for one row when boxes are more than one column
      wide, for none when they are one column wide and several rows high,
      and for minus `separator` rows when boxes hold a single sample. */
  lemma EmptyListRowCount(g: Dims)
    requires ValidDims(g)
    ensures MapRowCountAsWritten(g, 0) ==
      if g.columns > 1 then 1 else if g.rows > 1 then 0 else -g.separator
  {
    var c, cap := g.columns, Capacity(g);
    MulAtLeast(g.rows, g.columns);
    BoxesCountOfNegative(-1, cap, BX_FULL_ONLY);
    JavaDivOfMinusOne(c);
    JavaDivOfMinusOne(cap);
    assert IndexToCell(g, -1).y == JDiv(-1, c) + g.separator * JDiv(-1, cap);
  }

  lemma JavaDivOfMinusOne(b: int)
    requires b >= 1
    ensures JDiv(-1, b) == if b == 1 then -1 else 0
  {
  }

  /** As written, removing the last sample from a shipment whose boxes hold
      one sample and are separated by two blank rows asks the table model for
      -2 rows, which it rejects with an exception. */
  lemma EmptyMapRowCountNegative()
    ensures MapRowCountAsWritten(Dims(1, 1, 2), 0) == -2
  {
    EmptyListRowCount(Dims(1, 1, 2));
  }

  /** The corrected row count agrees with the written one whenever that one
      is usable, and is never negative. */
  lemma MapRowCountCorrected(g: Dims, count: nat)
    requires ValidDims(g)
    ensures MapRowCountAsWritten(g, count) >= 0 ==> MapRowCount(g, count) == MapRowCountAsWritten(g, count)
    ensures count == 0 ==> MapRowCount(g, count) <= 1
  {
    if count == 0 {
      EmptyListRowCount(g);
    }
  }

  // ---------------------------------------------------------------------
  // Cell strings of imported spreadsheets
  // ---------------------------------------------------------------------

  /** `getCellString`: a number read from a spreadsheet cell as "12.0" loses
      its fractional part. The text before the first '.' is returned when
      that '.' is not the first character; otherwise the source comes back
      unchanged. */
  function GetCellString(source: string): (r: string)
    ensures '.' in source && source[0] != '.' ==>
              0 < |r| < |source| && r == source[..|r|] && source[|r|] == '.' && '.' !in r
    ensures '.' !in source || source[0] == '.' ==> r == source
  {
    var i := IndexOf(source, '.');
    if i > 0 then source[..i] else source
  }

  /** Cutting twice cuts no more than cutting once. */
  lemma GetCellStringIdempotent(source: string)
    ensures GetCellString(GetCellString(source)) == GetCellString(source)
  {
  }

  // ---------------------------------------------------------------------
  // Field copy of `setSample(index, flags, newSample)`
  // ---------------------------------------------------------------------

  /** `target` with the fields `flags` selects taken from `source`. */
  function CopyFields(target: SampleData, source: SampleData, flags: bv32): SampleData {
    SampleData(
      if flags & SAMPLE_CODE != 0 then source.code else target.code,
      if flags & SAMPLE_WEIGHT != 0 then source.weight else target.weight,
      if flags & SAMPLE_PACKED != 0 then source.packed else target.packed,
      if flags & SAMPLE_STORAGE != 0 then source.storage else target.storage,
      if flags & SAMPLE_RACK != 0 then source.rack else target.rack,
      if flags & SAMPLE_BOX != 0 then source.box else target.box,
      if flags & SAMPLE_ROW != 0 then source.row else target.row,
      if flags & SAMPLE_COLUMN != 0 then source.column else target.column)
  }

  /** No field flag copies nothing; SAMPLE_ALL copies everything. */
  lemma CopyFieldsBounds(target: SampleData, source: SampleData, flags: bv32)
    ensures flags & SAMPLE_ALL == 0 ==> CopyFields(target, source, flags) == target
    ensures CopyFields(target, source, SAMPLE_ALL) == source
  {
  }

  /** Copying the same fields again changes nothing more. */
  lemma CopyFieldsIdempotent(target: SampleData, source: SampleData, flags: bv32)
    ensures CopyFields(CopyFields(target, source, flags), source, flags) == CopyFields(target, source, flags)
  {
  }

  /** A field is selected by `f | g` exactly when `f` or `g` selects it. */
  lemma UnionSelects(f: bv32, g: bv32, bit: bv32)
    ensures (f | g) & bit != 0 <==> f & bit != 0 || g & bit != 0
  {
  }

  /** Two copies from one source are one copy of the union of their flags. */
  lemma CopyFieldsUnion(target: SampleData, source: SampleData, f: bv32, g: bv32)
    ensures CopyFields(CopyFields(target, source, f), source, g) == CopyFields(target, source, f | g)
  {
    UnionSelects(f, g, SAMPLE_CODE);
    UnionSelects(f, g, SAMPLE_WEIGHT);
    UnionSelects(f, g, SAMPLE_PACKED);
    UnionSelects(f, g, SAMPLE_STORAGE);
    UnionSelects(f, g, SAMPLE_RACK);
    UnionSelects(f, g, SAMPLE_BOX);
    UnionSelects(f, g, SAMPLE_ROW);
    UnionSelects(f, g, SAMPLE_COLUMN);
  }

  /** The code, weight, packed and storage steps of `setSample(index, flags, newSample)`. */
  method CopyLeadingFields(target: Sample, source: SampleData, flags: bv32)
    modifies target
    ensures target.Data() == old(target.Data())
      .(code := if flags & SAMPLE_CODE != 0 then source.code else old(target.code))
      .(weight := if flags & SAMPLE_WEIGHT != 0 then source.weight else old(target.weight))
      .(packed := if flags & SAMPLE_PACKED != 0 then source.packed else old(target.packed))
      .(storage := if flags & SAMPLE_STORAGE != 0 then source.storage else old(target.storage))
  {
    ghost var copied := target.Data();
    if flags & SAMPLE_CODE != 0 {
      target.SetCode(source.code);
    }
    copied := copied.(code := if flags & SAMPLE_CODE != 0 then source.code else old(target.code));
    assert target.Data() == copied;
    if flags & SAMPLE_WEIGHT != 0 {
      target.SetWeight(source.weight);
    }
    copied := copied.(weight := if flags & SAMPLE_WEIGHT != 0 then source.weight else old(target.weight));
    assert target.Data() == copied;
    if flags & SAMPLE_PACKED != 0 {
      target.SetPacked(source.packed);
    }
    copied := copied.(packed := if flags & SAMPLE_PACKED != 0 then source.packed else old(target.packed));
    assert target.Data() == copied;
    if flags & SAMPLE_STORAGE != 0 {
      target.SetStorage(source.storage);
    }
    copied := copied.(storage := if flags & SAMPLE_STORAGE != 0 then source.storage else old(target.storage));
    assert target.Data() == copied;
  }

  /** The rack, box, row and column steps of `setSample(index, flags, newSample)`. */
  method CopyLocationParts(target: Sample, source: SampleData, flags: bv32)
    modifies target
    ensures target.Data() == old(target.Data())
      .(rack := if flags & SAMPLE_RACK != 0 then source.rack else old(target.rack))
      .(box := if flags & SAMPLE_BOX != 0 then source.box else old(target.box))
      .(row := if flags & SAMPLE_ROW != 0 then source.row else old(target.row))
      .(column := if flags & SAMPLE_COLUMN != 0 then source.column else old(target.column))
  {
    ghost var copied := target.Data();
    if flags & SAMPLE_RACK != 0 {
      target.SetRack(source.rack);
    }
    copied := copied.(rack := if flags & SAMPLE_RACK != 0 then source.rack else old(target.rack));
    assert target.Data() == copied;
    if flags & SAMPLE_BOX != 0 {
      target.SetBox(source.box);
    }
    copied := copied.(box := if flags & SAMPLE_BOX != 0 then source.box else old(target.box));
    assert target.Data() == copied;
    if flags & SAMPLE_ROW != 0 {
      target.SetRow(source.row);
    }
    copied := copied.(row := if flags & SAMPLE_ROW != 0 then source.row else old(target.row));
    assert target.Data() == copied;
    if flags & SAMPLE_COLUMN != 0 {
      target.SetColumn(source.column);
    }
    copied := copied.(column := if flags & SAMPLE_COLUMN != 0 then source.column else old(target.column));
    assert target.Data() == copied;
  }

  /** Copying the flagged fields one after another gives `CopyFields`. */
  lemma CopyFieldsOneByOne(target: SampleData, source: SampleData, flags: bv32)
    ensures target.(code := if flags & SAMPLE_CODE != 0 then source.code else target.code)
              .(weight := if flags & SAMPLE_WEIGHT != 0 then source.weight else target.weight)
              .(packed := if flags & SAMPLE_PACKED != 0 then source.packed else target.packed)
              .(storage := if flags & SAMPLE_STORAGE != 0 then source.storage else target.storage)
              .(rack := if flags & SAMPLE_RACK != 0 then source.rack else target.rack)
              .(box := if flags & SAMPLE_BOX != 0 then source.box else target.box)
              .(row := if flags & SAMPLE_ROW != 0 then source.row else target.row)
              .(column := if flags & SAMPLE_COLUMN != 0 then source.column else target.column)
            == CopyFields(target, source, flags)
  {
  }

  // ---------------------------------------------------------------------
  // The shipment object
  // ---------------------------------------------------------------------

  /** The values of the listed samples, in list order. */
  function DataOf(samples: seq<Sample>): (r: seq<SampleData>)
    reads samples
    ensures |r| == |samples|
    ensures forall i :: 0 <= i < |samples| ==> r[i] == samples[i].Data()
  {
    seq(|samples|, i requires 0 <= i < |samples| reads samples => samples[i].Data())
  }

  class Shipment {
    var number: string
    const boxOptions: BoxOptions
    var samples: seq<Sample>
    /** The map table: its rows, each a row of cells, and its column count. */
    var mapCells: seq<seq<Cell>>
    var mapColumns: int

    predicate Valid()
      reads this, boxOptions
    {
      boxOptions.Valid() && mapColumns == boxOptions.columns &&
      forall y :: 0 <= y < |mapCells| ==> |mapCells[y]| == mapColumns
    }

    /** A new shipment: boxes of 9 x 9 with 2 blank rows between them, no
        samples, an empty map with 9 columns, number "N". */
    constructor ()
      ensures Valid() && fresh(boxOptions)
      ensures boxOptions.Geometry() == Dims(9, 9, 2)
      ensures samples == [] && mapCells == [] && mapColumns == 9 && number == "N"
    {
      var options := new BoxOptions(9, 9, 2);
      boxOptions := options;
      samples := [];
      mapCells := [];
      mapColumns := options.columns;
      number := "N";
    }

    /** `getBoxesCount`: boxes needed for the listed samples, a partly
        filled box counting as one. */
    function GetBoxesCount(): (n: int)
      reads this, boxOptions
      requires Valid()
      ensures n >= 0
      ensures n == (|samples| + Capacity(boxOptions.Geometry()) - 1) / Capacity(boxOptions.Geometry())
    {
      var capacity := boxOptions.columns * boxOptions.rows;
      MulAtLeast(boxOptions.columns, boxOptions.rows);
      BoxesCountOfNatural(|samples|, capacity);
      BoxesCount(|samples|, capacity, BX_ALL)
    }

    /** `translate(index)`: no bounds check. For an index that is not
        negative, the cell lies off the separator rows and leads back to the
        index. */
    function Translate(index: int): (p: Point)
      reads this, boxOptions
      requires Valid()
      ensures index >= 0 ==> p.y >= 0 && 0 <= p.x < boxOptions.columns && !InSeparatorBand(boxOptions.Geometry(), p.y)
      ensures index >= 0 ==> CellToIndex(boxOptions.Geometry(), p.y, p.x) == index
    {
      if index >= 0 then
        IndexRowIsContent(boxOptions.Geometry(), index);
        CellOfIndexRoundTrip(boxOptions.Geometry(), index);
        IndexToCell(boxOptions.Geometry(), index)
      else IndexToCell(boxOptions.Geometry(), index)
    }

    /** `clear`: no samples, no map rows, number "0". */
    method Clear()
      requires Valid()
      modifies this
      ensures Valid()
      ensures samples == [] && mapCells == [] && mapColumns == boxOptions.columns && number == "0"
    {
      samples := [];
      mapCells := [];
      mapColumns := boxOptions.columns;
      number := "0";
    }

    /** `convertToMap`: an empty map of the needed size, then each sample's
        text written at `translate(index)`. The row count is kept from going
        negative. */
    method ConvertToMap()
      requires Valid()
      modifies this`mapCells, this`mapColumns
      ensures Valid()
      ensures mapCells == RenderMap(boxOptions.Geometry(), DataOf(samples))
    {
      var g := boxOptions.Geometry();
      ghost var data := DataOf(samples);
      var rowCount := Translate(|samples| - 1).y + 1;
      if rowCount < 0 {
        rowCount := 0;
      }
      assert rowCount == MapRowCount(g, |samples|);
      var columns := boxOptions.columns;
      mapCells := seq(rowCount, y => seq(columns, x => None));
      mapColumns := columns;
      EmptyMap(g, data, rowCount);
      var index := 0;
      while index < |samples|
        invariant 0 <= index <= |samples|
        invariant mapCells == MapUpTo(g, data, rowCount, index)
        invariant Valid()
      {
        MapRowCountCovers(g, |samples|, index);
        MapUpToStep(g, data, rowCount, index);
        var pos := Translate(index);
        var sample := samples[index];
        var text := if sample.packed then sample.code + " " + sample.weight else sample.code;
        assert text == CellText(data[index]);
        mapCells := mapCells[pos.y := mapCells[pos.y][pos.x := Some(text)]];
        index := index + 1;
        MapUpToShape(g, data, rowCount, index);
      }
    }

    /** `addSample`: appends the sample and rebuilds the map. */
    method AddSample(newSample: Sample)
      requires Valid()
      modifies this
      ensures Valid()
      ensures samples == old(samples) + [newSample] && number == old(number)
      ensures mapCells == RenderMap(boxOptions.Geometry(), DataOf(samples))
    {
      samples := samples + [newSample];
      ConvertToMap();
    }

    /** `removeSample`: an index outside the list changes nothing; otherwise
        that element is deleted and the map rebuilt. */
    method RemoveSample(index: int)
      requires Valid()
      modifies this
      ensures Valid() && number == old(number)
      ensures !(0 <= index < |old(samples)|) ==> samples == old(samples) && mapCells == old(mapCells)
      ensures 0 <= index < |old(samples)| ==>
                samples == Delete(old(samples), index) &&
                mapCells == RenderMap(boxOptions.Geometry(), DataOf(samples))
    {
      if index >= |samples| || index < 0 {
        return;
      }
      samples := Delete(samples, index);
      ConvertToMap();
    }

    /** `moveSample`: -1 when the destination is outside the list, then -2
        when the index is; otherwise the element is relocated by an insertion
        and a removal, the map rebuilt, and 0 returned. */
    method MoveSample(index: int, destination: int) returns (status: int)
      requires Valid()
      modifies this
      ensures Valid() && number == old(number)
      ensures status == (if !(0 <= destination < |old(samples)|) then -1
                         else if !(0 <= index < |old(samples)|) then -2 else 0)
      ensures status != 0 ==> samples == old(samples) && mapCells == old(mapCells)
      ensures status == 0 ==>
                samples == Relocate(old(samples), index, destination) &&
                mapCells == RenderMap(boxOptions.Geometry(), DataOf(samples))
    {
      if destination >= |samples| || destination < 0 {
        return -1;
      }
      if index >= |samples| || index < 0 {
        return -2;
      }
      var sample := samples[index];
      if index < destination {
        RelocateForward(samples, index, destination);
        samples := Insert(samples, destination + 1, sample);
        samples := Delete(samples, index);
      }
      if index > destination {
        RelocateBackward(samples, index, destination);
        samples := Insert(samples, destination, sample);
        samples := Delete(samples, index + 1);
      }
      if index == destination {
        RelocateIdentity(samples, index);
      }
      ConvertToMap();
      return 0;
    }

    /** `revertSampleStatus`: flips the packed flag of an in-range sample and
        nothing else; the map is not rebuilt. Out of range, nothing changes. */
    method RevertSampleStatus(index: int)
      requires Valid()
      modifies if 0 <= index < |samples| then {samples[index]} else {}
      ensures samples == old(samples) && mapCells == old(mapCells)
      ensures 0 <= index < |samples| ==>
                samples[index].Data() == old(samples[index].Data()).(packed := !old(samples[index].packed))
    {
      if index >= 0 && index <= |samples| - 1 {
        samples[index].SetPacked(!samples[index].packed);
      }
    }

    /** `setSample(index, newSample)`: replaces the element; the map is not
        rebuilt. For an index outside the list, `setElementAt` throws
        `ArrayIndexOutOfBoundsException` (`outOfBounds`) and the list is
        unchanged. */
    method SetSample(index: int, newSample: Sample) returns (outOfBounds: bool)
      modifies this`samples
      ensures outOfBounds <==> !(0 <= index < |old(samples)|)
      ensures outOfBounds ==> samples == old(samples)
      ensures !outOfBounds ==> samples == old(samples)[index := newSample]
    {
      if index < 0 || index >= |samples| {
        return true;
      }
      samples := samples[index := newSample];
      return false;
    }

    /** `setSample(index, flags, newSample)`: copies the flagged fields of
        `newSample` into the element at `index`; with no field flag set it
        returns at once. The map is not rebuilt. The fields of `newSample`
        are read before the copy starts; when `newSample` is the element
        itself each copy writes back the value the field already holds, so
        the result is the same as reading them one by one. The eight steps
        are split into two helpers. With a field flag set and an index
        outside the list, the first `getElementAt` throws
        `ArrayIndexOutOfBoundsException` (`outOfBounds`) before any field is
        written. */
    method SetSampleFields(index: int, flags: bv32, newSample: Sample) returns (outOfBounds: bool)
      modifies if 0 <= index < |samples| then {samples[index]} else {}
      ensures outOfBounds <==> flags & SAMPLE_ALL != 0 && !(0 <= index < |samples|)
      ensures flags & SAMPLE_ALL != 0 && 0 <= index < |samples| ==>
                samples[index].Data() == CopyFields(old(samples[index].Data()), old(newSample.Data()), flags)
      ensures flags & SAMPLE_ALL == 0 && 0 <= index < |samples| ==>
                samples[index].Data() == old(samples[index].Data())
    {
      if flags & SAMPLE_ALL == 0 {
        return false;
      }
      if index < 0 || index >= |samples| {
        return true;
      }
      outOfBounds := false;
      var target := samples[index];
      var source := newSample.Data();
      ghost var before := target.Data();
      CopyLeadingFields(target, source, flags);
      CopyLocationParts(target, source, flags);
      CopyFieldsOneByOne(before, source, flags);
    }
  }

  /** Reverting the status of the same sample twice restores it; the list
      and the map are untouched throughout. */
  method RevertTwice(shipment: Shipment, index: int)
    requires shipment.Valid()
    modifies if 0 <= index < |shipment.samples| then {shipment.samples[index]} else {}
    ensures shipment.samples == old(shipment.samples) && shipment.mapCells == old(shipment.mapCells)
    ensures 0 <= index < |shipment.samples| ==>
              shipment.samples[index].Data() == old(shipment.samples[index].Data())
  {
    shipment.RevertSampleStatus(index);
    shipment.RevertSampleStatus(index);
  }
}

=== FILE: util.dfy ===
/** Small helpers shared by the model: an Option type, Java's integer
    division, and the string searches and splits the Java library performs. */
module Util {

  datatype Option<T> = None | Some(value: T)

  /** `Math.max` on two ints. */
  function Max(a: int, b: int): (m: int)
    ensures m >= a && m >= b && (m == a || m == b)
  {
    if a >= b then a else b
  }

  // ---------------------------------------------------------------------
  // Java integer arithmetic. Dafny's `/` and `%` are Euclidean; Java's
  // truncate toward zero. Every divisor in the model is positive.
  // ---------------------------------------------------------------------

  /** Java's `a / b` for `b > 0`: the quotient truncated toward zero. */
  function JDiv(a: int, b: int): int
    requires b > 0
  {
    if a >= 0 then a / b else -((-a) / b)
  }

  /** Java's `a % b` for `b > 0`: takes the sign of `a`. */
  function JRem(a: int, b: int): int
    requires b > 0
  {
    a - b * JDiv(a, b)
  }

  lemma JavaDivIsEuclideanOnNaturals(a: int, b: int)
    requires a >= 0 && b > 0
    ensures JDiv(a, b) == a / b && JRem(a, b) == a % b
  {
  }

  /** Quotient and remainder are determined by `n == q * d + r`, `0 <= r < d`. */
  lemma DivModUnique(n: int, d: int, q: int, r: int)
    requires d > 0 && 0 <= r < d && n == q * d + r
    ensures n / d == q && n % d == r
  {
    var q', r' := n / d, n % d;
    assert n == q' * d + r';
    assert (q - q') * d == r' - r;
    if q > q' {
      MulAtLeast(q - q', d);
    } else if q < q' {
      MulAtLeast(q' - q, d);
    }
  }

  lemma MulAtLeast(k: int, d: int)
    requires k >= 1 && d > 0
    ensures k * d >= d
  {
    assert k * d == (k - 1) * d + d;
    MulNonNegative(k - 1, d);
  }

  lemma MulNonNegative(a: int, b: int)
    requires a >= 0 && b >= 0
    ensures a * b >= 0
  {
  }

  lemma MulMonotone(a: int, b: int, c: int)
    requires a <= b && c >= 0
    ensures a * c <= b * c
  {
    assert b * c - a * c == (b - a) * c;
    MulNonNegative(b - a, c);
  }

  /** Floor division is monotone in the dividend. */
  lemma DivMonotone(a: int, b: int, d: int)
    requires 0 <= a <= b && d > 0
    ensures a / d <= b / d
  {
    if a / d > b / d {
      MulMonotone(b / d + 1, a / d, d);
    }
  }

  /** `a < k * d` bounds the quotient `a / d` by `k`. */
  lemma DivBelow(a: int, d: int, k: int)
    requires 0 <= a && d > 0 && a < k * d
    ensures a / d < k
  {
    if a / d >= k {
      MulMonotone(k, a / d, d);
    }
  }

  // ---------------------------------------------------------------------
  // Strings
  // ---------------------------------------------------------------------

  predicate EndsWith(s: string, suffix: string) {
    |suffix| <= |s| && s[|s| - |suffix|..] == suffix
  }

  /** `String.indexOf(char)`: the first position of `c`, or -1. */
  function IndexOf(s: string, c: char): (i: int)
    ensures -1 <= i < |s|
    ensures i >= 0 ==> s[i] == c && c !in s[..i]
    ensures i == -1 <==> c !in s
  {
    if s == [] then -1
    else if s[0] == c then 0
    else
      var k := IndexOf(s[1..], c);
      if k < 0 then -1 else k + 1
  }

  /** Splits `s` at every occurrence of `c`: one more part than there are `c`s. */
  function SplitAll(s: string, c: char): (parts: seq<string>)
    ensures |parts| >= 1
    ensures forall k :: 0 <= k < |parts| ==> c !in parts[k]
    decreases |s|
  {
    var i := IndexOf(s, c);
    if i < 0 then [s] else [s[..i]] + SplitAll(s[i + 1..], c)
  }

  /** Splits at the first `limit - 1` occurrences of `c` only; the last part
      keeps the rest, as `String.split(regex, limit)` with `limit > 0` does. */
  function SplitLimit(s: string, c: char, limit: nat): (parts: seq<string>)
    requires limit >= 1
    ensures 1 <= |parts| <= limit
    ensures forall k :: 0 <= k < |parts| - 1 ==> c !in parts[k]
    decreases limit
  {
    var i := IndexOf(s, c);
    if limit == 1 || i < 0 then [s] else [s[..i]] + SplitLimit(s[i + 1..], c, limit - 1)
  }

  /** Glues parts together with `c` between neighbours. */
  function Join(parts: seq<string>, c: char): string
    requires |parts| >= 1
  {
    if |parts| == 1 then parts[0] else parts[0] + [c] + Join(parts[1..], c)
  }

  /** Joining the parts of a split gives the split string back. */
  lemma {:induction false} JoinSplitAll(s: string, c: char)
    ensures Join(SplitAll(s, c), c) == s
    decreases |s|
  {
    var i := IndexOf(s, c);
    if i >= 0 {
      var rest := SplitAll(s[i + 1..], c);
      JoinSplitAll(s[i + 1..], c);
      assert Join(SplitAll(s, c), c) == s[..i] + [c] + Join(rest, c) by {
        assert SplitAll(s, c) == [s[..i]] + rest;
        assert ([s[..i]] + rest)[1..] == rest;
      }
      assert s == s[..i] + [c] + s[i + 1..];
    }
  }

  lemma {:induction false} JoinSplitLimit(s: string, c: char, limit: nat)
    requires limit >= 1
    ensures Join(SplitLimit(s, c, limit), c) == s
    decreases limit
  {
    var i := IndexOf(s, c);
    if limit > 1 && i >= 0 {
      var rest := SplitLimit(s[i + 1..], c, limit - 1);
      JoinSplitLimit(s[i + 1..], c, limit - 1);
      assert Join(SplitLimit(s, c, limit), c) == s[..i] + [c] + Join(rest, c) by {
        assert SplitLimit(s, c, limit) == [s[..i]] + rest;
        assert ([s[..i]] + rest)[1..] == rest;
      }
      assert s == s[..i] + [c] + s[i + 1..];
    }
  }

  /** Number of occurrences of `c` in `s`. */
  function Count(s: string, c: char): nat {
    if s == [] then 0 else (if s[0] == c then 1 else 0) + Count(s[1..], c)
  }

  lemma {:induction false} CountSplit(s: string, c: char, i: nat)
    requires i <= |s|
    ensures Count(s, c) == Count(s[..i], c) + Count(s[i..], c)
  {
    if i > 0 {
      CountSplit(s[1..], c, i - 1);
      assert s[1..][..i - 1] == s[..i][1..];
      assert s[1..][i - 1..] == s[i..];
    }
  }

  lemma {:induction false} CountZero(s: string, c: char)
    ensures Count(s, c) == 0 <==> c !in s
  {
    if s != [] {
      CountZero(s[1..], c);
      assert s == [s[0]] + s[1..];
    }
  }

  /** The split yields `min(limit, Count + 1)` parts. */
  lemma {:induction false} SplitLimitLength(s: string, c: char, limit: nat)
    requires limit >= 1
    ensures |SplitLimit(s, c, limit)| == if Count(s, c) + 1 < limit then Count(s, c) + 1 else limit
    decreases limit
  {
    var i := IndexOf(s, c);
    if limit > 1 && i >= 0 {
      SplitLimitStep(s, c, limit);
      SplitLimitLength(s[i + 1..], c, limit - 1);
    } else if i < 0 {
      CountZero(s, c);
    }
  }

  /** One split step: a part is cut off in front of the first `c`, and that
      `c` is one of the occurrences counted. */
  lemma SplitLimitStep(s: string, c: char, limit: nat)
    requires limit > 1 && IndexOf(s, c) >= 0
    ensures var tail := s[IndexOf(s, c) + 1..];
      && |SplitLimit(s, c, limit)| == 1 + |SplitLimit(tail, c, limit - 1)|
      && Count(s, c) == Count(tail, c) + 1
  {
    var i := IndexOf(s, c);
    var tail := s[i + 1..];
    assert Count(s, c) == Count(tail, c) + 1 by {
      CountSplit(s, c, i);
      CountSplit(s[i..], c, 1);
      CountZero(s[..i], c);
      assert s[i..][..1] == [c];
      assert s[i..][1..] == tail;
    }
  }

  /** `t` occurs in `s` starting at position `j`. */
  predicate OccursAt(s: string, t: string, j: int) {
    0 <= j && j + |t| <= |s| && s[j..j + |t|] == t
  }

  /** `String.indexOf(String)`: the first position at which `t` occurs inside `s`, or -1. */
  function IndexOfSub(s: string, t: string): (i: int)
    requires |t| > 0
    ensures -1 <= i && (i >= 0 ==> OccursAt(s, t, i))
    ensures forall j :: 0 <= j && (i < 0 || j < i) ==> !OccursAt(s, t, j)
    decreases |s|
  {
    if |s| < |t| then -1
    else if s[..|t|] == t then 0
    else
      var k := IndexOfSub(s[1..], t);
      assert forall j :: 1 <= j ==> (OccursAt(s, t, j) <==> OccursAt(s[1..], t, j - 1));
      if k < 0 then -1 else k + 1
  }
}

=== FILE: voice.dfy ===
/** `RecognizerThread`: the flags that pause, resume and stop the voice
    recognizer, the accepted weight range, and the classification of a
    recognized utterance as a weight. Java's `Double.parseDouble` and
    `String.valueOf(double)` are parameters of the model, and doubles are
    reals. */
module Voice {
  import opened Util

  const COMMAND_END := "command_end"
  const COMMAND_PREVIOUS := "command_back"
  const COMMAND_NEXT := "command_next"
  const NOT_AVAILABLE := "n/a"

  // ---------------------------------------------------------------------
  // Normalising an utterance
  // ---------------------------------------------------------------------

  /** `replaceFirst(" ", ".")`. */
  function ReplaceFirstSpace(s: string): string {
    if s == [] then ""
    else if s[0] == ' ' then ['.'] + s[1..]
    else [s[0]] + ReplaceFirstSpace(s[1..])
  }

  /** `replace(" ", "")`. */
  function RemoveSpaces(s: string): (r: string)
    ensures ' ' !in r
    ensures forall c :: c != ' ' ==> (c in r <==> c in s)
  {
    if s == [] then ""
    else (if s[0] == ' ' then "" else [s[0]]) + RemoveSpaces(s[1..])
  }

  /** The utterance with its first space turned into a decimal point and the
      other spaces removed: "1 5" becomes "1.5". */
  function Normalize(source: string): string {
    RemoveSpaces(ReplaceFirstSpace(source))
  }

  lemma {:induction false} ReplaceFirstSpaceSplits(s: string)
    ensures ' ' !in s ==> ReplaceFirstSpace(s) == s
    ensures ' ' in s ==>
      var i := IndexOf(s, ' ');
      ReplaceFirstSpace(s) == s[..i] + "." + s[i + 1..]
  {
    if s != [] && s[0] != ' ' {
      ReplaceFirstSpaceSplits(s[1..]);
      if ' ' in s {
        var i := IndexOf(s, ' ');
        assert IndexOf(s[1..], ' ') == i - 1;
        assert s[..i] == [s[0]] + s[1..][..i - 1];
        assert s[i + 1..] == s[1..][i..];
      }
    }
  }

  lemma {:induction false} RemoveSpacesAppend(a: string, b: string)
    ensures RemoveSpaces(a + b) == RemoveSpaces(a) + RemoveSpaces(b)
  {
    if a != [] {
      assert (a + b)[1..] == a[1..] + b;
      RemoveSpacesAppend(a[1..], b);
    } else {
      assert a + b == b;
    }
  }

  lemma {:induction false} RemoveSpacesNone(s: string)
    requires ' ' !in s
    ensures RemoveSpaces(s) == s
  {
    if s != [] {
      RemoveSpacesNone(s[1..]);
    }
  }

  /** Normalisation keeps the text before the first space, puts a '.' there
      and drops the spaces after it; a text without spaces is unchanged.
      The result has no space, and holds a '.' exactly when the source held a
      space or a '.'. */
  lemma NormalizeSpec(source: string)
    ensures ' ' !in source ==> Normalize(source) == source
    ensures ' ' in source ==>
      var i := IndexOf(source, ' ');
      Normalize(source) == source[..i] + "." + RemoveSpaces(source[i + 1..])
    ensures ' ' !in Normalize(source)
    ensures '.' in Normalize(source) <==> ' ' in source || '.' in source
    ensures forall c :: c != ' ' && c != '.' ==> (c in Normalize(source) <==> c in source)
  {
    if ' ' !in source {
      ReplaceFirstSpaceSplits(source);
      RemoveSpacesNone(source);
    } else {
      var i := IndexOf(source, ' ');
      NormalizeAtFirstSpace(source);
      assert source == source[..i] + " " + source[i + 1..];
      SpaceReplacedChars(source[..i], source[i + 1..]);
    }
  }

  lemma NormalizeAtFirstSpace(source: string)
    requires ' ' in source
    ensures var i := IndexOf(source, ' ');
      Normalize(source) == source[..i] + "." + RemoveSpaces(source[i + 1..])
  {
    ReplaceFirstSpaceSplits(source);
    var i := IndexOf(source, ' ');
    var before, after := source[..i], source[i + 1..];
    RemoveSpacesAppend(before + ".", after);
    RemoveSpacesAppend(before, ".");
    RemoveSpacesNone(before + ".");
  }

  lemma SpaceReplacedChars(before: string, after: string)
    requires ' ' !in before
    ensures var t := before + "." + RemoveSpaces(after);
      && ' ' !in t && '.' in t
      && forall c :: c != ' ' && c != '.' ==> (c in t <==> c in before + " " + after)
  {
    var t := before + "." + RemoveSpaces(after);
    assert t[|before|] == '.';
    forall c | c != ' ' && c != '.'
      ensures c in t <==> c in before + " " + after
    {
      assert c in t <==> c in before || c in RemoveSpaces(after);
      assert c in before + " " + after <==> c in before || c in after;
    }
  }

  // ---------------------------------------------------------------------
  // Classifying an utterance
  // ---------------------------------------------------------------------

  /** What `interpretWeight` decides for an utterance: whether it is a weight
      strictly inside the range, and the text it leaves in `result`. */
  datatype Interpretation = Interpretation(isWeight: bool, result: string)

  /** A weight strictly between the bounds is accepted and re-serialised; an
      unparsable text with a '.' is "n/a"; anything else (a parsable weight
      out of range, a command word) is the normalised text. */
  function Interpret(source: string, lower: real, upper: real,
                     parseDouble: string -> Option<real>, valueOf: real -> string): Interpretation
  {
    var res := Normalize(source);
    match parseDouble(res)
    case Some(weight) =>
      if lower < weight && weight < upper then Interpretation(true, valueOf(weight))
      else Interpretation(false, res)
    case None =>
      if '.' in res then Interpretation(false, NOT_AVAILABLE) else Interpretation(false, res)
  }

  /** The answer is "a weight" exactly when the normalised text parses to a
      value strictly inside the range, and then the result is that value
      written back; otherwise the result is "n/a" exactly when the text does
      not parse and has a '.', and the normalised text in every other case. */
  lemma InterpretSpec(source: string, lower: real, upper: real,
                      parseDouble: string -> Option<real>, valueOf: real -> string)
    ensures var r := Interpret(source, lower, upper, parseDouble, valueOf);
      var res := Normalize(source);
      && (r.isWeight <==> parseDouble(res).Some? && lower < parseDouble(res).value < upper)
      && (r.isWeight ==> r.result == valueOf(parseDouble(res).value))
      && (!r.isWeight && parseDouble(res).None? && '.' in res ==> r.result == NOT_AVAILABLE)
      && (!r.isWeight && (parseDouble(res).Some? || '.' !in res) ==> r.result == res)
  {
  }

  /** An empty or reversed range accepts nothing: `setRanges` does not check
      the order of its bounds. */
  lemma EmptyRangeAcceptsNothing(source: string, lower: real, upper: real,
                                 parseDouble: string -> Option<real>, valueOf: real -> string)
    requires upper <= lower
    ensures !Interpret(source, lower, upper, parseDouble, valueOf).isWeight
  {
  }

  /** "1 5" is read as "1.5"; with the default upper bound 1.5 it is out of
      range, so the result is "1.5" and not "n/a". */
  lemma UpperBoundIsExclusive(parseDouble: string -> Option<real>, valueOf: real -> string)
    requires parseDouble("1.5") == Some(1.5)
    ensures Interpret("1 5", 0.0, 1.5, parseDouble, valueOf) == Interpretation(false, "1.5")
  {
    assert ReplaceFirstSpace("1 5") == "1.5" by {
      assert ReplaceFirstSpace(" 5") == ['.'] + "5";
    }
    assert Normalize("1 5") == "1.5" by {
      RemoveSpacesNone("1.5");
    }
  }

  /** A word without spaces or dots that does not parse, such as the
      command words `command_next`, `command_back` and `command_end`, is
      passed on unchanged. */
  lemma CommandPassesThrough(word: string, lower: real, upper: real,
                             parseDouble: string -> Option<real>, valueOf: real -> string)
    requires ' ' !in word && '.' !in word && parseDouble(word).None?
    ensures Interpret(word, lower, upper, parseDouble, valueOf) == Interpretation(false, word)
  {
    NormalizeSpec(word);
  }

  // ---------------------------------------------------------------------
  // The thread's state
  // ---------------------------------------------------------------------

  /** The recognizer thread's flags, range and last result. The recognizer
      itself, its loop in `run` and the `uiRefresh` hook are not modelled. */
  class RecognizerThread {
    var rangeLower: real
    var rangeUpper: real
    var pauseFlag: bool
    var isActive: bool
    var result: string

    /** A new thread is paused and active, with no result and the range
        (0, 1.5). */
    constructor ()
      ensures rangeLower == 0.0 && rangeUpper == 1.5
      ensures pauseFlag && isActive && result == ""
    {
      rangeLower := 0.0;
      rangeUpper := 1.5;
      pauseFlag := true;
      isActive := true;
      result := "";
    }

    /** `setRanges`: both bounds as given, in any order. */
    method SetRanges(lower: real, upper: real)
      modifies this`rangeLower, this`rangeUpper
      ensures rangeLower == lower && rangeUpper == upper
    {
      rangeLower := lower;
      rangeUpper := upper;
    }

    /** `interpretWeight`: classifies the utterance against the current
        range and stores the text it settles on in `result`. */
    method InterpretWeight(source: string, parseDouble: string -> Option<real>, valueOf: real -> string)
      returns (isWeight: bool)
      modifies this`result
      ensures Interpretation(isWeight, result) ==
              Interpret(source, rangeLower, rangeUpper, parseDouble, valueOf)
    {
      var s := ReplaceFirstSpace(source);
      var res := RemoveSpaces(s);
      var parsed := parseDouble(res);
      if parsed.Some? {
        var weight := parsed.value;
        if rangeLower < weight && weight < rangeUpper {
          result := valueOf(weight);
          return true;
        }
      } else if '.' in res {
        result := NOT_AVAILABLE;
        return false;
      }
      result := res;
      return false;
    }

    /** `paused()`. */
    method Paused() returns (paused: bool)
      ensures paused == pauseFlag
    {
      return pauseFlag;
    }

    /** `proceed()`: clears the pause flag and nothing else. */
    method Proceed()
      modifies this`pauseFlag
      ensures !pauseFlag
    {
      pauseFlag := false;
    }

    /** `pause()`: sets the pause flag and nothing else. */
    method Pause()
      modifies this`pauseFlag
      ensures pauseFlag
    {
      pauseFlag := true;
    }

    /** `close()`: ends the recognition loop by clearing `isActive` only. */
    method Close()
      modifies this`isActive
      ensures !isActive
    {
      isActive := false;
    }
  }

  /** Pausing and proceeding toggle what `paused()` reports, and neither
      touches the active flag, the range or the result. */
  method PauseThenProceed(t: RecognizerThread) returns (whilePaused: bool, afterwards: bool)
    modifies t
    ensures whilePaused && !afterwards
    ensures t.isActive == old(t.isActive) && t.result == old(t.result)
    ensures t.rangeLower == old(t.rangeLower) && t.rangeUpper == old(t.rangeUpper)
  {
    t.Pause();
    whilePaused := t.Paused();
    t.Proceed();
    afterwards := t.Paused();
  }
}
